=== FILE: README.md ===
# WikiRun rooms and races, in Dafny

WikiRun is a Wikipedia speed-running game. Players race from a start article to a target article by following links. In multiplayer mode, up to six players share a room identified by a four-digit code.

This project models the backend's in-memory room and race coordinator (`backend/server.js`) and the small pure helpers of the browser pages. It proves properties of both.

- **State.** The server state is two maps keyed by room code: rooms (members, host, difficulty, per-room leaderboard and match history) and active races.
- **Handlers.** Every socket handler is a pure function from the state, the requesting socket and the raw payload fields to the next state plus the list of events it emits.
  - Payload fields are JSON values (`Js`), so the validators' type and truthiness tests are modelled.
  - Article titles, the clock (`Date.now`) and the random draw of a room code are parameters.
- **Client pages.** Each page's helpers are pure functions:
  - the time formatters;
  - the ordinal suffix;
  - the leaderboard comparators;
  - the dashboard sort and header state;
  - the click and path bookkeeping of the two game pages.
- **Sorting.** Every sort in the system is JavaScript's stable `Array.prototype.sort`. It is modelled once, as a stable insertion sort over a comparator (`Sorting.SortBy`), with lemmas for sortedness, permutation and stability.

Modules:

- `Common` and `Text`: an option type, sequence and arithmetic facts, decimal numerals, `padStart`, splitting on a separator, ASCII lower-casing, and string `<`.
- `Sorting`: the stable sort.
- `Validation`: the payload validators.
- `Types`: rooms, members, racers, races, counters and match summaries.
- `Membership`: join, rejoin, leave and host checks.
- `Race`: race snapshot, progress, finish, placement, quitting, standings and the end condition.
- `Leaderboard`: committing a race to the room's counters and history, and reading them back.
- `Coordinator`: every handler.
- `CoordinatorLaws`: the state invariant across handlers and room lifecycle facts. The invariant files every room under its own code with the membership invariant and a leaderboard whose place counters add up to its match counts, and has every race belong to an existing room.
- `Scenario`: a full two-racer race.
- Client side: `TimeFormat`, `Ordinal`, `Boards`, `Dashboard`, `GamePage` and `Solo`.

The model follows the code, including these behaviours a reader may not expect:

- **Quitting.** A player who quits is marked finished without a position, and `finishedCount` is not raised. The next accepted finish ranks every finished racer, quitter included (`Race.QuitterRankedFirst`). So `finishedCount` can lag the number of finished racers.
- **Repeated commits.** Once a race has met its end condition it stays in place. Every further accepted finish commits it again and announces the end again.
  - In the two-racer race of Ann and Bob, Bob wins and the race is committed. Ann's later finish commits it a second time, so Bob ends with two first places, not one (`Scenario.BobCreditedTwice`).
- **Room-code collisions.** There is no retry. A freshly drawn code that is already in use replaces that room.
- **Host authority.** `endRound` and `playAgain` authorize by the name in the payload, not by the socket.
- **Duplicate socket ids.** One socket can be bound to two names. `leaveRoom` then removes both but checks only the first for host migration, which can leave a host who is not a member (`Membership.LeaveTwoNamesOneSocket`). So the host invariant needs at most one member per socket.

## Model

| member | source | states |
|---|---|---|
| Validation.ValidateDifficulty | backend/server.js:90-93 | a difficulty is accepted exactly when the value is one of the strings easy, medium, hard, and then it is that tier |
| Validation.DifficultyRoundTrip | backend/server.js:90-93 | every tier's name is accepted as that tier |
| Validation.SanitizeRoomCode | backend/server.js:77-88 | the result is present exactly when the value is a string of exactly four ASCII digits, and then it is that string unchanged |
| Validation.GenerateRoomCode | backend/server.js:115-117 | every draw in 1000..9999 gives four digits with no leading zero |
| Validation.GeneratedCodeValid | backend/server.js:115-117 | a generated code passes the room-code validator and reads back as its draw |
| Validation.Trim | backend/server.js:59 | the result is the input with white space removed at both ends, and neither end of the result is white space |
| Validation.EscapeNameChars | backend/server.js:65-70 | escaping leaves a name in the allowed alphabet unchanged, and an escaped string in the alphabet came from a string in the alphabet |
| Validation.SanitizeUsername | backend/server.js:56-75 | a name is accepted exactly when the value is a string whose trimmed form has 1 to 20 characters from letters, digits, space, '_' and '-'; the accepted name is the trimmed string |
| Validation.SanitizePath | backend/server.js:95-110 | a non-array gives no entries; an array gives min(n, 1000) entries; an array over 1000 entries is cut to its first 1000 unsanitized; otherwise a string entry becomes its first 500 characters HTML-escaped and any other entry becomes the empty string |
| Validation.SanitizeTitlePlain | backend/server.js:100-106 | a title of at most 500 allowed characters passes through unchanged |
| Validation.InRange | backend/server.js:382-383 | a number is kept exactly when it lies in [0, hi] |
| Membership.FindByName | backend/server.js:168 | the index found holds the name and no earlier member does; absent exactly when the name is not a member |
| Membership.NewRoom | backend/server.js:132-139 | a new room has no members and no host, an empty leaderboard and history, and meets the room invariant |
| Membership.Join | backend/server.js:168-182 | a known name only moves to the new socket, with names and order unchanged; a new name is refused when six members exist, otherwise appended, becoming host only in an empty room |
| Membership.JoinKeepsInv | backend/server.js:168-182 | joining keeps at most six members, unique names and the host among the members; the name is then a member |
| Membership.JoinHostIffFirst | backend/server.js:179-181 | a new member becomes host exactly when the room had no members |
| Membership.RemoveConn | backend/server.js:202 | removing a socket drops exactly the members bound to it |
| Membership.RemoveConnSubsequence | backend/server.js:202 | the remaining members keep their order; the first one left is the first member on another socket |
| Membership.Leave | backend/server.js:201-214 | the room disappears exactly when every member was on the socket; otherwise the host moves to the new first member when the leaver was host, and stays otherwise |
| Membership.LeaveKeepsInv | backend/server.js:201-214 | leaving keeps the room invariant when at most one member is bound to the socket |
| Membership.LeaveTwoNamesOneSocket | backend/server.js:201-211 | with two names on one socket, leaving removes both and leaves a host who is not a member |
| Membership.HostMigration | backend/server.js:210-212 | the host leaving hands over to the next member in join order; a non-host leaving changes nothing about the host |
| Membership.HostChecks | backend/server.js:224-225 | under the room invariant, the name check is "is the host", and the socket check is "the first member on this socket is the host" |
| Membership.Rejoin | backend/server.js:490-504 | rejoining succeeds exactly for a member's name and then acts as a join of a known name |
| Race.NewSession | backend/server.js:243-258 | a new race copies the room's code and difficulty, takes the given articles and start time, and snapshots every member in order with zero clicks and time, an empty path, unfinished and unplaced |
| Race.FindRacer | backend/server.js:376 | the index found holds the racer's name and no earlier racer does; absent exactly when the name is not racing |
| Race.Standings | backend/server.js:305-316 | the standings are a rearrangement of the racers' (name, clicks, finished) projections |
| Race.StandingsOrdered | backend/server.js:351-362 | finished racers come before unfinished ones and keep race order; unfinished racers are in ascending clicks with ties in race order |
| Race.Ranking | backend/server.js:388-389 | the ranking is a rearrangement of the finished racers |
| Race.RankingFacts | backend/server.js:388-389 | the ranking holds every finished racer once, sorted by clicks then time, with ties in race order |
| Race.AssignPositions | backend/server.js:391-393 | only positions change, and only for finished racers |
| Race.PositionsInRange | backend/server.js:391-393 | every finished racer gets a position between 1 and the number of finished racers |
| Race.PositionsCovered | backend/server.js:391-393 | every position from 1 to the number of finished racers is held: positions are dense |
| Race.PositionsOrdered | backend/server.js:388-393 | one finished racer is placed before another exactly when it has fewer clicks, or equal clicks and less time, or ties and comes first in the race |
| Race.Finished | backend/server.js:379-385 | the racer is marked finished with clicks clamped to [0, 10000] and time to [0, 86400000] (0 otherwise), the sanitized path, and the truthiness of the hint flag |
| Race.Finish | backend/server.js:376-393 | a report is ignored exactly when the name is unknown or already finished; otherwise the racer's record is replaced, the count rises by one and positions are reassigned |
| Race.FinishAccepted | backend/server.js:376-393 | after an accepted finish, the racer is finished with the clamped report, other racers differ only in position, and the finished count rises by exactly one |
| Race.FinishKeepsInv | backend/server.js:379-386 | an accepted finish keeps the race invariant |
| Race.FinishIdempotent | backend/server.js:377 | a second finish report for the same racer is ignored |
| Race.Quit | backend/server.js:436-440 | quitting marks the named racer finished with no position and changes nothing else |
| Race.QuitKeepsInv | backend/server.js:436-440 | quitting keeps the race invariant |
| Race.Progress | backend/server.js:339-349 | only an unfinished named racer changes: clicks are taken when in [0, 10000] and kept otherwise, and a truthy string article is stored escaped and cut to 500 characters |
| Race.ProgressKeepsInv | backend/server.js:339-349 | progress keeps the race invariant |
| Race.GameOver | backend/server.js:410-419 | the race ends exactly when its size has a threshold and the finished count reaches it |
| Race.GameOverShape | backend/server.js:413-418 | a one-racer race never ends by finishing; an ended race stays ended as the count grows; 2, 3 and 4-6 racers end at 1, 2 and 3 finishes |
| Race.QuitScenarioReached | backend/server.js:427-441 | a quit marks the racer finished while the finished count stays 0 |
| Race.QuitterRankedFirst | backend/server.js:386-393 | after a quit, the next accepted finish ranks the quitter first, with 0 clicks, and the finisher second |
| Leaderboard.CountPositions | backend/server.js:589-591 | a race of at most 2 racers credits one place, 3 racers credit two, 4 or more credit three |
| Leaderboard.CreditedPlacesMatchThreshold | backend/server.js:589-591 | for 2 to 6 racers, the number of credited places equals the number of finishes that end the race |
| Leaderboard.PlacedRacers | backend/server.js:587 | exactly the racers that are finished and hold a position are kept |
| Leaderboard.Lookup | backend/server.js:596-606 | a name's entry, or all zeros when it has none |
| Leaderboard.CreditAllLookup | backend/server.js:593-612 | committing adds to each name's counters exactly its credited firsts, seconds and thirds, and its credited match count |
| Leaderboard.CreditAllKeepsInv | backend/server.js:593-612 | committing keeps names unique and first + second + third equal to the match count |
| Leaderboard.CreditAllKeepsNames | backend/server.js:596-604 | committing never drops or reorders names; new names are appended |
| Leaderboard.Summary | backend/server.js:614-626 | the appended match records the race size, target and difficulty; it is abandoned exactly when no racer holds a position; its results are the placed racers in race order |
| Leaderboard.RecordMatch | backend/server.js:582-627 | a commit changes only the room's counters and appends exactly one match to the history |
| Leaderboard.RecordMatchCounts | backend/server.js:593-612 | after a commit each name has gained exactly its credited places, counters never decrease, and the counters still add up |
| Leaderboard.TwoRacerSecondUncredited | backend/server.js:589-594 | a two-racer race credits no second or third place |
| Leaderboard.SortResults | backend/server.js:529 | a match's results sorted by position are a rearrangement of them |
| Leaderboard.SortHistory | backend/server.js:523-530 | the in-place sort changes each stored match only in the order of its results |
| Leaderboard.ReadRecord | backend/server.js:522-536 | the reply carries the room's difficulty, counters and history; the room changes only in its history |
| Leaderboard.ReadRecordSorted | backend/server.js:529 | every returned match lists its results by ascending position, as a rearrangement of the stored ones |
| Leaderboard.ReadRecordIdempotent | backend/server.js:523-530 | reading the record twice gives the same reply and the same room as reading once |
| Coordinator.CreateRoom | backend/server.js:122-145 | a bad name is refused; otherwise an empty, hostless room with the valid difficulty (else hard) is filed under the drawn code, replacing any room there, and only the creator hears of it |
| Coordinator.JoinRoom | backend/server.js:147-192 | errors are reported in the order bad code, bad name, room not found, room full, with no change; on success the room is the joined one, the joiner gets the member list and the others hear of it |
| Coordinator.LeaveRoom | backend/server.js:194-215 | a bad code or unknown room is ignored; an emptied room is deleted with its race; otherwise the room becomes the left room and its channel hears the new list |
| Coordinator.ChangeDifficulty | backend/server.js:217-229 | something changes exactly when the code and difficulty are valid, the room exists and the socket is the host's; then only the difficulty changes and the room hears it |
| Coordinator.Launch | backend/server.js:243-262 | the race filed under the code is a snapshot of the room's members with zeroed clicks, time, path and position, no finishes, the room's difficulty, the two titles and the start time; it replaces any race under that code, the other races and all rooms are unchanged, and the room hears the start |
| Coordinator.StartGame | backend/server.js:231-263 | a race starts exactly when the code is valid, the room exists and the socket is the host's |
| Coordinator.PlayAgain | backend/server.js:539-575 | a race starts exactly when code and name are valid, the room exists and the named player is a member who is host |
| Coordinator.RejoinRoom | backend/server.js:474-505 | bad input and unknown rooms or names are refused with their messages; a member's name moves to the socket, which is told whether it is host |
| Coordinator.GetRoomLeaderboard | backend/server.js:507-537 | a bad code or unknown room is refused; otherwise the socket receives the room's record and the stored histories become position-sorted |
| Coordinator.JoinGameSession | backend/server.js:293-320 | the state never changes; the socket gets the standings exactly when code and name are valid and a race exists |
| Coordinator.PlayerProgress | backend/server.js:330-365 | with valid input and a race in place, the progress is applied and the race channel gets the standings; otherwise nothing happens |
| Coordinator.Commit | backend/server.js:582-584 | committing into a missing room changes nothing; otherwise only that room is recorded |
| Coordinator.Settle | backend/server.js:395-424 | the race is stored and its standings broadcast; when the end condition holds, the race is also committed and the end announced |
| Coordinator.PlayerFinished | backend/server.js:367-425 | something happens exactly when the input is valid, a race exists and the finish is accepted; then the result is settled |
| Coordinator.PlayerQuit | backend/server.js:427-441 | nothing is sent and rooms are unchanged; for a valid code and name with a race in place the race becomes the quit applied to it, and every other input changes nothing |
| Coordinator.EndRound | backend/server.js:265-291 | something happens exactly when the input is valid, room and race exist and the named player is the host; then the race is committed as it stands and the race channel hears the round end |
| Coordinator.GetResults | backend/server.js:443-472 | only the socket receives the results; it gets its own record and the room's counters when the input is valid and room and race exist, and nothing otherwise |
| CoordinatorLaws.CreateRoomKeepsInv | backend/server.js:122-145 | creating a room keeps the coordinator invariant |
| CoordinatorLaws.JoinRoomKeepsInv | backend/server.js:147-192 | joining keeps the coordinator invariant |
| CoordinatorLaws.LeaveRoomKeepsInv | backend/server.js:194-215 | leaving keeps the coordinator invariant when no socket is bound to two members of a room |
| CoordinatorLaws.ChangeDifficultyKeepsInv | backend/server.js:217-229 | changing the difficulty keeps the coordinator invariant |
| CoordinatorLaws.StartGameKeepsInv | backend/server.js:231-263 | starting a race keeps the coordinator invariant, with the handler taken as atomic |
| CoordinatorLaws.PlayAgainKeepsInv | backend/server.js:539-575 | starting another race keeps the coordinator invariant, with the handler taken as atomic |
| CoordinatorLaws.RejoinRoomKeepsInv | backend/server.js:474-505 | rejoining keeps the coordinator invariant |
| CoordinatorLaws.PlayerProgressKeepsInv | backend/server.js:330-365 | progress keeps the coordinator invariant |
| CoordinatorLaws.PlayerFinishedKeepsInv | backend/server.js:367-425 | finishing, and any commit it triggers, keeps the coordinator invariant |
| CoordinatorLaws.PlayerQuitKeepsInv | backend/server.js:427-441 | quitting keeps the coordinator invariant |
| CoordinatorLaws.EndRoundKeepsInv | backend/server.js:265-291 | ending a round keeps the coordinator invariant |
| CoordinatorLaws.LastLeaveDestroysRoom | backend/server.js:205-207 | when the last member leaves, the room and its race are gone and joining the code reports "Room not found" |
| CoordinatorLaws.FirstJoinerHosts | backend/server.js:132-139 | the first member to join a new room becomes its host, whoever created it |
| CoordinatorLaws.NonHostIgnored | backend/server.js:224-225 | a socket that is not the host's cannot change the difficulty or start a race |
| CoordinatorLaws.RepeatedFinishDropped | backend/server.js:376-377 | a second finish report for the same racer changes nothing and sends nothing |
| Scenario.BobFinishes | backend/server.js:376-393 | in a two-racer race, Bob's finish is accepted, places him first and meets the end condition |
| Scenario.AnnFinishes | backend/server.js:376-393 | Ann's later finish is still accepted and places her second behind Bob |
| Scenario.BobCreditedTwice | backend/server.js:410-424 | both finishes commit the race, so Bob gains two firsts and two matches while Ann gains nothing |
| Scenario.LateFinishCommitsAgain | backend/server.js:410-424 | once a race has met its end condition, every further accepted finish commits it again, keeps it in place and announces the end again |
| Text.NatToStringValue | results.js:10-13 | a printed number reads back as that number |
| Text.ZeroPad | results.js:10-13 | the padded numeral is all digits and at least the requested width |
| Text.ZeroPadValue | results.js:10-13 | padding keeps the number's value; numbers below 100 pad to exactly two digits and below 1000 to exactly three |
| Text.Lower | dashboard.js:56-57 | lower-casing keeps the length and maps each character through ASCII lower-casing |
| Text.StrLtConnected | dashboard.js:74-75 | any two different strings are ordered one way or the other by `<` |
| Text.StrLtTransitive | dashboard.js:74-75 | string `<` is transitive |
| TimeFormat.ClockOf | results.js:4-8 | the hours, minutes, seconds and milliseconds recombine to the input, with minutes and seconds below 60 and milliseconds below 1000 |
| TimeFormat.ReadFormatTime | multiplayer-results.js:8-27 | the printed time reads back as the exact duration |
| TimeFormat.ReadRender | multiplayer-game.js:129-148 | the printed fields are the clock's fields, zero-padded, from the largest non-zero unit down |
| TimeFormat.FormatTimeShape | multiplayer-leaderboard.js:12-31 | an hour field appears exactly when there are hours, a minute field exactly when there are hours or minutes; minutes and seconds take two digits, milliseconds three |
| TimeFormat.FormatTimeExamples | results.js:15-21 | 60000 prints 01:00.000, 3600000 prints 01:00:00.000, and 3723045 prints 01:02:03.045 |
| TimeFormat.FormatZero | results.js:19-20 | 0 prints 00.000 |
| TimeFormat.ClockAt | results.js:4-8 | a clock with fields in range is the only breakdown of its total |
| TimeFormat.ReadDashTime | dashboard.js:9-23 | the dashboard's time reads back as the exact duration below a minute, and as the duration cut to whole seconds from a minute on |
| TimeFormat.ReadDashRender | dashboard.js:16-22 | the dashboard prints unpadded hours, minutes and seconds, dropping milliseconds, from a minute on, and seconds with three-digit milliseconds below |
| TimeFormat.DashTimeExamples | dashboard.js:16-22 | 3045 prints 3.045s, 123456 prints 2m 3s, and 3723045 prints 1h 2m 3s |
| Ordinal.SuffixIsEnglish | multiplayer-leaderboard.js:38-45 | the page's remainder test picks the English suffix: th for a tens digit of 1, otherwise st, nd or rd for a last digit of 1, 2 or 3, and th otherwise |
| Ordinal.SuffixPeriodic | multiplayer-leaderboard.js:39-44 | the suffix depends only on the last two digits, and numbers ending in 11, 12 or 13 take th |
| Ordinal.PositionSuffix | multiplayer-leaderboard.js:38-45 | the ordinal is the number's numeral followed by a two-letter suffix, and it reads back as the number, 0 included |
| Ordinal.PositionSuffixEnglish | multiplayer-results.js:193-198 | the suffix printed is the English one for every number |
| Ordinal.PositionLabel | multiplayer-results.js:191-199 | a missing or zero place prints '-', and anything else prints an ordinal that reads back as the place |
| Ordinal.YourPosition | multiplayer-results.js:40-55 | no stats prints '-', stats without a place print DNF, and otherwise the ordinal of the place |
| Ordinal.HistoryLabels | multiplayer-leaderboard.js:205-211 | the k-th listed result of a match is labelled with the ordinal of k |
| Ordinal.PositionSuffixExamples | multiplayer-leaderboard.js:38-45 | 0, 1, 2, 3, 11, 12, 22 and 113 print 0th, 1st, 2nd, 3rd, 11th, 12th, 22nd and 113th; a missing or zero place prints '-' |
| Boards.TotalWinsOfBoard | multiplayer-results.js:123-124 | the total wins shown for a server entry equal its match count |
| Boards.OverallLeConsistent | multiplayer-results.js:102-107 | the overall comparator is a total preorder |
| Boards.OverallOrderSorted | multiplayer-results.js:102-107 | the overall board is a rearrangement with total wins non-increasing, ties by first places non-increasing, and entries equal on both in their original order |
| Boards.PodiumLeConsistent | multiplayer-leaderboard.js:128-132 | the podium comparator is a total preorder |
| Boards.PodiumOrderSorted | multiplayer-leaderboard.js:128-132 | the podium board is a rearrangement in descending (first, second, third) order, with equal medals in original order |
| Boards.PodiumTies | multiplayer-results.js:147-151 | two entries tie on the podium exactly when they hold the same medals |
| Boards.MissingIsZero | multiplayer-leaderboard.js:85-90 | an absent counter sorts exactly like a zero |
| Dashboard.SortLeaderboard | dashboard.js:46-81 | the sorted copy is a rearrangement of the records |
| Dashboard.SortLeaderboardOrder | dashboard.js:46-81 | rank and unknown columns keep the original order; other columns give non-decreasing keys for "asc" and non-increasing keys for any other order, with equal keys in their original order |
| Dashboard.NicknameAscending | dashboard.js:55-58 | sorted by nickname ascending, the lower-cased nicknames never decrease |
| Dashboard.DashLeConsistent | dashboard.js:49-78 | the comparator is a total preorder for every column and order |
| Dashboard.SortTable | dashboard.js:159-166 | a click makes its difficulty and column current and keeps the order asc or desc |
| Dashboard.SortTableTwice | dashboard.js:160-161 | clicking the current header flips the order, and clicking it twice restores the view |
| Dashboard.ClickMovesArrow | dashboard.js:152-166 | after a click exactly the clicked header has an arrow, ascending for a newly clicked header |
| Dashboard.IconAgreesWithTable | dashboard.js:91-92 | ▲ over a sortable column means the table's keys never decrease, ▼ means they never increase, and tables of other difficulties show records as received |
| Dashboard.InitialUnsorted | dashboard.js:3-5 | on opening, every table shows its records as received |
| GamePage.Init | multiplayer-game.js:33-40 | the path starts as [start] with split times [0], the start article current, no clicks, active and unfinished, the given target, the timer started at the given time, and the hint unused and closed |
| GamePage.Navigate | multiplayer-game.js:216-262 | an inactive page ignores navigation; otherwise one click, one path entry and one split time are added and progress is reported; an unfinished page that reaches the target stops and also reports its finish (clicks, time, path, hint use) and leaves the race channel, and any other navigation sends only the progress |
| GamePage.FinishGame | multiplayer-game.js:244-267 | the finish is reported exactly when the page is active and unfinished, with its clicks, time, path and hint use; then the page stops and is marked finished, and nothing else about it changes |
| GamePage.GameEnded | multiplayer-game.js:58-62 | the end broadcast ends the game only for a player who has not finished: that page stops and leaves the race channel with every other field unchanged, and a finished page is untouched |
| GamePage.RoundEndedStops | multiplayer-game.js:58-73 | the round-end broadcast stops the page and leaves the race channel whether or not the player has finished, and acts as the end broadcast exactly for a player still racing |
| GamePage.ToggleHint | multiplayer-game.js:284-296 | opening the description marks the hint as used, closing it keeps the mark, and nothing else about the page changes |
| GamePage.StepFacts | multiplayer-game.js:216-267 | every event keeps one path entry and split time per click plus the start, keeps the target and the start time, and reports a finish only from an unfinished page, which it marks finished |
| GamePage.FinishAtMostOnce | multiplayer-game.js:244-248 | over any sequence of events the page reports its finish at most once, and never after it has finished; the target and the start time never change |
| GamePage.TitleMatchEquivalence | multiplayer-game.js:238 | the target check is an equivalence on titles |
| GamePage.TitleMatchPointwise | multiplayer-game.js:238 | two titles match exactly when they agree character by character up to ASCII case, with '_' and space counted equal |
| GamePage.TitleMatchExamples | multiplayer-game.js:238 | Albert_Einstein matches albert einstein; Cat does not match Cats |
| Solo.InitGame | singleplayer.js:123-144 | the game starts active at the start article with the path [start], no clicks, the given target and the timer started at the given time |
| Solo.NavigateToArticle | singleplayer.js:84-95 | an inactive page ignores navigation; otherwise one click, the title becomes current and is appended, and the target, start time and active flag stay as they were |
| Solo.GoToPathArticle | singleplayer.js:54-65 | a jump is ignored when inactive or on the last entry; otherwise the path is cut back to the entry, which becomes current, for one click, and the target, start time and active flag stay as they were |
| Solo.CheckWin | singleplayer.js:97-115 | a win happens exactly when the current title equals the target exactly; it stops the game, changing nothing else, and stores the clicks, elapsed time, target and path |
| Solo.StepKeepsInv | singleplayer.js:54-95 | every event keeps the start first, the current article last, the path no longer than clicks plus one, and the target and start time unchanged |
| Solo.RunKeepsInv | singleplayer.js:54-144 | the path bookkeeping, the target and the start time hold after any sequence of events |
| Solo.StoppedIsFrozen | singleplayer.js:55 | once the game has stopped, no event changes the page |
| Solo.WinFreezes | singleplayer.js:98-100 | after a win the page stays where it won, whatever the player does next |

## Left out

- Socket.io and Express plumbing is not modelled: channel joins and leaves (`leaveGameSession`, `disconnect`), CORS, the rate limiters and the environment configuration. Broadcasts appear only as returned events with their audience.
- `fetchRandomArticle` is not modelled, since it calls Wikipedia and a database. Start and target titles are parameters.
- The article proxy and the SQL leaderboard endpoints are not modelled; they are network and database I/O.
- The awaits inside `startGame`, `playAgain` and `playerFinished` are not modelled; each handler runs atomically. In the server, other handlers run while `startGame` and `playAgain` await their two article fetches (backend/server.js:240-241, 552-553), and the new race copies the members of the live room object afterwards (248, 560). If a `leaveRoom` empties the room in that window, the room is deleted (205-207), yet the handler still files a race under the deleted code (260, 572). The coordinator invariant, which has every race belong to an existing room, excludes that state, so `CoordinatorLaws.StartGameKeepsInv` and `CoordinatorLaws.PlayAgainKeepsInv` hold only for atomic handlers.
- `Math.random` and `Date.now` are parameters: the room-code draw is any number in 1000..9999, and timestamps are integers passed in.
- `validator.escape` is modelled by its entity table for the HTML-special characters, not as the library's full code.
- Numbers are integers. NaN, fractions and negative durations are not modelled. `trim` uses the full JavaScript white-space set, but `toLowerCase` is ASCII only, and strings compare by character code (UTF-16 surrogate pairs are not modelled).
- `backend/generate-lists.js`, `multiplayer-room.js`, `multiplayer-lobby.js` and `game-setup.js` are not part of this model. They hold Wikipedia crawling, DOM and socket wiring, and trivial UI guards.
- DOM rendering, iframes, timers, alerts, `localStorage` writes, page redirects, `fetchArticleDescription` and `formatDate` are not modelled.
  - The "N total wins" and "#k" labels are left out too.
  - Also left out are the dashboard's medal prefixes on ranks and its `showPath` lookup.
- Solo.GoToPathArticle: requires an index inside the current path. The page only offers indices of the path it last drew.
- GamePage.Navigate: the progress report and the target check happen after the article loads. The model treats the navigation as one step, with two clock readings as parameters.
- The game pages take their clock readings as parameters, so the live timer display is not modelled.

=== FILE: boards.dfy ===
/** The two room boards the results and room leaderboard pages draw from the server's
    per-room counters: the overall board by total wins, and the podium board by medals. Both
    pages sort a copy with the same comparators, and a missing counter counts as 0 (`x || 0`). */
module Boards {
  import opened Common
  import opened Sorting
  import opened Types
  import opened Leaderboard

  /** A leaderboard entry as the page receives it; a counter may be absent. */
  datatype Row = Row(username: string, first: Option<nat>, second: Option<nat>, third: Option<nat>)

  /** `x || 0` on a counter. */
  function Count(x: Option<nat>): nat {
    x.GetOr(0)
  }

  function TotalWins(r: Row): nat {
    Count(r.first) + Count(r.second) + Count(r.third)
  }

  /** The entry the server sends for one racer's counters. */
  function RowOf(st: Stats): Row {
    Row(st.username, Some(st.first), Some(st.second), Some(st.third))
  }

  /** The "N total wins" a page shows for a server entry is that racer's credited match count. */
  lemma TotalWinsOfBoard(board: seq<Stats>, j: nat)
    requires BoardInv(board) && j < |board|
    ensures TotalWins(RowOf(board[j])) == board[j].totalMatches
  {
  }

  // ---------------------------------------------------------------- overall board

  /** The overall comparator: more total wins first, then more first places. */
  function OverallCmp(a: Row, b: Row): int {
    var at, bt := TotalWins(a), TotalWins(b);
    if bt != at then bt - at else Count(b.first) - Count(a.first)
  }

  predicate OverallLe(a: Row, b: Row) {
    OverallCmp(a, b) <= 0
  }

  lemma OverallLeConsistent()
    ensures TotalPreorder(OverallLe)
  {
  }

  /** `[...leaderboard].sort(overall)`. */
  function OverallOrder(board: seq<Row>): seq<Row> {
    SortBy(board, OverallLe)
  }

  /** The overall board is a rearrangement of the entries, with total wins non-increasing and,
      among equal totals, first places non-increasing; entries equal on both keep their order. */
  lemma OverallOrderSorted(board: seq<Row>)
    ensures var r := OverallOrder(board);
      && multiset(r) == multiset(board)
      && (forall i, j :: 0 <= i < j < |r| ==>
            TotalWins(r[i]) > TotalWins(r[j])
            || (TotalWins(r[i]) == TotalWins(r[j]) && Count(r[i].first) >= Count(r[j].first)))
      && (forall c :: Class(r, OverallLe, c) == Class(board, OverallLe, c))
  {
    var r := OverallOrder(board);
    OverallLeConsistent();
    SortSorted(board, OverallLe);
    forall i, j | 0 <= i < j < |r|
      ensures TotalWins(r[i]) > TotalWins(r[j])
              || (TotalWins(r[i]) == TotalWins(r[j]) && Count(r[i].first) >= Count(r[j].first))
    {
      assert OverallLe(r[i], r[j]);
    }
    forall c ensures Class(r, OverallLe, c) == Class(board, OverallLe, c) {
      SortStable(board, OverallLe, c);
    }
  }

  // ---------------------------------------------------------------- podium board

  /** The podium comparator: more first places first, then more second places, then more
      third places. */
  function PodiumCmp(a: Row, b: Row): int {
    if Count(b.first) != Count(a.first) then Count(b.first) - Count(a.first)
    else if Count(b.second) != Count(a.second) then Count(b.second) - Count(a.second)
    else Count(b.third) - Count(a.third)
  }

  predicate PodiumLe(a: Row, b: Row) {
    PodiumCmp(a, b) <= 0
  }

  lemma PodiumLeConsistent()
    ensures TotalPreorder(PodiumLe)
  {
  }

  /** Medal counts ordered like words: compare gold, then silver, then bronze. */
  predicate MedalsAtLeast(a: Row, b: Row) {
    var a1, a2, a3, b1, b2, b3 := Count(a.first), Count(a.second), Count(a.third), Count(b.first), Count(b.second), Count(b.third);
    a1 > b1 || (a1 == b1 && (a2 > b2 || (a2 == b2 && a3 >= b3)))
  }

  /** `[...leaderboard].sort(podium)`. */
  function PodiumOrder(board: seq<Row>): seq<Row> {
    SortBy(board, PodiumLe)
  }

  /** The podium board is a rearrangement of the entries in descending medal order; entries
      with the same medals keep their order. */
  lemma PodiumOrderSorted(board: seq<Row>)
    ensures var r := PodiumOrder(board);
      && multiset(r) == multiset(board)
      && (forall i, j :: 0 <= i < j < |r| ==> MedalsAtLeast(r[i], r[j]))
      && (forall c :: Class(r, PodiumLe, c) == Class(board, PodiumLe, c))
  {
    var r := PodiumOrder(board);
    PodiumLeConsistent();
    SortSorted(board, PodiumLe);
    forall i, j | 0 <= i < j < |r| ensures MedalsAtLeast(r[i], r[j]) {
      assert PodiumLe(r[i], r[j]);
    }
    forall c ensures Class(r, PodiumLe, c) == Class(board, PodiumLe, c) {
      SortStable(board, PodiumLe, c);
    }
  }

  /** The podium order refines the medal order completely: two entries are tied exactly when
      they hold the same medals. */
  lemma PodiumTies(a: Row, b: Row)
    ensures PodiumLe(a, b) && PodiumLe(b, a)
        <==> Count(a.first) == Count(b.first) && Count(a.second) == Count(b.second) && Count(a.third) == Count(b.third)
  {
  }

  /** An absent counter sorts exactly like a zero one. */
  lemma MissingIsZero(a: Row, b: Row)
    ensures var z := a.(first := Some(Count(a.first)), second := Some(Count(a.second)), third := Some(Count(a.third)));
      OverallCmp(z, b) == OverallCmp(a, b) && PodiumCmp(z, b) == PodiumCmp(a, b)
  {
  }
}

=== FILE: common.dfy ===
/** Small shared vocabulary: an optional value and sequence helpers. */
module Common {

  /** JavaScript's `null`/`undefined` versus a present value. */
  datatype Option<+T> = None | Some(value: T) {
    function GetOr(default: T): T {
      match this
      case Some(v) => v
      case None => default
    }
  }

  /** Index of the first occurrence of `x` in `s`, or `|s|` when absent (like `indexOf`, with
      the length standing for -1). */
  function IndexOf<T(==)>(s: seq<T>, x: T): (k: nat)
    ensures k <= |s|
    ensures k < |s| ==> s[k] == x
    ensures forall j :: 0 <= j < k ==> s[j] != x
  {
    if s == [] then 0
    else if s[0] == x then 0
    else 1 + IndexOf(s[1..], x)
  }

  /** No value occurs twice. */
  predicate Distinct<T(==)>(s: seq<T>) {
    forall i, j :: 0 <= i < j < |s| ==> s[i] != s[j]
  }

  /** In a sequence without duplicates, an element's position is where `IndexOf` finds it. */
  lemma IndexOfDistinct<T>(s: seq<T>, k: nat)
    requires Distinct(s) && k < |s|
    ensures IndexOf(s, s[k]) == k
  {
  }

  /** A permutation of a sequence without duplicates has none either. */
  lemma {:induction false} DistinctPermutation<T>(a: seq<T>, b: seq<T>)
    requires multiset(a) == multiset(b) && Distinct(b)
    ensures Distinct(a)
  {
    forall i, j | 0 <= i < j < |a|
      ensures a[i] != a[j]
    {
      if a[i] == a[j] {
        TwoOccurrences(a, i, j);
        assert multiset(b)[a[i]] >= 2;
        var p := IndexOf(b, a[i]);
        assert a[i] in multiset(b);
        assert p < |b|;
        OneOccurrence(b, p);
        assert false;
      }
    }
  }

  /** Two positions holding the same value give it multiplicity at least two. */
  lemma {:induction false} TwoOccurrences<T>(s: seq<T>, i: nat, j: nat)
    requires i < j < |s| && s[i] == s[j]
    ensures multiset(s)[s[i]] >= 2
  {
    var x := s[i];
    assert s == s[..i] + [x] + s[i+1..j] + [x] + s[j+1..];
    assert multiset(s) == multiset(s[..i]) + multiset{x} + multiset(s[i+1..j]) + multiset{x} + multiset(s[j+1..]);
  }

  /** In a sequence without duplicates, each element has multiplicity one. */
  lemma {:induction false} OneOccurrence<T>(s: seq<T>, p: nat)
    requires Distinct(s) && p < |s|
    ensures multiset(s)[s[p]] == 1
  {
    var x := s[p];
    assert s == s[..p] + [x] + s[p+1..];
    assert x !in s[..p] by {
      forall q | 0 <= q < p ensures s[..p][q] != x { assert s[q] != s[p]; }
    }
    assert x !in s[p+1..] by {
      forall q | p + 1 <= q < |s| ensures s[q] != x { assert s[p] != s[q]; }
    }
    assert multiset(s) == multiset(s[..p]) + multiset{x} + multiset(s[p+1..]);
  }

  // ---------------------------------------------------------------- arithmetic

  /** Euclidean division has one quotient and one remainder. */
  lemma DivUnique(a: nat, d: nat, q: nat, r: nat)
    requires 0 < d && r < d && a == q * d + r
    ensures a / d == q
  {
    MulDiv(a, d);
    if a / d < q {
      MulLe(a / d + 1, q, d);
      assert false;
    } else if a / d > q {
      MulLe(q + 1, a / d, d);
      assert false;
    }
  }

  lemma ModUnique(a: nat, d: nat, q: nat, r: nat)
    requires 0 < d && r < d && a == q * d + r
    ensures a / d == q && a % d == r
  {
    DivUnique(a, d, q, r);
    MulDiv(a, d);
  }

  lemma MulDiv(a: nat, d: nat)
    requires 0 < d
    ensures a == (a / d) * d + a % d && a % d < d
  {
  }

  lemma MulLe(x: nat, y: nat, d: nat)
    requires x <= y
    ensures x * d <= y * d
  {
  }
}

=== FILE: coordinator.dfy ===
/** The room and race coordinator: every socket handler of backend/server.js (lines 122-575) as
    a function from the coordinator's state and the raw payload fields to the next state and
    the events emitted. The requesting socket is `conn`; the article source, the clock and the
    random draw of a room code are parameters. */
module Coordinator {
  import opened Common
  import opened Validation
  import opened Types
  import opened Membership
  import opened Race
  import opened Leaderboard

  /** The two process-wide maps: rooms and active races, both keyed by room code. */
  datatype State = State(rooms: map<Code, Room>, sessions: map<Code, Session>)

  /** Who receives an event: the requesting socket, a room's lobby channel (with or without
      the requesting socket), or the race channel `game-<code>`. */
  datatype Audience = ToSender | ToRoom(code: Code) | ToRoomOthers(code: Code) | ToRace(code: Code)

  /** What `getResults` reports about the requesting racer. */
  datatype YourStats = YourStats(clicks: int, time: int, path: seq<Js>, position: Option<nat>)

  datatype Event =
    | RoomCreated(code: Code, difficulty: Difficulty)
    | RoomError(message: string)
    | JoinedRoom(code: Code, players: seq<Member>, difficulty: Difficulty)
    | PlayerJoined(players: seq<Member>)
    | PlayerLeft(players: seq<Member>)
    | DifficultyChanged(difficulty: Difficulty)
    | GameStarting(start: string, target: string, difficulty: Difficulty)
    | RoundEnded
    | StandingsUpdate(standings: seq<Standing>)
    | GameEnded
    | ResultsData(yourStats: Option<YourStats>, leaderboard: seq<Stats>)
    | RejoinedRoom(code: Code, players: seq<Member>, difficulty: Difficulty, isHost: bool)
    | RoomLeaderboard(record: RoomRecord)

  datatype Emit = Emit(to: Audience, event: Event)

  /** The state after a handler and the events it emitted, in order. */
  datatype Step = Step(state: State, emits: seq<Emit>)

  const BadName: string := "Invalid username. Use 1-20 alphanumeric characters only."
  const BadCode: string := "Invalid room code."
  const NotFound: string := "Room not found"
  const Full: string := "Room is full"
  const BadRejoin: string := "Invalid room code or username."
  const NotMember: string := "Player not found in room"

  /** Nothing changes and nothing is sent: the silent drops. */
  function Quiet(st: State): Step {
    Step(st, [])
  }

  /** Nothing changes; the requesting socket alone receives `roomError`. */
  function Refuse(st: State, message: string): Step {
    Step(st, [Emit(ToSender, RoomError(message))])
  }

  /** The coordinator invariant: every room is filed under its own code and keeps the
      membership invariant and a leaderboard whose counters add up; every race is filed under its own code, belongs to an existing
      room and keeps the session invariant. */
  predicate StateInv(st: State) {
    && (forall c :: c in st.rooms ==>
          st.rooms[c].code == c && RoomInv(st.rooms[c]) && BoardInv(st.rooms[c].leaderboard))
    && (forall c :: c in st.sessions ==>
          c in st.rooms && st.sessions[c].code == c && SessionInv(st.sessions[c]))
  }

  const Empty: State := State(map[], map[])

  lemma EmptyInv()
    ensures StateInv(Empty) && Empty.rooms == map[] && Empty.sessions == map[]
  {
  }

  // ---------------------------------------------------------------- lobby

  /** `createRoom`: an empty room under a freshly drawn code, with the requested difficulty or
      `hard`. A room already filed under the drawn code is replaced (its race, if any, stays). */
  function CreateRoom(st: State, username: Js, difficulty: Js, draw: nat): (r: Step)
    requires 1000 <= draw <= 9999
    ensures SanitizeUsername(username).None? ==> r == Refuse(st, BadName)
    ensures SanitizeUsername(username).Some? ==>
              var code := GenerateRoomCode(draw);
              var d := ValidateDifficulty(difficulty).GetOr(Hard);
              && IsRoomCode(code)
              && r.state.sessions == st.sessions
              && (forall c :: c in r.state.rooms <==> c in st.rooms || c == code)
              && (forall c :: c in st.rooms && c != code ==> c in r.state.rooms && r.state.rooms[c] == st.rooms[c])
              && code in r.state.rooms
              && r.state.rooms[code].players == [] && r.state.rooms[code].host.None?
              && r.state.rooms[code].difficulty == d && r.state.rooms[code].code == code
              && r.state.rooms[code].leaderboard == [] && r.state.rooms[code].matchHistory == []
              && r.emits == [Emit(ToSender, RoomCreated(code, d))]
  {
    if SanitizeUsername(username).None? then Refuse(st, BadName)
    else
      var d := ValidateDifficulty(difficulty).GetOr(Hard);
      var code := GenerateRoomCode(draw);
      var room := NewRoom(code, d);
      Step(st.(rooms := st.rooms[code := room]), [Emit(ToSender, RoomCreated(code, d))])
  }

  /** `joinRoom`: errors are checked in the order code, name, room, capacity; on success the
      room is what `Join` makes of it, the socket gets the member list and the rest of the room
      hears of the change. */
  function JoinRoom(st: State, conn: ConnId, roomCode: Js, username: Js): (r: Step)
    ensures SanitizeRoomCode(roomCode).None? ==> r == Refuse(st, BadCode)
    ensures SanitizeRoomCode(roomCode).Some? && SanitizeUsername(username).None? ==> r == Refuse(st, BadName)
    ensures SanitizeRoomCode(roomCode).Some? && SanitizeUsername(username).Some? ==>
              var code := SanitizeRoomCode(roomCode).value;
              var name := SanitizeUsername(username).value;
              && (code !in st.rooms ==> r == Refuse(st, NotFound))
              && (code in st.rooms && Join(st.rooms[code], conn, name).RoomFull? ==> r == Refuse(st, Full))
              && (code in st.rooms && Join(st.rooms[code], conn, name).Joined? ==>
                    var room := Join(st.rooms[code], conn, name).room;
                    && r.state == st.(rooms := st.rooms[code := room])
                    && r.emits == [Emit(ToSender, JoinedRoom(code, room.players, room.difficulty)),
                                   Emit(ToRoomOthers(code), PlayerJoined(room.players))])
  {
    match SanitizeRoomCode(roomCode)
    case None => Refuse(st, BadCode)
    case Some(code) =>
      match SanitizeUsername(username)
      case None => Refuse(st, BadName)
      case Some(name) =>
        if code !in st.rooms then Refuse(st, NotFound)
        else
          match Join(st.rooms[code], conn, name)
          case RoomFull => Refuse(st, Full)
          case Joined(room) =>
            Step(st.(rooms := st.rooms[code := room]),
                 [Emit(ToSender, JoinedRoom(code, room.players, room.difficulty)),
                  Emit(ToRoomOthers(code), PlayerJoined(room.players))])
  }

  /** `leaveRoom`: every member bound to the socket is removed; an emptied room is deleted
      together with its race; otherwise the host may migrate and the room hears the new list.
      A bad code or an unknown room is ignored. */
  function LeaveRoom(st: State, conn: ConnId, roomCode: Js): (r: Step)
    ensures SanitizeRoomCode(roomCode).None? ==> r == Quiet(st)
    ensures SanitizeRoomCode(roomCode).Some? ==>
              var code := SanitizeRoomCode(roomCode).value;
              && (code !in st.rooms ==> r == Quiet(st))
              && (code in st.rooms && Leave(st.rooms[code], conn).None? ==>
                    r == Quiet(State(st.rooms - {code}, st.sessions - {code})))
              && (code in st.rooms && Leave(st.rooms[code], conn).Some? ==>
                    var room := Leave(st.rooms[code], conn).value;
                    && r.state == st.(rooms := st.rooms[code := room])
                    && r.emits == [Emit(ToRoom(code), PlayerLeft(room.players))])
  {
    match SanitizeRoomCode(roomCode)
    case None => Quiet(st)
    case Some(code) =>
      if code !in st.rooms then Quiet(st)
      else
        match Leave(st.rooms[code], conn)
        case None => Quiet(State(st.rooms - {code}, st.sessions - {code}))
        case Some(room) =>
          Step(st.(rooms := st.rooms[code := room]), [Emit(ToRoom(code), PlayerLeft(room.players))])
  }

  /** `changeDifficulty`: only the host's socket may change the difficulty; anything else is
      silently dropped. */
  function ChangeDifficulty(st: State, conn: ConnId, roomCode: Js, difficulty: Js): (r: Step)
    ensures r != Quiet(st) <==>
              && SanitizeRoomCode(roomCode).Some? && ValidateDifficulty(difficulty).Some?
              && SanitizeRoomCode(roomCode).value in st.rooms
              && IsHostConn(st.rooms[SanitizeRoomCode(roomCode).value], conn)
    ensures r != Quiet(st) ==>
              var code := SanitizeRoomCode(roomCode).value;
              var d := ValidateDifficulty(difficulty).value;
              && r.state == st.(rooms := st.rooms[code := st.rooms[code].(difficulty := d)])
              && r.emits == [Emit(ToRoom(code), DifficultyChanged(d))]
  {
    match SanitizeRoomCode(roomCode)
    case None => Quiet(st)
    case Some(code) =>
      match ValidateDifficulty(difficulty)
      case None => Quiet(st)
      case Some(d) =>
        if code !in st.rooms || !IsHostConn(st.rooms[code], conn) then Quiet(st)
        else Step(st.(rooms := st.rooms[code := st.rooms[code].(difficulty := d)]),
                  [Emit(ToRoom(code), DifficultyChanged(d))])
  }

  /** A new race for room `code`: a snapshot of its current members with zeroed progress,
      started at `now`, replacing any earlier race. */
  function Launch(st: State, code: Code, start: string, target: string, now: int): (r: Step)
    requires code in st.rooms
    ensures r.state.rooms == st.rooms
    ensures r.state.sessions.Keys == st.sessions.Keys + {code}
    ensures forall c :: c in st.sessions && c != code ==> r.state.sessions[c] == st.sessions[c]
    ensures r.state.sessions == st.sessions[code := NewSession(st.rooms[code], start, target, now)]
    ensures var s := r.state.sessions[code];
      && RacerNames(s.players) == Names(st.rooms[code].players)
      && s.finishedCount == 0 && CountFinished(s.players) == 0
      && s.start == start && s.target == target && s.difficulty == st.rooms[code].difficulty
    ensures r.emits == [Emit(ToRoom(code), GameStarting(start, target, st.rooms[code].difficulty))]
  {
    var room := st.rooms[code];
    Step(st.(sessions := st.sessions[code := NewSession(room, start, target, now)]),
         [Emit(ToRoom(code), GameStarting(start, target, room.difficulty))])
  }

  /** `startGame`: only the host's socket may start a race; `start` and `target` are the two
      titles the article source returned. */
  function StartGame(st: State, conn: ConnId, roomCode: Js, start: string, target: string, now: int): (r: Step)
    ensures r != Quiet(st) <==>
              && SanitizeRoomCode(roomCode).Some?
              && SanitizeRoomCode(roomCode).value in st.rooms
              && IsHostConn(st.rooms[SanitizeRoomCode(roomCode).value], conn)
    ensures r != Quiet(st) ==> r == Launch(st, SanitizeRoomCode(roomCode).value, start, target, now)
  {
    match SanitizeRoomCode(roomCode)
    case None => Quiet(st)
    case Some(code) =>
      if code !in st.rooms || !IsHostConn(st.rooms[code], conn) then Quiet(st)
      else Launch(st, code, start, target, now)
  }

  /** `playAgain`: like `startGame`, but authorized by the payload name being the host's,
      whichever socket sends it. */
  function PlayAgain(st: State, roomCode: Js, username: Js, start: string, target: string, now: int): (r: Step)
    ensures r != Quiet(st) <==>
              && SanitizeRoomCode(roomCode).Some? && SanitizeUsername(username).Some?
              && SanitizeRoomCode(roomCode).value in st.rooms
              && IsHostName(st.rooms[SanitizeRoomCode(roomCode).value], SanitizeUsername(username).value)
    ensures r != Quiet(st) ==> r == Launch(st, SanitizeRoomCode(roomCode).value, start, target, now)
  {
    match SanitizeRoomCode(roomCode)
    case None => Quiet(st)
    case Some(code) =>
      match SanitizeUsername(username)
      case None => Quiet(st)
      case Some(name) =>
        if code !in st.rooms || !IsHostName(st.rooms[code], name) then Quiet(st)
        else Launch(st, code, start, target, now)
  }

  /** `rejoinRoom`: a known name moves to the requesting socket, which is told whether it is
      host; nobody else is told. */
  function RejoinRoom(st: State, conn: ConnId, roomCode: Js, username: Js): (r: Step)
    ensures SanitizeRoomCode(roomCode).None? || SanitizeUsername(username).None? ==> r == Refuse(st, BadRejoin)
    ensures SanitizeRoomCode(roomCode).Some? && SanitizeUsername(username).Some? ==>
              var code := SanitizeRoomCode(roomCode).value;
              var name := SanitizeUsername(username).value;
              && (code !in st.rooms ==> r == Refuse(st, NotFound))
              && (code in st.rooms && name !in Names(st.rooms[code].players) ==> r == Refuse(st, NotMember))
              && (code in st.rooms && name in Names(st.rooms[code].players) ==>
                    var room := Rejoin(st.rooms[code], conn, name).value;
                    && r.state == st.(rooms := st.rooms[code := room])
                    && r.emits == [Emit(ToSender, RejoinedRoom(code, room.players, room.difficulty,
                                                                room.host == Some(name)))])
  {
    if SanitizeRoomCode(roomCode).None? || SanitizeUsername(username).None? then Refuse(st, BadRejoin)
    else
      var code := SanitizeRoomCode(roomCode).value;
      var name := SanitizeUsername(username).value;
      if code !in st.rooms then Refuse(st, NotFound)
      else
        match Rejoin(st.rooms[code], conn, name)
        case None => Refuse(st, NotMember)
        case Some(room) =>
          Step(st.(rooms := st.rooms[code := room]),
               [Emit(ToSender, RejoinedRoom(code, room.players, room.difficulty, room.host == Some(name)))])
  }

  /** `getRoomLeaderboard`: the room's counters and its matches with results by position. The
      sort happens on the stored matches, so the stored history changes too. */
  function GetRoomLeaderboard(st: State, roomCode: Js): (r: Step)
    ensures SanitizeRoomCode(roomCode).None? ==> r == Refuse(st, BadCode)
    ensures SanitizeRoomCode(roomCode).Some? && SanitizeRoomCode(roomCode).value !in st.rooms ==> r == Refuse(st, NotFound)
    ensures SanitizeRoomCode(roomCode).Some? && SanitizeRoomCode(roomCode).value in st.rooms ==>
              var code := SanitizeRoomCode(roomCode).value;
              && r.state == st.(rooms := st.rooms[code := ReadRecord(st.rooms[code]).0])
              && r.emits == [Emit(ToSender, RoomLeaderboard(ReadRecord(st.rooms[code]).1))]
  {
    match SanitizeRoomCode(roomCode)
    case None => Refuse(st, BadCode)
    case Some(code) =>
      if code !in st.rooms then Refuse(st, NotFound)
      else
        var (room, record) := ReadRecord(st.rooms[code]);
        Step(st.(rooms := st.rooms[code := room]), [Emit(ToSender, RoomLeaderboard(record))])
  }

  // ---------------------------------------------------------------- race

  /** `joinGameSession`: the socket subscribes to the race channel (not modelled) and, when a
      race exists, receives the current standings. */
  function JoinGameSession(st: State, roomCode: Js, username: Js): (r: Step)
    ensures r.state == st
    ensures r.emits != [] <==>
              && SanitizeRoomCode(roomCode).Some? && SanitizeUsername(username).Some?
              && SanitizeRoomCode(roomCode).value in st.sessions
    ensures r.emits != [] ==>
              r.emits == [Emit(ToSender, StandingsUpdate(Standings(st.sessions[SanitizeRoomCode(roomCode).value].players)))]
  {
    match SanitizeRoomCode(roomCode)
    case None => Quiet(st)
    case Some(code) =>
      match SanitizeUsername(username)
      case None => Quiet(st)
      case Some(_) =>
        if code !in st.sessions then Quiet(st)
        else Step(st, [Emit(ToSender, StandingsUpdate(Standings(st.sessions[code].players)))])
  }

  /** `playerProgress`: with a race in place, the report is applied by `Progress` and the
      standings go to the race channel, even when the report changed nothing. */
  function PlayerProgress(st: State, roomCode: Js, username: Js, clicks: Js, article: Js): (r: Step)
    ensures r != Quiet(st) <==>
              && SanitizeRoomCode(roomCode).Some? && SanitizeUsername(username).Some?
              && SanitizeRoomCode(roomCode).value in st.sessions
    ensures r != Quiet(st) ==>
              var code := SanitizeRoomCode(roomCode).value;
              var s := Progress(st.sessions[code], SanitizeUsername(username).value, clicks, article);
              && r.state == st.(sessions := st.sessions[code := s])
              && r.emits == [Emit(ToRace(code), StandingsUpdate(Standings(s.players)))]
  {
    match SanitizeRoomCode(roomCode)
    case None => Quiet(st)
    case Some(code) =>
      match SanitizeUsername(username)
      case None => Quiet(st)
      case Some(name) =>
        if code !in st.sessions then Quiet(st)
        else
          var s := Progress(st.sessions[code], name, clicks, article);
          Step(st.(sessions := st.sessions[code := s]), [Emit(ToRace(code), StandingsUpdate(Standings(s.players)))])
  }

  /** Commit race `s` into room `code` when that room exists (`recordMatchResults`). */
  function Commit(rooms: map<Code, Room>, code: Code, s: Session, now: int): (r: map<Code, Room>)
    ensures r.Keys == rooms.Keys
    ensures forall c :: c in rooms && c != code ==> r[c] == rooms[c]
    ensures code in rooms ==> r[code] == RecordMatch(rooms[code], s, now)
  {
    if code in rooms then rooms[code := RecordMatch(rooms[code], s, now)] else rooms
  }

  /** After an accepted finish producing race `s`: the race is stored and its standings
      broadcast; when the end condition holds the race is also committed into its room (if the
      room still exists) and `gameEnded` follows. */
  function Settle(st: State, code: Code, s: Session, now: int): (r: Step)
    ensures var over := GameOver(|s.players|, s.finishedCount);
      && r.state.sessions == st.sessions[code := s]
      && r.state.rooms == (if over then Commit(st.rooms, code, s, now) else st.rooms)
      && r.emits == [Emit(ToRace(code), StandingsUpdate(Standings(s.players)))]
                    + (if over then [Emit(ToRace(code), GameEnded)] else [])
  {
    var standings := Emit(ToRace(code), StandingsUpdate(Standings(s.players)));
    if GameOver(|s.players|, s.finishedCount) then
      Step(State(Commit(st.rooms, code, s, now), st.sessions[code := s]),
           [standings, Emit(ToRace(code), GameEnded)])
    else
      Step(st.(sessions := st.sessions[code := s]), [standings])
  }

  /** `playerFinished`: an accepted finish is settled; anything else is dropped. The race
      stays in place after it ends, so every later accepted finish commits it again. */
  function PlayerFinished(st: State, roomCode: Js, username: Js, clicks: Js, time: Js, path: Js,
                          usedHint: Js, now: int): (r: Step)
    ensures r != Quiet(st) <==>
              && SanitizeRoomCode(roomCode).Some? && SanitizeUsername(username).Some?
              && SanitizeRoomCode(roomCode).value in st.sessions
              && Finish(st.sessions[SanitizeRoomCode(roomCode).value], SanitizeUsername(username).value,
                        clicks, time, path, usedHint).Accepted?
    ensures r != Quiet(st) ==>
              var code := SanitizeRoomCode(roomCode).value;
              r == Settle(st, code, Finish(st.sessions[code], SanitizeUsername(username).value,
                                           clicks, time, path, usedHint).session, now)
  {
    match SanitizeRoomCode(roomCode)
    case None => Quiet(st)
    case Some(code) =>
      match SanitizeUsername(username)
      case None => Quiet(st)
      case Some(name) =>
        if code !in st.sessions then Quiet(st)
        else
          match Finish(st.sessions[code], name, clicks, time, path, usedHint)
          case Ignored => Quiet(st)
          case Accepted(s) => Settle(st, code, s, now)
  }

  /** `playerQuit`: the racer is marked finished without a position; nothing is sent and the
      end condition is not evaluated. */
  function PlayerQuit(st: State, roomCode: Js, username: Js): (r: Step)
    ensures r.emits == []
    ensures r.state.rooms == st.rooms
    ensures (SanitizeRoomCode(roomCode).Some? && SanitizeUsername(username).Some?
             && SanitizeRoomCode(roomCode).value in st.sessions) ==>
              r.state.sessions == st.sessions[SanitizeRoomCode(roomCode).value :=
                Quit(st.sessions[SanitizeRoomCode(roomCode).value], SanitizeUsername(username).value)]
    ensures (SanitizeRoomCode(roomCode).None? || SanitizeUsername(username).None?
             || SanitizeRoomCode(roomCode).value !in st.sessions) ==> r == Quiet(st)
  {
    match SanitizeRoomCode(roomCode)
    case None => Quiet(st)
    case Some(code) =>
      match SanitizeUsername(username)
      case None => Quiet(st)
      case Some(name) =>
        if code !in st.sessions then Quiet(st)
        else Quiet(st.(sessions := st.sessions[code := Quit(st.sessions[code], name)]))
  }

  /** `endRound`: the host, named in the payload, commits the race as it stands and the race
      channel hears `roundEnded`. The race stays in place. */
  function EndRound(st: State, roomCode: Js, username: Js, now: int): (r: Step)
    ensures r != Quiet(st) <==>
              && SanitizeRoomCode(roomCode).Some? && SanitizeUsername(username).Some?
              && SanitizeRoomCode(roomCode).value in st.rooms
              && SanitizeRoomCode(roomCode).value in st.sessions
              && IsHostName(st.rooms[SanitizeRoomCode(roomCode).value], SanitizeUsername(username).value)
    ensures r != Quiet(st) ==>
              var code := SanitizeRoomCode(roomCode).value;
              && r.state == st.(rooms := st.rooms[code := RecordMatch(st.rooms[code], st.sessions[code], now)])
              && r.emits == [Emit(ToRace(code), RoundEnded)]
  {
    match SanitizeRoomCode(roomCode)
    case None => Quiet(st)
    case Some(code) =>
      match SanitizeUsername(username)
      case None => Quiet(st)
      case Some(name) =>
        if code !in st.rooms || code !in st.sessions || !IsHostName(st.rooms[code], name) then Quiet(st)
        else
          Step(st.(rooms := st.rooms[code := RecordMatch(st.rooms[code], st.sessions[code], now)]),
               [Emit(ToRace(code), RoundEnded)])
  }

  /** `getResults`: the requesting racer's own record (when the name is a racer) and the room's
      counters; an empty reply when the code or name is invalid or the room or race is gone. */
  function GetResults(st: State, roomCode: Js, username: Js): (r: Step)
    ensures r.state == st && |r.emits| == 1 && r.emits[0].to == ToSender && r.emits[0].event.ResultsData?
    ensures var ok := SanitizeRoomCode(roomCode).Some? && SanitizeUsername(username).Some?
                      && SanitizeRoomCode(roomCode).value in st.rooms
                      && SanitizeRoomCode(roomCode).value in st.sessions;
      && (!ok ==> r.emits[0].event == ResultsData(None, []))
      && (ok ==>
            var code := SanitizeRoomCode(roomCode).value;
            var ps := st.sessions[code].players;
            var name := SanitizeUsername(username).value;
            && r.emits[0].event.leaderboard == st.rooms[code].leaderboard
            && (r.emits[0].event.yourStats.Some? <==> name in RacerNames(ps))
            && (r.emits[0].event.yourStats.Some? ==>
                  var p := ps[FindRacer(ps, name).value];
                  r.emits[0].event.yourStats.value == YourStats(p.clicks, p.time, p.path, p.position)))
  {
    var empty := Step(st, [Emit(ToSender, ResultsData(None, []))]);
    match SanitizeRoomCode(roomCode)
    case None => empty
    case Some(code) =>
      match SanitizeUsername(username)
      case None => empty
      case Some(name) =>
        if code !in st.rooms || code !in st.sessions then empty
        else
          var ps := st.sessions[code].players;
          var mine := match FindRacer(ps, name)
            case None => None
            case Some(i) => Some(YourStats(ps[i].clicks, ps[i].time, ps[i].path, ps[i].position));
          Step(st, [Emit(ToSender, ResultsData(mine, st.rooms[code].leaderboard))])
  }
}

=== FILE: coordinator_laws.dfy ===
/** What the coordinator keeps true across handlers, and the room lifecycle facts built on it. */
module CoordinatorLaws {
  import opened Common
  import opened Validation
  import opened Types
  import opened Membership
  import opened Race
  import opened Leaderboard
  import opened Coordinator

  /** Filing a well-formed room under its own code keeps the invariant. */
  lemma SetRoom(st: State, code: Code, room: Room)
    requires StateInv(st) && room.code == code && RoomInv(room) && BoardInv(room.leaderboard)
    ensures StateInv(st.(rooms := st.rooms[code := room]))
  {
  }

  /** Filing a well-formed race under the code of an existing room keeps the invariant. */
  lemma SetSession(st: State, code: Code, s: Session)
    requires StateInv(st) && code in st.rooms && s.code == code && SessionInv(s)
    ensures StateInv(st.(sessions := st.sessions[code := s]))
  {
  }

  /** Committing a race touches only a room's counters and history, so the membership
      invariant survives it. */
  lemma CommitKeepsInv(st: State, code: Code, s: Session, now: int)
    requires StateInv(st)
    ensures StateInv(st.(rooms := Commit(st.rooms, code, s, now)))
  {
    if code in st.rooms {
      RecordMatchCounts(st.rooms[code], s, now, "");
    }
  }

  lemma CreateRoomKeepsInv(st: State, username: Js, difficulty: Js, draw: nat)
    requires StateInv(st) && 1000 <= draw <= 9999
    ensures StateInv(CreateRoom(st, username, difficulty, draw).state)
  {
    if SanitizeUsername(username).Some? {
      var code := GenerateRoomCode(draw);
      var room := CreateRoom(st, username, difficulty, draw).state.rooms[code];
      assert RoomInv(room);
      SetRoom(st, code, room);
      assert CreateRoom(st, username, difficulty, draw).state == st.(rooms := st.rooms[code := room]);
    }
  }

  lemma JoinRoomKeepsInv(st: State, conn: ConnId, roomCode: Js, username: Js)
    requires StateInv(st)
    ensures StateInv(JoinRoom(st, conn, roomCode, username).state)
  {
    if SanitizeRoomCode(roomCode).Some? && SanitizeUsername(username).Some? {
      var code := SanitizeRoomCode(roomCode).value;
      var name := SanitizeUsername(username).value;
      if code in st.rooms && Join(st.rooms[code], conn, name).Joined? {
        JoinKeepsInv(st.rooms[code], conn, name);
        SetRoom(st, code, Join(st.rooms[code], conn, name).room);
      }
    }
  }

  /** Leaving keeps the invariant as long as the socket is bound to at most one member of the
      room (two names joined from one socket can leave a host who is no longer a member). */
  lemma LeaveRoomKeepsInv(st: State, conn: ConnId, roomCode: Js)
    requires StateInv(st)
    requires forall c :: c in st.rooms ==> CountId(st.rooms[c].players, conn) <= 1
    ensures StateInv(LeaveRoom(st, conn, roomCode).state)
  {
    if SanitizeRoomCode(roomCode).Some? {
      var code := SanitizeRoomCode(roomCode).value;
      if code in st.rooms {
        LeaveKeepsInv(st.rooms[code], conn);
      }
    }
  }

  lemma ChangeDifficultyKeepsInv(st: State, conn: ConnId, roomCode: Js, difficulty: Js)
    requires StateInv(st)
    ensures StateInv(ChangeDifficulty(st, conn, roomCode, difficulty).state)
  {
  }

  lemma LaunchKeepsInv(st: State, code: Code, start: string, target: string, now: int)
    requires StateInv(st) && code in st.rooms
    ensures StateInv(Launch(st, code, start, target, now).state)
  {
    var s := NewSession(st.rooms[code], start, target, now);
    assert s.code == code;
  }

  lemma StartGameKeepsInv(st: State, conn: ConnId, roomCode: Js, start: string, target: string, now: int)
    requires StateInv(st)
    ensures StateInv(StartGame(st, conn, roomCode, start, target, now).state)
  {
    var r := StartGame(st, conn, roomCode, start, target, now);
    if r != Quiet(st) {
      LaunchKeepsInv(st, SanitizeRoomCode(roomCode).value, start, target, now);
    }
  }

  lemma PlayAgainKeepsInv(st: State, roomCode: Js, username: Js, start: string, target: string, now: int)
    requires StateInv(st)
    ensures StateInv(PlayAgain(st, roomCode, username, start, target, now).state)
  {
    var r := PlayAgain(st, roomCode, username, start, target, now);
    if r != Quiet(st) {
      LaunchKeepsInv(st, SanitizeRoomCode(roomCode).value, start, target, now);
    }
  }

  lemma RejoinRoomKeepsInv(st: State, conn: ConnId, roomCode: Js, username: Js)
    requires StateInv(st)
    ensures StateInv(RejoinRoom(st, conn, roomCode, username).state)
  {
    if SanitizeRoomCode(roomCode).Some? && SanitizeUsername(username).Some? {
      var code := SanitizeRoomCode(roomCode).value;
      var name := SanitizeUsername(username).value;
      if code in st.rooms && Rejoin(st.rooms[code], conn, name).Some? {
        JoinKeepsInv(st.rooms[code], conn, name);
        SetRoom(st, code, Rejoin(st.rooms[code], conn, name).value);
      }
    }
  }

  lemma GetRoomLeaderboardKeepsInv(st: State, roomCode: Js)
    requires StateInv(st)
    ensures StateInv(GetRoomLeaderboard(st, roomCode).state)
  {
  }

  lemma PlayerProgressKeepsInv(st: State, roomCode: Js, username: Js, clicks: Js, article: Js)
    requires StateInv(st)
    ensures StateInv(PlayerProgress(st, roomCode, username, clicks, article).state)
  {
    var r := PlayerProgress(st, roomCode, username, clicks, article);
    if r != Quiet(st) {
      var code := SanitizeRoomCode(roomCode).value;
      var name := SanitizeUsername(username).value;
      ProgressKeepsInv(st.sessions[code], name, clicks, article);
      SetSession(st, code, Progress(st.sessions[code], name, clicks, article));
    }
  }

  lemma PlayerFinishedKeepsInv(st: State, roomCode: Js, username: Js, clicks: Js, time: Js, path: Js,
                               usedHint: Js, now: int)
    requires StateInv(st)
    ensures StateInv(PlayerFinished(st, roomCode, username, clicks, time, path, usedHint, now).state)
  {
    var r := PlayerFinished(st, roomCode, username, clicks, time, path, usedHint, now);
    if r != Quiet(st) {
      var code := SanitizeRoomCode(roomCode).value;
      var name := SanitizeUsername(username).value;
      FinishKeepsInv(st.sessions[code], name, clicks, time, path, usedHint);
      var s := Finish(st.sessions[code], name, clicks, time, path, usedHint).session;
      SettleKeepsInv(st, code, s, now);
    }
  }

  /** Storing a well-formed race of an existing room, and committing it, keeps the invariant. */
  lemma SettleKeepsInv(st: State, code: Code, s: Session, now: int)
    requires StateInv(st) && code in st.rooms && s.code == code && SessionInv(s)
    ensures StateInv(Settle(st, code, s, now).state)
  {
    var st1 := st.(sessions := st.sessions[code := s]);
    SetSession(st, code, s);
    CommitKeepsInv(st1, code, s, now);
    assert Settle(st, code, s, now).state == st1
      || Settle(st, code, s, now).state == st1.(rooms := Commit(st1.rooms, code, s, now));
  }

  lemma PlayerQuitKeepsInv(st: State, roomCode: Js, username: Js)
    requires StateInv(st)
    ensures StateInv(PlayerQuit(st, roomCode, username).state)
  {
    var r := PlayerQuit(st, roomCode, username);
    if r.state != st {
      var code := SanitizeRoomCode(roomCode).value;
      var name := SanitizeUsername(username).value;
      QuitKeepsInv(st.sessions[code], name);
      SetSession(st, code, Quit(st.sessions[code], name));
      assert r.state == st.(sessions := st.sessions[code := Quit(st.sessions[code], name)]);
    }
  }

  lemma EndRoundKeepsInv(st: State, roomCode: Js, username: Js, now: int)
    requires StateInv(st)
    ensures StateInv(EndRound(st, roomCode, username, now).state)
  {
    if EndRound(st, roomCode, username, now) != Quiet(st) {
      var code := SanitizeRoomCode(roomCode).value;
      var room := st.rooms[code];
      assert RoomInv(RecordMatch(room, st.sessions[code], now));
      RecordMatchCounts(room, st.sessions[code], now, "");
      SetRoom(st, code, RecordMatch(room, st.sessions[code], now));
    }
  }

  // ---------------------------------------------------------------- lifecycle

  /** When every member of a room is bound to the leaving socket, the room and its race are
      destroyed, and joining that code again reports "Room not found". */
  lemma LastLeaveDestroysRoom(st: State, conn: ConnId, code: Code, conn2: ConnId, username: Js)
    requires IsRoomCode(code) && code in st.rooms
    requires CountId(st.rooms[code].players, conn) == |st.rooms[code].players|
    requires SanitizeUsername(username).Some?
    ensures var after := LeaveRoom(st, conn, JStr(code)).state;
      && code !in after.rooms && code !in after.sessions
      && JoinRoom(after, conn2, JStr(code), username) == Refuse(after, NotFound)
  {
  }

  /** The first member to join a freshly created room becomes its host, whatever socket
      created the room. */
  lemma FirstJoinerHosts(st: State, username: Js, difficulty: Js, draw: nat, conn: ConnId, name: Js)
    requires 1000 <= draw <= 9999
    requires SanitizeUsername(username).Some? && SanitizeUsername(name).Some?
    ensures var code := GenerateRoomCode(draw);
      var created := CreateRoom(st, username, difficulty, draw).state;
      var joined := JoinRoom(created, conn, JStr(code), name).state;
      && code in joined.rooms
      && joined.rooms[code].host == SanitizeUsername(name)
      && joined.rooms[code].players == [Member(conn, SanitizeUsername(name).value)]
  {
    GeneratedCodeValid(draw);
  }

  /** Host-only lobby actions from a socket that is not the host's change nothing and send
      nothing. */
  lemma NonHostIgnored(st: State, conn: ConnId, code: Code, difficulty: Js, start: string, target: string, now: int)
    requires IsRoomCode(code) && code in st.rooms && !IsHostConn(st.rooms[code], conn)
    ensures ChangeDifficulty(st, conn, JStr(code), difficulty) == Quiet(st)
    ensures StartGame(st, conn, JStr(code), start, target, now) == Quiet(st)
  {
  }

  /** A repeated `playerFinished` for the same racer is dropped. */
  lemma RepeatedFinishDropped(st: State, roomCode: Js, username: Js, clicks: Js, time: Js, path: Js,
                              usedHint: Js, now: int, clicks2: Js, time2: Js, path2: Js, usedHint2: Js, now2: int)
    requires PlayerFinished(st, roomCode, username, clicks, time, path, usedHint, now) != Quiet(st)
    ensures var st2 := PlayerFinished(st, roomCode, username, clicks, time, path, usedHint, now).state;
      PlayerFinished(st2, roomCode, username, clicks2, time2, path2, usedHint2, now2) == Quiet(st2)
  {
    var code := SanitizeRoomCode(roomCode).value;
    var name := SanitizeUsername(username).value;
    FinishIdempotent(st.sessions[code], name, clicks, time, path, usedHint, clicks2, time2, path2, usedHint2);
  }
}

=== FILE: dashboard.dfy ===
/** The global dashboard's table: per-difficulty records sorted by a clicked column, and the
    header state that remembers which column of which difficulty is sorted which way. */
module Dashboard {
  import opened Common
  import opened Sorting
  import opened Text

  /** One stored record as the dashboard receives it. */
  datatype Entry = Entry(nickname: string, clicks: int, time: int, usedHint: bool)

  /** A column's sort key: numbers, or strings compared by character code. */
  datatype Key = NumKey(n: int) | StrKey(s: string)

  predicate KeyLt(a: Key, b: Key) {
    match (a, b)
    case (NumKey(x), NumKey(y)) => x < y
    case (StrKey(x), StrKey(y)) => StrLt(x, y)
    case _ => false
  }

  /** The value the comparator reads for a column; `rank` and unknown columns read nothing. */
  function KeyOf(column: string, e: Entry): Option<Key> {
    if column == "nickname" then Some(StrKey(Lower(e.nickname)))
    else if column == "clicks" then Some(NumKey(e.clicks))
    else if column == "time" then Some(NumKey(e.time))
    else if column == "hint" then Some(NumKey(if e.usedHint then 1 else 0))
    else None
  }

  predicate Sortable(column: string) {
    column in {"nickname", "clicks", "time", "hint"}
  }

  /** The comparator of `sortLeaderboard`: 0 for `rank` and unknown columns; otherwise -1, 1 or
      0 by the keys, flipped unless the order is exactly "asc". */
  function DashCmp(column: string, order: string, a: Entry, b: Entry): int {
    match (KeyOf(column, a), KeyOf(column, b))
    case (Some(x), Some(y)) =>
      if KeyLt(x, y) then (if order == "asc" then -1 else 1)
      else if KeyLt(y, x) then (if order == "asc" then 1 else -1)
      else 0
    case _ => 0
  }

  function DashLe(column: string, order: string): (Entry, Entry) -> bool {
    (a: Entry, b: Entry) => DashCmp(column, order, a, b) <= 0
  }

  /** `sortLeaderboard(data, column, order)`: a sorted copy; `data` itself is never changed. */
  function SortLeaderboard(data: seq<Entry>, column: string, order: string): (r: seq<Entry>)
    ensures multiset(r) == multiset(data)
  {
    SortBy(data, DashLe(column, order))
  }

  /** The key of a sortable column, for stating orders. */
  function KeyAt(column: string, e: Entry): Key
    requires Sortable(column)
  {
    KeyOf(column, e).value
  }

  /** The sorted copy is a rearrangement of the records. Sorting by `rank` or by an unknown
      column returns them in their original order; sorting by a real column gives keys that
      never decrease when the order is "asc" and never increase for any other order, with
      records of equal key in their original order. */
  lemma SortLeaderboardOrder(data: seq<Entry>, column: string, order: string)
    ensures var r := SortLeaderboard(data, column, order);
      && multiset(r) == multiset(data)
      && (!Sortable(column) ==> r == data)
      && (Sortable(column) && order == "asc" ==>
            forall i, j :: 0 <= i < j < |r| ==> !KeyLt(KeyAt(column, r[j]), KeyAt(column, r[i])))
      && (Sortable(column) && order != "asc" ==>
            forall i, j :: 0 <= i < j < |r| ==> !KeyLt(KeyAt(column, r[i]), KeyAt(column, r[j])))
      && (forall c :: Class(r, DashLe(column, order), c) == Class(data, DashLe(column, order), c))
  {
    var le := DashLe(column, order);
    var r := SortLeaderboard(data, column, order);
    DashLeConsistent(column, order);
    if !Sortable(column) {
      assert SortedBy(data, le);
      SortSortedIdentity(data, le);
    } else {
      SortSorted(data, le);
      forall i, j | 0 <= i < j < |r|
        ensures order == "asc" ==> !KeyLt(KeyAt(column, r[j]), KeyAt(column, r[i]))
        ensures order != "asc" ==> !KeyLt(KeyAt(column, r[i]), KeyAt(column, r[j]))
      {
        assert le(r[i], r[j]);
        LeMeans(column, order, r[i], r[j]);
      }
    }
    forall c ensures Class(r, le, c) == Class(data, le, c) {
      SortStable(data, le, c);
    }
  }

  /** Sorted by nickname ascending, the lower-cased nicknames never decrease. */
  lemma NicknameAscending(data: seq<Entry>)
    ensures var r := SortLeaderboard(data, "nickname", "asc");
      forall i, j :: 0 <= i < j < |r| ==> !StrLt(Lower(r[j].nickname), Lower(r[i].nickname))
  {
    SortLeaderboardOrder(data, "nickname", "asc");
    var r := SortLeaderboard(data, "nickname", "asc");
    forall i, j | 0 <= i < j < |r| ensures !StrLt(Lower(r[j].nickname), Lower(r[i].nickname)) {
      assert !KeyLt(KeyAt("nickname", r[j]), KeyAt("nickname", r[i]));
    }
  }

  /** What one comparison says about the keys. */
  lemma LeMeans(column: string, order: string, a: Entry, b: Entry)
    requires Sortable(column)
    ensures DashLe(column, order)(a, b)
        <==> if order == "asc" then !KeyLt(KeyAt(column, b), KeyAt(column, a))
             else !KeyLt(KeyAt(column, a), KeyAt(column, b))
  {
    var x, y := KeyAt(column, a), KeyAt(column, b);
    if KeyLt(x, y) {
      KeyLtAsymmetric(x, y);
    }
  }

  lemma DashLeConsistent(column: string, order: string)
    ensures TotalPreorder(DashLe(column, order))
  {
    var le := DashLe(column, order);
    if Sortable(column) {
      forall a, b ensures le(a, b) || le(b, a) {
        LeMeans(column, order, a, b);
        LeMeans(column, order, b, a);
        var x, y := KeyAt(column, a), KeyAt(column, b);
        if KeyLt(x, y) {
          KeyLtAsymmetric(x, y);
        }
      }
      forall a, b, c | le(a, b) && le(b, c) ensures le(a, c) {
        DashLeTransitive(column, order, a, b, c);
      }
    }
  }

  lemma DashLeTransitive(column: string, order: string, a: Entry, b: Entry, c: Entry)
    requires Sortable(column)
    requires DashLe(column, order)(a, b) && DashLe(column, order)(b, c)
    ensures DashLe(column, order)(a, c)
  {
    LeMeans(column, order, a, b);
    LeMeans(column, order, b, c);
    LeMeans(column, order, a, c);
    var x, y, z := KeyAt(column, a), KeyAt(column, b), KeyAt(column, c);
    if order == "asc" {
      NotLtTransitive(x, y, z);
    } else {
      NotLtTransitive(z, y, x);
    }
  }

  /** Keys of one column are of one kind, so "not greater" is transitive on them. */
  lemma NotLtTransitive(x: Key, y: Key, z: Key)
    requires x.NumKey? == y.NumKey? && y.NumKey? == z.NumKey?
    requires !KeyLt(y, x) && !KeyLt(z, y)
    ensures !KeyLt(z, x)
  {
    if x.StrKey? && KeyLt(z, x) {
      StrLtConnected(x.s, y.s);
      if StrLt(x.s, y.s) {
        StrLtTransitive(z.s, x.s, y.s);
      }
      assert false;
    }
  }

  lemma KeyLtAsymmetric(x: Key, y: Key)
    requires KeyLt(x, y)
    ensures !KeyLt(y, x)
  {
    if x.StrKey? {
      StrLtAsymmetric(x.s, y.s);
    }
  }

  // ---------------------------------------------------------------- header state

  /** Which difficulty's table is sorted, by which column, in which order. */
  datatype View = View(difficulty: string, column: string, order: string)

  /** The page opens sorted by rank, ascending, on the easy table. */
  const Initial := View("easy", "rank", "asc")

  /** A header click: the current column of the current table flips its order; any other
      header becomes current and starts ascending. */
  function SortTable(v: View, difficulty: string, column: string): (w: View)
    ensures w.difficulty == difficulty && w.column == column
    ensures OrderValid(v) ==> OrderValid(w)
  {
    if v.difficulty == difficulty && v.column == column then
      v.(order := if v.order == "asc" then "desc" else "asc")
    else View(difficulty, column, "asc")
  }

  /** The order is one of the two values the page ever stores. */
  predicate OrderValid(v: View) {
    v.order == "asc" || v.order == "desc"
  }

  /** `getSortIcon`: an arrow only on the current header of the current table. */
  function SortIcon(v: View, difficulty: string, column: string): string {
    if v.difficulty != difficulty || v.column != column then ""
    else if v.order == "asc" then "▲" else "▼"
  }

  /** The rows a table shows: sorted only when it is the current table. */
  function Displayed(v: View, difficulty: string, data: seq<Entry>): seq<Entry> {
    if v.difficulty == difficulty then SortLeaderboard(data, v.column, v.order) else data
  }

  /** Clicking the same header twice restores the view. */
  lemma SortTableTwice(v: View, difficulty: string, column: string)
    requires OrderValid(v) && v.difficulty == difficulty && v.column == column
    ensures SortTable(SortTable(v, difficulty, column), difficulty, column) == v
    ensures SortTable(v, difficulty, column).order != v.order
  {
  }

  /** After a click exactly the clicked header carries an arrow; a newly clicked header
      shows the ascending arrow. */
  lemma ClickMovesArrow(v: View, difficulty: string, column: string, d: string, c: string)
    ensures var w := SortTable(v, difficulty, column);
      && (SortIcon(w, d, c) != "" <==> d == difficulty && c == column)
      && (v.difficulty != difficulty || v.column != column ==> SortIcon(w, difficulty, column) == "▲")
  {
  }

  /** The arrow tells the truth about the table under it: on a sortable column ▲ means keys
      never decrease and ▼ means they never increase; a table without the arrow's difficulty
      shows its records as received. */
  lemma IconAgreesWithTable(v: View, difficulty: string, column: string, data: seq<Entry>)
    requires Sortable(column)
    ensures var r := Displayed(v, difficulty, data);
      && (SortIcon(v, difficulty, column) == "▲" ==>
            forall i, j :: 0 <= i < j < |r| ==> !KeyLt(KeyAt(column, r[j]), KeyAt(column, r[i])))
      && (SortIcon(v, difficulty, column) == "▼" ==>
            forall i, j :: 0 <= i < j < |r| ==> !KeyLt(KeyAt(column, r[i]), KeyAt(column, r[j])))
      && (v.difficulty != difficulty ==> r == data)
  {
    SortLeaderboardOrder(data, v.column, v.order);
  }

  /** On opening, every table shows its records as received. */
  lemma InitialUnsorted(difficulty: string, data: seq<Entry>)
    ensures Displayed(Initial, difficulty, data) == data
    ensures OrderValid(Initial)
  {
    SortLeaderboardOrder(data, "rank", "asc");
  }
}

=== FILE: gamepage.dfy ===
/** The race page of a multiplayer game: the click, path and split-time bookkeeping, the
    target check on every navigation, and the guards that let the page report its finish at
    most once. Clock readings are parameters; the socket messages the page sends are returned
    as values. */
module GamePage {
  import opened Common
  import opened Text

  datatype Page = Page(
    clicks: nat,
    current: string,
    target: string,
    path: seq<string>,
    pathTimes: seq<int>,
    startTime: int,
    gameActive: bool,
    hasFinished: bool,
    usedHint: bool,
    hintShown: bool)

  /** What the page sends to the server. */
  datatype Out =
    | Progress(clicks: nat, article: string)
    | Finished(clicks: nat, time: int, path: seq<string>, usedHint: bool)
    | LeaveSession

  /** The page before `init` runs. */
  function Blank(target: string): Page {
    Page(0, "", target, [], [], 0, false, false, false, false)
  }

  /** `init`: the start article opens the path at split time 0, the timer starts at `now`, and
      the game becomes active. */
  function Init(target: string, start: string, now: int): (p: Page)
    ensures Inv(p, start) && p.gameActive && !p.hasFinished && p.clicks == 0
    ensures p.path == [start] && p.pathTimes == [0] && p.current == start
    ensures p.target == target && p.startTime == now && !p.usedHint && !p.hintShown
  {
    var b := Blank(target);
    b.(current := start, path := b.path + [start], pathTimes := b.pathTimes + [0], startTime := now,
       gameActive := true)
  }

  /** The bookkeeping every reachable page keeps: one path entry and one split time per click
      plus the start, the start article first at time 0, the current article last, and a
      finished page no longer active. */
  predicate Inv(p: Page, start: string) {
    && |p.path| == |p.pathTimes| == p.clicks + 1
    && p.path[0] == start && p.pathTimes[0] == 0
    && p.current == p.path[|p.path| - 1]
    && (p.hasFinished ==> !p.gameActive)
  }

  /** `title.toLowerCase().replace(/_/g, ' ')`. */
  function Canon(s: string): (r: string)
    ensures |r| == |s|
  {
    seq(|s|, i requires 0 <= i < |s| => if s[i] == '_' then ' ' else LowerChar(s[i]))
  }

  /** The target check: titles match when they agree after lower-casing and reading '_' as a
      space. */
  predicate TitleMatch(a: string, b: string) {
    Canon(a) == Canon(b)
  }

  /** `finishGame`: proceeds only while active and not yet finished; then the page stops,
      remembers that it finished, and reports its clicks, time, path and hint use. */
  function FinishGame(p: Page, now: int): (r: (Page, seq<Out>))
    ensures r.1 != [] <==> p.gameActive && !p.hasFinished
    ensures r.1 != [] ==> r.1 == [Finished(p.clicks, now - p.startTime, p.path, p.usedHint), LeaveSession]
    ensures r.1 != [] ==> r.0 == p.(gameActive := false, hasFinished := true)
    ensures r.1 == [] ==> r.0 == p
  {
    if !p.gameActive || p.hasFinished then (p, [])
    else
      var q := p.(gameActive := false, hasFinished := true);
      (q, [Finished(q.clicks, now - q.startTime, q.path, q.usedHint), LeaveSession])
  }

  /** A `navigate` message from the article frame, read at `now`; when it reaches the target
      the finish is read at `finishNow`. Ignored while the game is not active. */
  function Navigate(p: Page, title: string, now: int, finishNow: int): (r: (Page, seq<Out>))
    ensures !p.gameActive ==> r == (p, [])
    ensures p.gameActive ==> |r.1| >= 1 && r.1[0] == Progress(p.clicks + 1, title)
    ensures p.gameActive ==> r.0.clicks == p.clicks + 1 && r.0.current == title
    ensures p.gameActive ==> r.0.path == p.path + [title] && r.0.pathTimes == p.pathTimes + [now - p.startTime]
    ensures p.gameActive && !p.hasFinished ==> (r.0.hasFinished <==> TitleMatch(title, p.target))
    ensures p.gameActive ==> r.0.target == p.target && r.0.startTime == p.startTime && r.0.usedHint == p.usedHint
    ensures p.gameActive && !p.hasFinished && TitleMatch(title, p.target) ==>
              && !r.0.gameActive
              && r.1 == [Progress(p.clicks + 1, title),
                         Finished(p.clicks + 1, finishNow - p.startTime, p.path + [title], p.usedHint),
                         LeaveSession]
    ensures p.gameActive && (p.hasFinished || !TitleMatch(title, p.target)) ==>
              r.0.gameActive && r.1 == [Progress(p.clicks + 1, title)]
  {
    if !p.gameActive then (p, [])
    else
      var q := p.(clicks := p.clicks + 1, current := title, path := p.path + [title],
                  pathTimes := p.pathTimes + [now - p.startTime]);
      var progress := [Progress(q.clicks, title)];
      if TitleMatch(title, p.target) then
        var f := FinishGame(q, finishNow);
        (f.0, progress + f.1)
      else (q, progress)
  }

  /** `endGame`: the page stops and leaves the race's channel. */
  function EndGame(p: Page): (r: (Page, seq<Out>))
    ensures !r.0.gameActive && r.1 == [LeaveSession]
    ensures r.0 == p.(gameActive := false)
  {
    (p.(gameActive := false), [LeaveSession])
  }

  /** The `gameEnded` broadcast ends the game only for a player who has not finished. */
  function GameEnded(p: Page): (r: (Page, seq<Out>))
    ensures p.hasFinished ==> r == (p, [])
    ensures !p.hasFinished ==> r == EndGame(p)
  {
    if !p.hasFinished then EndGame(p) else (p, [])
  }

  /** The hint button: opening the description marks the hint as used; closing it does not
      clear the mark. */
  function ToggleHint(p: Page): (q: Page)
    ensures q.usedHint == (p.usedHint || !p.hintShown)
    ensures q.hintShown == !p.hintShown
    ensures q == p.(hintShown := q.hintShown, usedHint := q.usedHint)
  {
    if !p.hintShown then p.(hintShown := true, usedHint := true) else p.(hintShown := false)
  }

  // ---------------------------------------------------------------- runs

  datatype Event =
    | Nav(title: string, now: int, finishNow: int)
    | Ended
    | RoundOver
    | Hint

  function Step(p: Page, e: Event): (Page, seq<Out>) {
    match e
    case Nav(title, now, finishNow) => Navigate(p, title, now, finishNow)
    case Ended => GameEnded(p)
    case RoundOver => EndGame(p)
    case Hint => (ToggleHint(p), [])
  }

  /** The page after a sequence of events, and everything it sent. */
  function Run(p: Page, es: seq<Event>): (Page, seq<Out>)
    decreases |es|
  {
    if es == [] then (p, [])
    else
      var s := Step(p, es[0]);
      var t := Run(s.0, es[1..]);
      (t.0, s.1 + t.1)
  }

  function Finishes(outs: seq<Out>): nat {
    if outs == [] then 0 else (if outs[0].Finished? then 1 else 0) + Finishes(outs[1..])
  }

  lemma {:induction false} FinishesAppend(a: seq<Out>, b: seq<Out>)
    ensures Finishes(a + b) == Finishes(a) + Finishes(b)
    decreases |a|
  {
    if a == [] {
      assert a + b == b;
    } else {
      assert (a + b)[0] == a[0] && (a + b)[1..] == a[1..] + b;
      FinishesAppend(a[1..], b);
    }
  }

  /** Every event keeps the bookkeeping, never forgets a finish or a hint, and reports a
      finish only from a page that had not finished, which it then marks finished. */
  lemma StepFacts(p: Page, start: string, e: Event)
    requires Inv(p, start)
    ensures var s := Step(p, e);
      && Inv(s.0, start)
      && s.0.target == p.target && s.0.startTime == p.startTime
      && (p.hasFinished ==> s.0.hasFinished)
      && (p.usedHint ==> s.0.usedHint)
      && Finishes(s.1) <= (if p.hasFinished then 0 else 1)
      && (Finishes(s.1) == 1 ==> s.0.hasFinished)
  {
    var s := Step(p, e);
    match e
    case Nav(title, now, finishNow) =>
      if p.gameActive {
        var q := p.(clicks := p.clicks + 1, current := title, path := p.path + [title],
                    pathTimes := p.pathTimes + [now - p.startTime]);
        assert q.path[0] == start && q.pathTimes[0] == 0;
        if TitleMatch(title, p.target) && !p.hasFinished {
          assert s.1 == [Progress(q.clicks, title), Finished(q.clicks, finishNow - q.startTime, q.path, q.usedHint), LeaveSession];
        }
      }
    case Ended =>
    case RoundOver =>
    case Hint =>
  }

  /** The `roundEnded` broadcast stops the page and leaves the race's channel whether or not
      the player has finished; for a player still racing it is the same as `gameEnded`, and
      for one who has finished it is not. */
  lemma RoundEndedStops(p: Page)
    ensures !Step(p, RoundOver).0.gameActive && Step(p, RoundOver).1 == [LeaveSession]
    ensures Step(p, RoundOver) == Step(p, Ended) <==> !p.hasFinished
  {
  }

  /** Whatever happens on the page, it reports its finish at most once, and not at all once it
      has finished; the path bookkeeping holds throughout. */
  lemma {:induction false} FinishAtMostOnce(p: Page, start: string, es: seq<Event>)
    requires Inv(p, start)
    ensures var r := Run(p, es);
      && Inv(r.0, start)
      && r.0.target == p.target && r.0.startTime == p.startTime
      && Finishes(r.1) <= (if p.hasFinished then 0 else 1)
      && (Finishes(r.1) == 1 ==> r.0.hasFinished)
      && (p.hasFinished ==> r.0.hasFinished)
    decreases |es|
  {
    if es != [] {
      var s := Step(p, es[0]);
      StepFacts(p, start, es[0]);
      FinishAtMostOnce(s.0, start, es[1..]);
      FinishesAppend(s.1, Run(s.0, es[1..]).1);
    }
  }

  // ---------------------------------------------------------------- target check

  /** Matching titles is an equivalence: it ignores case and reads '_' as a space. */
  lemma TitleMatchEquivalence(a: string, b: string, c: string)
    ensures TitleMatch(a, a)
    ensures TitleMatch(a, b) ==> TitleMatch(b, a)
    ensures TitleMatch(a, b) && TitleMatch(b, c) ==> TitleMatch(a, c)
    ensures TitleMatch(a, b) ==> |a| == |b|
  {
  }

  /** Position by position, two titles match exactly when their characters agree up to case,
      with '_' and ' ' counted as the same. */
  lemma TitleMatchPointwise(a: string, b: string)
    ensures TitleMatch(a, b) <==> |a| == |b| && forall i :: 0 <= i < |a| ==> SameTitleChar(a[i], b[i])
  {
    if |a| == |b| && forall i :: 0 <= i < |a| ==> SameTitleChar(a[i], b[i]) {
      forall i | 0 <= i < |a| ensures Canon(a)[i] == Canon(b)[i] {
        assert SameTitleChar(a[i], b[i]);
      }
    }
    if TitleMatch(a, b) {
      forall i | 0 <= i < |a| ensures SameTitleChar(a[i], b[i]) {
        assert Canon(a)[i] == Canon(b)[i];
      }
    }
  }

  /** Two characters a title check cannot tell apart. */
  predicate SameTitleChar(x: char, y: char) {
    if x == '_' || x == ' ' then y == '_' || y == ' '
    else if 'A' <= x <= 'Z' then y == x || y as int == x as int + 32
    else if 'a' <= x <= 'z' then y == x || y as int == x as int - 32
    else y == x
  }

  lemma TitleMatchExamples()
    ensures TitleMatch("Albert_Einstein", "albert einstein")
    ensures !TitleMatch("Cat", "Cats")
  {
    assert Canon("Albert_Einstein") == "albert einstein";
  }
}

=== FILE: leaderboard.dfy ===
/** The per-room leaderboard and match history: committing a race
    (backend/server.js:582-627) and reading the room's record back (backend/server.js:507-537). */
module Leaderboard {
  import opened Common
  import opened Sorting
  import opened Types
  import opened Race
  import opened Validation

  /** How many top places a race of `total` racers credits. */
  function CountPositions(total: nat): (k: nat)
    ensures 1 <= k <= 3
    ensures total <= 2 ==> k == 1
    ensures total == 3 ==> k == 2
    ensures total >= 4 ==> k == 3
  {
    if total == 3 then 2 else if total >= 4 then 3 else 1
  }

  /** For every race size that can end by finishing, the race ends exactly when as many
      racers have finished as the leaderboard credits places. */
  lemma CreditedPlacesMatchThreshold(total: nat)
    requires 2 <= total <= MaxPlayers
    ensures Threshold(total) == Some(CountPositions(total))
  {
  }

  /** `p.finished && p.position`: a racer holding a (non-zero) placement. */
  predicate Placed(r: Racer) {
    r.finished && r.position.Some? && r.position.value != 0
  }

  /** `session.players.filter(p => p.finished && p.position)`. */
  function PlacedRacers(ps: seq<Racer>): (r: seq<Racer>)
    ensures |r| <= |ps|
    ensures forall i :: 0 <= i < |r| ==> Placed(r[i]) && r[i] in ps
    ensures forall i :: 0 <= i < |ps| && Placed(ps[i]) ==> ps[i] in r
  {
    if ps == [] then []
    else (if Placed(ps[0]) then [ps[0]] else []) + PlacedRacers(ps[1..])
  }

  // ---------------------------------------------------------------- counters

  function StatNames(board: seq<Stats>): (ns: seq<Name>)
    ensures |ns| == |board|
    ensures forall j :: 0 <= j < |board| ==> ns[j] == board[j].username
  {
    seq(|board|, j requires 0 <= j < |board| => board[j].username)
  }

  function Zero(name: Name): Stats {
    Stats(name, 0, 0, 0, 0)
  }

  /** `room.leaderboard.get(name)`, with an absent name reading as all zeros. */
  function Lookup(board: seq<Stats>, name: Name): (st: Stats)
    ensures st.username == name
    ensures name !in StatNames(board) ==> st == Zero(name)
  {
    var j := IndexOf(StatNames(board), name);
    if j < |board| then board[j] else Zero(name)
  }

  /** Every name has one entry and each entry's place counters add up to its match count. */
  predicate BoardInv(board: seq<Stats>) {
    && Distinct(StatNames(board))
    && forall j :: 0 <= j < |board| ==>
         board[j].first + board[j].second + board[j].third == board[j].totalMatches
  }

  /** One credited placement: the match count always, and the counter of the place when the
      race credits it. */
  function Bump(st: Stats, pos: nat, k: nat): Stats {
    st.(totalMatches := st.totalMatches + 1,
        first := if pos == 1 then st.first + 1 else st.first,
        second := if pos == 2 && k >= 2 then st.second + 1 else st.second,
        third := if pos == 3 && k >= 3 then st.third + 1 else st.third)
  }

  /** The position of a placed racer. */
  function Pos(r: Racer): nat
    requires Placed(r)
  {
    r.position.value
  }

  /** The loop body for one placed racer: placements beyond the credited ones are skipped; a
      first credited placement appends a zeroed entry. */
  function Credit(board: seq<Stats>, r: Racer, k: nat): (b: seq<Stats>)
    requires Placed(r)
  {
    if Pos(r) > k then board
    else
      var j := IndexOf(StatNames(board), r.username);
      if j < |board| then board[j := Bump(board[j], Pos(r), k)]
      else board + [Bump(Zero(r.username), Pos(r), k)]
  }

  /** `finishedPlayers.forEach(...)`. */
  function CreditAll(board: seq<Stats>, rs: seq<Racer>, k: nat): (b: seq<Stats>)
    requires forall i :: 0 <= i < |rs| ==> Placed(rs[i])
    decreases |rs|
  {
    if rs == [] then board else CreditAll(Credit(board, rs[0], k), rs[1..], k)
  }

  /** How many racers of `rs` named `name` are credited with place `p`. */
  function Wins(rs: seq<Racer>, name: Name, p: nat, k: nat): (n: nat)
    requires forall i :: 0 <= i < |rs| ==> Placed(rs[i])
    ensures n <= |rs|
  {
    if rs == [] then 0
    else (if rs[0].username == name && Pos(rs[0]) == p && p <= k then 1 else 0) + Wins(rs[1..], name, p, k)
  }

  /** How many racers of `rs` named `name` are credited with any place. */
  function Credited(rs: seq<Racer>, name: Name, k: nat): (n: nat)
    requires forall i :: 0 <= i < |rs| ==> Placed(rs[i])
    ensures n <= |rs|
  {
    if rs == [] then 0
    else (if rs[0].username == name && Pos(rs[0]) <= k then 1 else 0) + Credited(rs[1..], name, k)
  }

  /** `st` with the given amounts added to its counters. */
  function Add(st: Stats, f: nat, s: nat, t: nat, m: nat): Stats {
    st.(first := st.first + f, second := st.second + s, third := st.third + t, totalMatches := st.totalMatches + m)
  }

  lemma IndexOfAppend(ns: seq<Name>, m: Name, n: Name)
    requires m != n
    ensures IndexOf(ns + [m], n) == if IndexOf(ns, n) < |ns| then IndexOf(ns, n) else |ns| + 1
  {
    if IndexOf(ns, n) == |ns| {
      assert n !in ns;
      assert n !in ns + [m];
    } else {
      var k := IndexOf(ns, n);
      assert (ns + [m])[k] == n;
      assert forall j :: 0 <= j < k ==> (ns + [m])[j] != n;
      IndexOfFirst(ns + [m], n, k);
    }
  }

  /** The first index holding `x` is where `IndexOf` finds it. */
  lemma IndexOfFirst<T>(s: seq<T>, x: T, k: nat)
    requires k < |s| && s[k] == x
    requires forall j :: 0 <= j < k ==> s[j] != x
    ensures IndexOf(s, x) == k
  {
  }

  /** One credited racer changes only its own entry, by one `Bump`. */
  lemma CreditLookup(board: seq<Stats>, r: Racer, k: nat, name: Name)
    requires Placed(r)
    ensures Lookup(Credit(board, r, k), name)
         == if r.username == name && Pos(r) <= k then Bump(Lookup(board, name), Pos(r), k) else Lookup(board, name)
  {
    if Pos(r) <= k {
      var ns := StatNames(board);
      var j := IndexOf(ns, r.username);
      var b := Credit(board, r, k);
      if j < |board| {
        assert StatNames(b) == ns;
      } else {
        assert StatNames(b) == ns + [r.username];
        if r.username != name {
          IndexOfAppend(ns, r.username, name);
        } else {
          assert r.username !in ns;
          IndexOfFirst(ns + [r.username], name, |ns|);
        }
      }
    }
  }

  /** Committing a race adds to each name's counters exactly its credited placements: one
      match per credited placement and one first, second or third per credited place. */
  lemma {:induction false} CreditAllLookup(board: seq<Stats>, rs: seq<Racer>, k: nat, name: Name)
    requires forall i :: 0 <= i < |rs| ==> Placed(rs[i])
    ensures Lookup(CreditAll(board, rs, k), name)
         == Add(Lookup(board, name), Wins(rs, name, 1, k), Wins(rs, name, 2, k), Wins(rs, name, 3, k), Credited(rs, name, k))
    decreases |rs|
  {
    if rs != [] {
      CreditLookup(board, rs[0], k, name);
      CreditAllLookup(Credit(board, rs[0], k), rs[1..], k, name);
    }
  }

  /** Crediting one placement keeps every name unique and every entry's counters balanced. */
  lemma CreditKeepsInv(board: seq<Stats>, r: Racer, k: nat)
    requires BoardInv(board) && Placed(r) && k <= 3
    ensures BoardInv(Credit(board, r, k))
  {
    if Pos(r) <= k {
      var ns := StatNames(board);
      var j := IndexOf(ns, r.username);
      var b := Credit(board, r, k);
      if j < |board| {
        assert StatNames(b) == ns;
      } else {
        assert StatNames(b) == ns + [r.username];
        assert r.username !in ns;
      }
    }
  }

  lemma {:induction false} CreditAllKeepsInv(board: seq<Stats>, rs: seq<Racer>, k: nat)
    requires BoardInv(board) && k <= 3
    requires forall i :: 0 <= i < |rs| ==> Placed(rs[i])
    ensures BoardInv(CreditAll(board, rs, k))
    decreases |rs|
  {
    if rs != [] {
      CreditKeepsInv(board, rs[0], k);
      CreditAllKeepsInv(Credit(board, rs[0], k), rs[1..], k);
    }
  }

  /** Crediting never drops or reorders names: the old names are a prefix of the new ones. */
  lemma {:induction false} CreditAllKeepsNames(board: seq<Stats>, rs: seq<Racer>, k: nat)
    requires forall i :: 0 <= i < |rs| ==> Placed(rs[i])
    ensures var ns := StatNames(CreditAll(board, rs, k));
      |StatNames(board)| <= |ns| && ns[..|board|] == StatNames(board)
    decreases |rs|
  {
    if rs != [] {
      var b := Credit(board, rs[0], k);
      var j := IndexOf(StatNames(board), rs[0].username);
      if Pos(rs[0]) <= k && j < |board| {
        assert StatNames(b) == StatNames(board);
      } else if Pos(rs[0]) <= k {
        assert StatNames(b) == StatNames(board) + [rs[0].username];
      }
      CreditAllKeepsNames(b, rs[1..], k);
    }
  }

  // ---------------------------------------------------------------- commit

  function ResultOf(r: Racer): MatchResult
    requires Placed(r)
  {
    MatchResult(r.username, Pos(r), r.clicks, r.time)
  }

  /** The match summary appended when a race is committed. */
  function Summary(s: Session, now: int): (m: MatchSummary)
    ensures m.playerCount == |s.players| && m.target == s.target && m.difficulty == s.difficulty
    ensures m.abandoned <==> forall i :: 0 <= i < |s.players| ==> !Placed(s.players[i])
    ensures |m.results| == |PlacedRacers(s.players)|
    ensures forall i :: 0 <= i < |m.results| ==>
              m.results[i] == ResultOf(PlacedRacers(s.players)[i]) && m.results[i].position >= 1
  {
    var placed := PlacedRacers(s.players);
    assert placed != [] ==> placed[0] in s.players;
    MatchSummary(now, |s.players|, s.target, s.difficulty, placed == [],
      seq(|placed|, i requires 0 <= i < |placed| => ResultOf(placed[i])))
  }

  /** `recordMatchResults` on an existing room: credits the placements and appends the match. */
  function RecordMatch(room: Room, s: Session, now: int): (r: Room)
    ensures r == room.(leaderboard := r.leaderboard, matchHistory := room.matchHistory + [Summary(s, now)])
  {
    var placed := PlacedRacers(s.players);
    room.(leaderboard := CreditAll(room.leaderboard, placed, CountPositions(|s.players|)),
          matchHistory := room.matchHistory + [Summary(s, now)])
  }

  /** After a commit each name's counters have grown by exactly the placements the race
      credits it, and the leaderboard stays well formed. */
  lemma RecordMatchCounts(room: Room, s: Session, now: int, name: Name)
    requires BoardInv(room.leaderboard)
    ensures var placed := PlacedRacers(s.players);
      var k := CountPositions(|s.players|);
      && Lookup(RecordMatch(room, s, now).leaderboard, name)
         == Add(Lookup(room.leaderboard, name), Wins(placed, name, 1, k), Wins(placed, name, 2, k),
                Wins(placed, name, 3, k), Credited(placed, name, k))
      && BoardInv(RecordMatch(room, s, now).leaderboard)
  {
    var placed := PlacedRacers(s.players);
    var k := CountPositions(|s.players|);
    CreditAllLookup(room.leaderboard, placed, k, name);
    CreditAllKeepsInv(room.leaderboard, placed, k);
  }

  /** A two-racer race credits only the winner: second place counts for nothing. */
  lemma TwoRacerSecondUncredited(rs: seq<Racer>, name: Name)
    requires forall i :: 0 <= i < |rs| ==> Placed(rs[i])
    ensures Wins(rs, name, 2, CountPositions(2)) == 0 && Wins(rs, name, 3, CountPositions(2)) == 0
  {
    WinsBeyond(rs, name, 2, 1);
    WinsBeyond(rs, name, 3, 1);
  }

  /** The tallies of two runs of racers add up. */
  lemma {:induction false} TallySplit(a: seq<Racer>, b: seq<Racer>, name: Name, p: nat, k: nat)
    requires forall i :: 0 <= i < |a| ==> Placed(a[i])
    requires forall i :: 0 <= i < |b| ==> Placed(b[i])
    ensures forall i :: 0 <= i < |a + b| ==> Placed((a + b)[i])
    ensures Wins(a + b, name, p, k) == Wins(a, name, p, k) + Wins(b, name, p, k)
    ensures Credited(a + b, name, k) == Credited(a, name, k) + Credited(b, name, k)
    decreases |a|
  {
    if a == [] {
      assert a + b == b;
    } else {
      assert (a + b)[1..] == a[1..] + b;
      TallySplit(a[1..], b, name, p, k);
    }
  }

  lemma TallyOne(r: Racer, name: Name, p: nat, k: nat)
    requires Placed(r)
    ensures Wins([r], name, p, k) == if r.username == name && Pos(r) == p && p <= k then 1 else 0
    ensures Credited([r], name, k) == if r.username == name && Pos(r) <= k then 1 else 0
  {
    assert [r][1..] == [];
  }

  lemma {:induction false} WinsBeyond(rs: seq<Racer>, name: Name, p: nat, k: nat)
    requires forall i :: 0 <= i < |rs| ==> Placed(rs[i])
    requires p > k
    ensures Wins(rs, name, p, k) == 0
    decreases |rs|
  {
    if rs != [] {
      WinsBeyond(rs[1..], name, p, k);
    }
  }

  // ---------------------------------------------------------------- reading back

  predicate ResultLe(a: MatchResult, b: MatchResult) {
    a.position - b.position <= 0
  }

  lemma ResultLeConsistent()
    ensures TotalPreorder(ResultLe)
  {
  }

  /** `match.results.sort((a, b) => a.position - b.position)`. */
  function SortResults(rs: seq<MatchResult>): (r: seq<MatchResult>)
    ensures multiset(r) == multiset(rs) && |r| == |rs|
  {
    SortBy(rs, ResultLe)
  }

  function SortSummary(m: MatchSummary): MatchSummary {
    m.(results := SortResults(m.results))
  }

  /** The stored history after `getRoomLeaderboard`: the sort works in place, so every
      stored summary now lists its results by position. */
  function SortHistory(h: seq<MatchSummary>): (r: seq<MatchSummary>)
    ensures |r| == |h|
    ensures forall i :: 0 <= i < |h| ==> r[i] == h[i].(results := r[i].results)
    ensures forall i :: 0 <= i < |h| ==> multiset(r[i].results) == multiset(h[i].results)
  {
    seq(|h|, i requires 0 <= i < |h| => SortSummary(h[i]))
  }

  /** The `roomLeaderboard` reply. */
  datatype RoomRecord = RoomRecord(difficulty: Difficulty, leaderboard: seq<Stats>, matches: seq<MatchSummary>)

  /** `getRoomLeaderboard` on an existing room: the reply, and the room with its stored
      results now sorted. */
  function ReadRecord(room: Room): (r: (Room, RoomRecord))
    ensures r.0 == room.(matchHistory := r.0.matchHistory)
    ensures r.1 == RoomRecord(room.difficulty, room.leaderboard, r.0.matchHistory)
  {
    var h := SortHistory(room.matchHistory);
    (room.(matchHistory := h), RoomRecord(room.difficulty, room.leaderboard, h))
  }

  /** Every returned match lists its results by ascending position, as a reordering of the
      stored ones. */
  lemma ReadRecordSorted(room: Room)
    ensures var ms := ReadRecord(room).1.matches;
      && |ms| == |room.matchHistory|
      && forall i :: 0 <= i < |ms| ==>
           && multiset(ms[i].results) == multiset(room.matchHistory[i].results)
           && forall a, b :: 0 <= a < b < |ms[i].results| ==> ms[i].results[a].position <= ms[i].results[b].position
  {
    ResultLeConsistent();
    var ms := ReadRecord(room).1.matches;
    forall i | 0 <= i < |ms|
      ensures forall a, b :: 0 <= a < b < |ms[i].results| ==> ms[i].results[a].position <= ms[i].results[b].position
    {
      SortSorted(room.matchHistory[i].results, ResultLe);
      assert SortedBy(ms[i].results, ResultLe);
    }
  }

  /** Reading the record twice gives the same reply and leaves the room as the first read did. */
  lemma ReadRecordIdempotent(room: Room)
    ensures ReadRecord(ReadRecord(room).0) == ReadRecord(room)
  {
    ResultLeConsistent();
    var h := SortHistory(room.matchHistory);
    forall i | 0 <= i < |h|
      ensures SortSummary(h[i]) == h[i]
    {
      SortSorted(room.matchHistory[i].results, ResultLe);
      SortSortedIdentity(h[i].results, ResultLe);
    }
    assert SortHistory(h) == h;
  }
}

=== FILE: membership.dfy ===
/** Room membership: join, rejoin, leave with host migration, and the host checks
    (backend/server.js:132-139, 168-182, 201-214, 224-225, 236-237, 274-281, 490-493, 548-549). */
module Membership {
  import opened Common
  import opened Validation
  import opened Types

  function Names(ps: seq<Member>): (ns: seq<Name>)
    ensures |ns| == |ps|
    ensures forall i :: 0 <= i < |ps| ==> ns[i] == ps[i].username
  {
    seq(|ps|, i requires 0 <= i < |ps| => ps[i].username)
  }

  /** `players.find(p => p.username === name)`, as the index found. */
  function FindByName(ps: seq<Member>, name: Name): (r: Option<nat>)
    ensures r.Some? ==> r.value < |ps| && ps[r.value].username == name
    ensures r.Some? ==> forall j :: 0 <= j < r.value ==> ps[j].username != name
    ensures r.None? <==> name !in Names(ps)
  {
    var k := IndexOf(Names(ps), name);
    if k < |ps| then Some(k) else None
  }

  /** `players.find(p => p.id === socket.id)`, as the index found. */
  function FindById(ps: seq<Member>, id: ConnId): (r: Option<nat>)
    ensures r.Some? ==> r.value < |ps| && ps[r.value].id == id
    ensures r.Some? ==> forall j :: 0 <= j < r.value ==> ps[j].id != id
    ensures r.None? <==> forall j :: 0 <= j < |ps| ==> ps[j].id != id
    decreases |ps|
  {
    if ps == [] then None
    else if ps[0].id == id then Some(0)
    else match FindById(ps[1..], id)
      case None => None
      case Some(k) => Some(k + 1)
  }

  /** How many members are bound to socket `id`. */
  function CountId(ps: seq<Member>, id: ConnId): (n: nat)
    ensures n <= |ps|
    ensures n == 0 <==> forall j :: 0 <= j < |ps| ==> ps[j].id != id
  {
    if ps == [] then 0 else (if ps[0].id == id then 1 else 0) + CountId(ps[1..], id)
  }

  predicate UniqueNames(ps: seq<Member>) {
    forall i, j :: 0 <= i < j < |ps| ==> ps[i].username != ps[j].username
  }

  /** The membership invariant: at most six members with distinct names, and a host exactly
      when there are members, the host being one of them. */
  predicate RoomInv(room: Room) {
    && |room.players| <= MaxPlayers
    && UniqueNames(room.players)
    && (room.host.Some? <==> room.players != [])
    && (room.host.Some? ==> room.host.value in Names(room.players))
  }

  /** `createRoom`: no members and no host; the creator is not a member. */
  function NewRoom(code: Code, difficulty: Difficulty): (room: Room)
    ensures RoomInv(room) && room.players == [] && room.host.None?
    ensures room.code == code && room.difficulty == difficulty
    ensures room.leaderboard == [] && room.matchHistory == []
  {
    Room(code, None, [], difficulty, [], [])
  }

  /** Bind member `i` to socket `conn` (`existingPlayer.id = socket.id`). */
  function Rebind(ps: seq<Member>, i: nat, conn: ConnId): (qs: seq<Member>)
    requires i < |ps|
    ensures |qs| == |ps| && Names(qs) == Names(ps)
    ensures qs[i].id == conn
    ensures forall j :: 0 <= j < |ps| && j != i ==> qs[j] == ps[j]
  {
    ps[i := Member(conn, ps[i].username)]
  }

  datatype JoinOutcome = Joined(room: Room) | RoomFull

  /** `joinRoom` on an existing room: a known name only moves to the new socket; a new name is
      refused when six members exist and is otherwise appended, becoming host if it is the
      first member. */
  function Join(room: Room, conn: ConnId, name: Name): (r: JoinOutcome)
    ensures name in Names(room.players) ==>
              && r.Joined?
              && r.room == room.(players := r.room.players)
              && Names(r.room.players) == Names(room.players)
              && r.room.players[FindByName(room.players, name).value] == Member(conn, name)
              && forall j :: 0 <= j < |room.players| && room.players[j].username != name
                   ==> r.room.players[j] == room.players[j]
    ensures name !in Names(room.players) && |room.players| >= MaxPlayers ==> r.RoomFull?
    ensures name !in Names(room.players) && |room.players| < MaxPlayers ==>
              && r.Joined?
              && r.room == room.(players := r.room.players, host := r.room.host)
              && r.room.players == room.players + [Member(conn, name)]
              && r.room.host == if room.players == [] then Some(name) else room.host
  {
    match FindByName(room.players, name)
    case Some(i) => Joined(room.(players := Rebind(room.players, i, conn)))
    case None =>
      if |room.players| >= MaxPlayers then RoomFull
      else
        var ps := room.players + [Member(conn, name)];
        Joined(room.(players := ps, host := if |ps| == 1 then Some(name) else room.host))
  }

  lemma NamesAppend(ps: seq<Member>, m: Member)
    ensures Names(ps + [m]) == Names(ps) + [m.username]
  {
  }

  /** Joining keeps the membership invariant, and afterwards the name is a member. */
  lemma JoinKeepsInv(room: Room, conn: ConnId, name: Name)
    requires RoomInv(room)
    ensures Join(room, conn, name).Joined? ==>
              RoomInv(Join(room, conn, name).room) && name in Names(Join(room, conn, name).room.players)
  {
    var r := Join(room, conn, name);
    if r.Joined? {
      if name !in Names(room.players) {
        NamesAppend(room.players, Member(conn, name));
        forall i | 0 <= i < |room.players|
          ensures room.players[i].username != name
        {
          assert Names(room.players)[i] == room.players[i].username;
        }
      }
    }
  }

  /** A name that was not a member becomes host exactly when the room had no members. */
  lemma JoinHostIffFirst(room: Room, conn: ConnId, name: Name)
    requires RoomInv(room) && name !in Names(room.players)
    requires Join(room, conn, name).Joined?
    ensures Join(room, conn, name).room.host == Some(name) <==> room.players == []
  {
  }

  /** `players.filter(p => p.id !== socket.id)`. */
  function RemoveConn(ps: seq<Member>, conn: ConnId): (qs: seq<Member>)
    ensures |qs| == |ps| - CountId(ps, conn)
    ensures forall j :: 0 <= j < |qs| ==> qs[j].id != conn && qs[j] in ps
  {
    if ps == [] then []
    else (if ps[0].id == conn then [] else [ps[0]]) + RemoveConn(ps[1..], conn)
  }

  /** Removing a socket's members from a list where it has none changes nothing, and otherwise
      the first member left is the first member bound to another socket. */
  lemma RemoveConnSubsequence(ps: seq<Member>, conn: ConnId)
    ensures CountId(ps, conn) == 0 ==> RemoveConn(ps, conn) == ps
    ensures forall k :: 0 <= k < |ps| && ps[k].id != conn && (forall j :: 0 <= j < k ==> ps[j].id == conn)
              ==> RemoveConn(ps, conn) != [] && RemoveConn(ps, conn)[0] == ps[k]
  {
    if CountId(ps, conn) == 0 {
      RemoveConnNone(ps, conn);
    }
    forall k | 0 <= k < |ps| && ps[k].id != conn && (forall j :: 0 <= j < k ==> ps[j].id == conn)
      ensures RemoveConn(ps, conn) != [] && RemoveConn(ps, conn)[0] == ps[k]
    {
      RemoveConnFirst(ps, conn, k);
    }
  }

  lemma {:induction false} RemoveConnNone(ps: seq<Member>, conn: ConnId)
    requires CountId(ps, conn) == 0
    ensures RemoveConn(ps, conn) == ps
    decreases |ps|
  {
    if ps != [] {
      assert CountId(ps[1..], conn) == 0;
      RemoveConnNone(ps[1..], conn);
      assert ps == [ps[0]] + ps[1..];
    }
  }

  lemma {:induction false} RemoveConnFirst(ps: seq<Member>, conn: ConnId, k: nat)
    requires k < |ps| && ps[k].id != conn
    requires forall j :: 0 <= j < k ==> ps[j].id == conn
    ensures RemoveConn(ps, conn) != [] && RemoveConn(ps, conn)[0] == ps[k]
    decreases k
  {
    if k > 0 {
      assert ps[0].id == conn;
      assert ps[1..][k - 1] == ps[k];
      forall j | 0 <= j < k - 1
        ensures ps[1..][j].id == conn
      {
        assert ps[1..][j] == ps[j + 1];
      }
      RemoveConnFirst(ps[1..], conn, k - 1);
    }
  }

  /** `leaveRoom` on an existing room: every member bound to the socket is removed; `None`
      when the room is emptied (it is then deleted with its session); otherwise the host moves
      to the new first member exactly when the first member found for the socket was host. */
  function Leave(room: Room, conn: ConnId): (r: Option<Room>)
    ensures r.None? <==> CountId(room.players, conn) == |room.players|
    ensures r.Some? ==> r.value == room.(players := RemoveConn(room.players, conn), host := r.value.host)
    ensures r.Some? && IsHostConn(room, conn) ==> r.value.host == Some(r.value.players[0].username)
    ensures r.Some? && !IsHostConn(room, conn) ==> r.value.host == room.host
  {
    var leaving := FindById(room.players, conn);
    var rest := RemoveConn(room.players, conn);
    if rest == [] then None
    else
      var host := if leaving.Some? && room.host == Some(room.players[leaving.value].username)
                  then Some(rest[0].username) else room.host;
      Some(room.(players := rest, host := host))
  }

  /** Removing a socket's members keeps the names unique. */
  lemma {:induction false} RemoveConnUnique(ps: seq<Member>, conn: ConnId)
    requires UniqueNames(ps)
    ensures UniqueNames(RemoveConn(ps, conn))
    decreases |ps|
  {
    if ps != [] {
      RemoveConnUnique(ps[1..], conn);
      var rest := RemoveConn(ps[1..], conn);
      forall j | 0 <= j < |rest|
        ensures rest[j].username != ps[0].username
      {
        var k :| 0 <= k < |ps[1..]| && ps[1..][k] == rest[j];
        assert ps[k + 1] == rest[j];
      }
    }
  }

  /** Every member on another socket stays. */
  lemma {:induction false} RemoveConnKeeps(ps: seq<Member>, conn: ConnId)
    ensures forall j :: 0 <= j < |ps| && ps[j].id != conn ==> ps[j] in RemoveConn(ps, conn)
    decreases |ps|
  {
    if ps != [] {
      RemoveConnKeeps(ps[1..], conn);
      forall j | 1 <= j < |ps| && ps[j].id != conn
        ensures ps[j] in RemoveConn(ps, conn)
      {
        assert ps[1..][j - 1] == ps[j];
      }
    }
  }

  lemma MemberName(ps: seq<Member>, m: Member)
    requires m in ps
    ensures m.username in Names(ps)
  {
    var k :| 0 <= k < |ps| && ps[k] == m;
    assert Names(ps)[k] == m.username;
  }

  /** Leaving keeps the membership invariant when at most one member is bound to the leaving
      socket. With two names on one socket the host can be removed without migration; see
      `LeaveTwoNamesOneSocket`. */
  lemma LeaveKeepsInv(room: Room, conn: ConnId)
    requires RoomInv(room) && CountId(room.players, conn) <= 1
    ensures Leave(room, conn).Some? ==> RoomInv(Leave(room, conn).value)
  {
    var r := Leave(room, conn);
    if r.Some? {
      var rest := RemoveConn(room.players, conn);
      RemoveConnUnique(room.players, conn);
      RemoveConnKeeps(room.players, conn);
      var host := room.host.value;
      var h :| 0 <= h < |room.players| && Names(room.players)[h] == host;
      match FindById(room.players, conn)
      case None =>
        assert room.players[h].id != conn;
        MemberName(rest, room.players[h]);
      case Some(i) =>
        if room.host != Some(room.players[i].username) {
          assert h != i;
          if room.players[h].id == conn {
            CountTwo(room.players, conn, i, h);
          }
          MemberName(rest, room.players[h]);
        } else {
          assert Names(r.value.players)[0] == rest[0].username;
        }
    }
  }

  /** Two members on one socket count twice. */
  lemma {:induction false} CountTwo(ps: seq<Member>, conn: ConnId, i: nat, j: nat)
    requires i < |ps| && j < |ps| && i != j && ps[i].id == conn && ps[j].id == conn
    ensures CountId(ps, conn) >= 2
    decreases |ps|
  {
    if i > 0 && j > 0 {
      CountTwo(ps[1..], conn, i - 1, j - 1);
    } else {
      var k := if i == 0 then j else i;
      assert ps[1..][k - 1].id == conn;
    }
  }

  /** Two names bound to one socket (a second `joinRoom` from the same socket under another
      name): when the socket leaves, both names go, but only the first is compared with the
      host, so the room is left with a host who is no longer a member. */
  lemma LeaveTwoNamesOneSocket()
    ensures var room := Room("4721", Some("Bob"), [Member("s1", "Ann"), Member("s1", "Bob"), Member("s2", "Cid")], Easy, [], []);
      && RoomInv(room)
      && Leave(room, "s1") == Some(room.(players := [Member("s2", "Cid")]))
      && !RoomInv(Leave(room, "s1").value)
  {
    var ann, bob, cid := Member("s1", "Ann"), Member("s1", "Bob"), Member("s2", "Cid");
    SharedSocketLeaves(Room("4721", Some("Bob"), [ann, bob, cid], Easy, [], []), ann, bob, cid);
  }

  lemma SharedSocketLeaves(room: Room, a: Member, b: Member, c: Member)
    requires room.players == [a, b, c] && room.host == Some(b.username)
    requires a.id == b.id && c.id != a.id
    requires a.username != b.username && b.username != c.username && a.username != c.username
    ensures RoomInv(room)
    ensures Leave(room, a.id) == Some(room.(players := [c]))
    ensures !RoomInv(Leave(room, a.id).value)
  {
    assert Names(room.players)[1] == b.username;
    RemoveConnThree(a, b, c, a.id);
    assert FindById(room.players, a.id) == Some(0);
    LeaveAt(room, a.id, [c], room.host);
    assert Names([c]) == [c.username];
  }

  /** Host migration in join order: the host leaving a three-member room hands over to the
      next member; another member leaving keeps the host. */
  lemma HostMigration()
    ensures var room := Room("4721", Some("Ann"), [Member("a", "Ann"), Member("b", "Bob"), Member("c", "Cid")], Easy, [], []);
      && Leave(room, "a") == Some(room.(players := [Member("b", "Bob"), Member("c", "Cid")], host := Some("Bob")))
      && Leave(room, "b") == Some(room.(players := [Member("a", "Ann"), Member("c", "Cid")]))
  {
    var ann, bob, cid := Member("a", "Ann"), Member("b", "Bob"), Member("c", "Cid");
    HostLeaves(Room("4721", Some("Ann"), [ann, bob, cid], Easy, [], []), ann, bob, cid);
    OtherLeaves(Room("4721", Some("Ann"), [ann, bob, cid], Easy, [], []), ann, bob, cid);
  }

  lemma HostLeaves(room: Room, a: Member, b: Member, c: Member)
    requires room.players == [a, b, c] && room.host == Some(a.username)
    requires b.id != a.id && c.id != a.id
    ensures Leave(room, a.id) == Some(room.(players := [b, c], host := Some(b.username)))
  {
    RemoveConnThree(a, b, c, a.id);
    assert FindById(room.players, a.id) == Some(0);
    LeaveAt(room, a.id, [b, c], Some(b.username));
  }

  lemma OtherLeaves(room: Room, a: Member, b: Member, c: Member)
    requires room.players == [a, b, c] && room.host == Some(a.username)
    requires a.id != b.id && c.id != b.id && a.username != b.username
    ensures Leave(room, b.id) == Some(room.(players := [a, c]))
  {
    RemoveConnThree(a, b, c, b.id);
    assert FindById(room.players, b.id) == Some(1) by {
      assert room.players[1..] == [b, c];
    }
    LeaveAt(room, b.id, [a, c], room.host);
  }

  /** `Leave` as it comes out when the socket's members are removed, leaving `rest`. */
  lemma LeaveAt(room: Room, conn: ConnId, rest: seq<Member>, host: Option<Name>)
    requires RemoveConn(room.players, conn) == rest && rest != []
    requires IsHostConn(room, conn) ==> host == Some(rest[0].username)
    requires !IsHostConn(room, conn) ==> host == room.host
    ensures Leave(room, conn) == Some(room.(players := rest, host := host))
  {
  }

  lemma RemoveConnThree(a: Member, b: Member, c: Member, conn: ConnId)
    ensures RemoveConn([a, b, c], conn)
      == (if a.id == conn then [] else [a]) + (if b.id == conn then [] else [b]) + (if c.id == conn then [] else [c])
  {
    assert [a, b, c][1..] == [b, c];
    assert [b, c][1..] == [c];
    assert [c][1..] == [];
  }

  /** Authority of a socket (`changeDifficulty`, `startGame`): the first member bound to it is
      the host. */
  predicate IsHostConn(room: Room, conn: ConnId) {
    match FindById(room.players, conn)
    case Some(i) => room.host == Some(room.players[i].username)
    case None => false
  }

  /** Authority of a payload name (`endRound`, `playAgain`): the name is a member and is the
      host. */
  predicate IsHostName(room: Room, name: Name) {
    FindByName(room.players, name).Some? && room.host == Some(name)
  }

  /** Under the invariant, naming the host is the whole check; and a socket is authorized
      exactly when the name it is first bound to is the host's. */
  lemma HostChecks(room: Room, conn: ConnId, name: Name)
    requires RoomInv(room)
    ensures IsHostName(room, name) <==> room.host == Some(name)
    ensures IsHostConn(room, conn) <==>
              exists i :: 0 <= i < |room.players| && room.players[i].id == conn
                && (forall j :: 0 <= j < i ==> room.players[j].id != conn)
                && room.host == Some(room.players[i].username)
  {
    if IsHostConn(room, conn) {
      var i := FindById(room.players, conn).value;
      assert room.players[i].id == conn;
    }
    if exists i :: 0 <= i < |room.players| && room.players[i].id == conn
         && (forall j :: 0 <= j < i ==> room.players[j].id != conn)
         && room.host == Some(room.players[i].username) {
      var i :| 0 <= i < |room.players| && room.players[i].id == conn
         && (forall j :: 0 <= j < i ==> room.players[j].id != conn)
         && room.host == Some(room.players[i].username);
      var k := FindById(room.players, conn);
      assert k.Some?;
      assert k.value == i;
    }
  }

  /** `rejoinRoom` on an existing room: moves a known name to the new socket; `None` for an
      unknown name ("Player not found in room"). */
  function Rejoin(room: Room, conn: ConnId, name: Name): (r: Option<Room>)
    ensures r.Some? <==> name in Names(room.players)
    ensures r.Some? ==> Join(room, conn, name) == Joined(r.value)
  {
    match FindByName(room.players, name)
    case Some(i) => Some(room.(players := Rebind(room.players, i, conn)))
    case None => None
  }
}

=== FILE: ordinal.dfy ===
/** `getPositionSuffix`: a place rendered as an English ordinal (`1st`, `22nd`, `113th`). The
    results page guards it so that a missing or zero place shows `-`; the room leaderboard page
    calls it unguarded with `index + 1`. */
module Ordinal {
  import opened Common
  import opened Text

  datatype Suffix = St | Nd | Rd | Th

  function SuffixText(x: Suffix): string {
    match x
    case St => "st"
    case Nd => "nd"
    case Rd => "rd"
    case Th => "th"
  }

  /** The page's choice from `j = n % 10` and `k = n % 100`. */
  function SuffixOf(n: nat): Suffix {
    var j, k := n % 10, n % 100;
    if j == 1 && k != 11 then St
    else if j == 2 && k != 12 then Nd
    else if j == 3 && k != 13 then Rd
    else Th
  }

  /** English usage stated on the digits: a tens digit of 1 always takes "th"; otherwise the
      last digit decides, with 1, 2 and 3 taking "st", "nd" and "rd". */
  function EnglishSuffix(n: nat): Suffix {
    var last, tens := n % 10, (n / 10) % 10;
    if tens == 1 then Th
    else if last == 1 then St
    else if last == 2 then Nd
    else if last == 3 then Rd
    else Th
  }

  /** The remainder test `n % 100 != 11` is the tens-digit rule: the page follows English usage
      for every number. */
  lemma SuffixIsEnglish(n: nat)
    ensures SuffixOf(n) == EnglishSuffix(n)
  {
    LastTwoDigits(n);
  }

  /** The last two digits are the tens digit and the last digit. */
  lemma LastTwoDigits(n: nat)
    ensures n % 100 == ((n / 10) % 10) * 10 + n % 10
  {
    var q := n / 10;
    MulDiv(n, 10);
    MulDiv(q, 10);
    assert n == (q / 10) * 100 + ((q % 10) * 10 + n % 10);
    ModUnique(n, 100, q / 10, (q % 10) * 10 + n % 10);
  }

  /** The suffix depends only on the last two digits, and 11, 12 and 13 (and every number
      ending in them) take "th". */
  lemma SuffixPeriodic(n: nat)
    ensures SuffixOf(n + 100) == SuffixOf(n)
    ensures 11 <= n % 100 <= 13 ==> SuffixOf(n) == Th
  {
    ModUnique(n + 100, 100, n / 100 + 1, n % 100);
    ModUnique(n + 100, 10, (n + 100) / 10, n % 10);
  }

  /** `position + suffix`, the unguarded helper of the room leaderboard page. */
  function PositionSuffix(n: nat): (r: string)
    ensures |r| == |NatToString(n)| + 2 && |r| >= 3
    ensures ReadOrdinal(r) == Some(n)
  {
    var r := NatToString(n) + SuffixText(SuffixOf(n));
    ReadsBack(r, NatToString(n), SuffixOf(n));
    NatToStringValue(n);
    r
  }

  /** Reads an ordinal back: a numeral and one of the four suffixes. */
  function ReadOrdinal(r: string): Option<nat> {
    if |r| >= 3 && AllDigits(r[..|r| - 2]) && r[|r| - 2..] in {"st", "nd", "rd", "th"} then
      Some(DigitsValue(r[..|r| - 2]))
    else None
  }

  lemma ReadsBack(r: string, numeral: string, x: Suffix)
    requires |numeral| >= 1 && AllDigits(numeral) && r == numeral + SuffixText(x)
    ensures ReadOrdinal(r) == Some(DigitsValue(numeral))
    ensures r[|r| - 2..] == SuffixText(x)
  {
    assert r[..|r| - 2] == numeral;
    assert r[|r| - 2..] == SuffixText(x);
  }

  /** The suffix the page prints is the English one. */
  lemma PositionSuffixEnglish(n: nat)
    ensures var r := PositionSuffix(n); r[|r| - 2..] == SuffixText(EnglishSuffix(n))
  {
    ReadsBack(PositionSuffix(n), NatToString(n), SuffixOf(n));
    SuffixIsEnglish(n);
  }

  /** The results page's guarded helper: a falsy place (`null` or 0) shows `-`. */
  function PositionLabel(p: Option<nat>): (r: string)
    ensures r == "-" <==> p.GetOr(0) == 0
    ensures r != "-" ==> ReadOrdinal(r) == p
  {
    if p.GetOr(0) == 0 then "-" else PositionSuffix(p.value)
  }

  /** The "your position" cell of the results page: `-` without stats, `DNF` for stats without
      a place, the ordinal otherwise. */
  function YourPosition(hasStats: bool, p: Option<nat>): (r: string)
    ensures r == "-" <==> !hasStats
    ensures r == "DNF" <==> hasStats && p.GetOr(0) == 0
    ensures r != "-" && r != "DNF" ==> ReadOrdinal(r) == p && p.GetOr(0) > 0
  {
    if !hasStats then "-"
    else if p.GetOr(0) != 0 then PositionLabel(p)
    else "DNF"
  }

  /** The match history labels its results `1st`, `2nd`, ... by their order in the list. */
  function HistoryLabels(k: nat): (r: seq<string>)
    ensures |r| == k
    ensures forall i :: 0 <= i < k ==> ReadOrdinal(r[i]) == Some(i + 1)
  {
    seq(k, (i: nat) => PositionSuffix(i + 1))
  }

  lemma PositionSuffixExamples()
    ensures PositionSuffix(0) == "0th" && PositionSuffix(1) == "1st" && PositionSuffix(2) == "2nd"
    ensures PositionSuffix(3) == "3rd" && PositionSuffix(11) == "11th" && PositionSuffix(12) == "12th"
    ensures PositionSuffix(22) == "22nd" && PositionSuffix(113) == "113th"
    ensures PositionLabel(None) == "-" && PositionLabel(Some(0)) == "-"
  {
    OrdinalAt(0, "0", Th);
    OrdinalAt(1, "1", St);
    OrdinalAt(2, "2", Nd);
    OrdinalAt(3, "3", Rd);
    TeenExamples();
    LargerExamples();
  }

  lemma TeenExamples()
    ensures PositionSuffix(11) == "11th" && PositionSuffix(12) == "12th"
  {
    assert NatToString(11) == "11";
    OrdinalAt(11, "11", Th);
    assert NatToString(12) == "12";
    OrdinalAt(12, "12", Th);
  }

  lemma LargerExamples()
    ensures PositionSuffix(22) == "22nd" && PositionSuffix(113) == "113th"
  {
    assert NatToString(22) == "22";
    OrdinalAt(22, "22", Nd);
    assert NatToString(11) == "11";
    assert NatToString(113) == "113";
    OrdinalAt(113, "113", Th);
  }

  /** An ordinal put together from a known numeral and suffix. */
  lemma OrdinalAt(n: nat, numeral: string, x: Suffix)
    requires NatToString(n) == numeral && SuffixOf(n) == x
    ensures PositionSuffix(n) == numeral + SuffixText(x)
  {
  }
}

=== FILE: race.dfy ===
/** One race of a room: the snapshot taken at start, progress and finish reports, quitting,
    dense placement, live standings and the end condition
    (backend/server.js:243-258, 305-316, 339-362, 376-424, 436-440). */
module Race {
  import opened Common
  import opened Sorting
  import opened Validation
  import opened Types
  import opened Membership

  /** A member entering a race: `{...p, clicks: 0, time: 0, path: [], finished: false,
      position: null}`. */
  function FreshRacer(m: Member): (r: Racer)
    ensures r.id == m.id && r.username == m.username
    ensures r.clicks == 0 && r.time == 0 && r.path == [] && !r.finished && r.position.None?
  {
    Racer(m.id, m.username, 0, 0, [], false, None, None, None)
  }

  /** The racers' names in race order. `Membership.Names` is the same projection over room
      members; the two types are kept apart because a racer is a copy of a member at the start
      of a race, so the roster of a race and of its room can differ later. */
  function RacerNames(ps: seq<Racer>): (ns: seq<Name>)
    ensures |ns| == |ps|
    ensures forall i :: 0 <= i < |ps| ==> ns[i] == ps[i].username
  {
    seq(|ps|, i requires 0 <= i < |ps| => ps[i].username)
  }

  /** How many racers are marked finished (accepted finishes and quits alike). */
  function CountFinished(ps: seq<Racer>): (n: nat)
    ensures n <= |ps|
  {
    if ps == [] then 0 else (if ps[0].finished then 1 else 0) + CountFinished(ps[1..])
  }

  /** The session invariant kept by every handler: `finishedCount` never exceeds the racers
      marked finished (a quit marks a racer without counting it), and only finished racers hold
      a position, which is at least 1. */
  predicate SessionInv(s: Session) {
    s.finishedCount <= CountFinished(s.players) && PositionsSound(s.players)
  }

  lemma {:induction false} CountFinishedNone(ps: seq<Racer>)
    requires forall i :: 0 <= i < |ps| ==> !ps[i].finished
    ensures CountFinished(ps) == 0
    decreases |ps|
  {
    if ps != [] {
      CountFinishedNone(ps[1..]);
    }
  }

  /** `startGame` / `playAgain`: a new race over the current members, in member order, with
      zeroed progress. */
  function NewSession(room: Room, start: string, target: string, now: int): (s: Session)
    ensures s.code == room.code && s.start == start && s.target == target
    ensures s.difficulty == room.difficulty && s.startTime == now
    ensures |s.players| == |room.players| && s.finishedCount == 0
    ensures forall i :: 0 <= i < |s.players| ==> s.players[i] == FreshRacer(room.players[i])
    ensures RacerNames(s.players) == Names(room.players)
    ensures SessionInv(s) && CountFinished(s.players) == 0
  {
    var ps := seq(|room.players|, i requires 0 <= i < |room.players| => FreshRacer(room.players[i]));
    CountFinishedNone(ps);
    Session(room.code, start, target, room.difficulty, ps, 0, now)
  }

  /** `session.players.find(p => p.username === name)`, as the index found. */
  function FindRacer(ps: seq<Racer>, name: Name): (r: Option<nat>)
    ensures r.Some? ==> r.value < |ps| && ps[r.value].username == name
    ensures r.Some? ==> forall j :: 0 <= j < r.value ==> ps[j].username != name
    ensures r.None? <==> name !in RacerNames(ps)
  {
    var k := IndexOf(RacerNames(ps), name);
    if k < |ps| then Some(k) else None
  }

  // ---------------------------------------------------------------- standings

  /** One row of a `standingsUpdate`. */
  datatype Standing = Standing(username: Name, clicks: int, finished: bool)

  function Project(r: Racer): Standing {
    Standing(r.username, r.clicks, r.finished)
  }

  function Projections(ps: seq<Racer>): (r: seq<Standing>)
    ensures |r| == |ps|
    ensures forall i :: 0 <= i < |ps| ==> r[i] == Project(ps[i])
  {
    seq(|ps|, i requires 0 <= i < |ps| => Project(ps[i]))
  }

  /** The standings comparator: finished before unfinished, finished racers tied, unfinished
      racers by clicks. */
  function StandingCmp(a: Standing, b: Standing): int {
    if a.finished && !b.finished then -1
    else if !a.finished && b.finished then 1
    else if a.finished && b.finished then 0
    else a.clicks - b.clicks
  }

  predicate StandingLe(a: Standing, b: Standing) {
    StandingCmp(a, b) <= 0
  }

  lemma StandingLeConsistent()
    ensures TotalPreorder(StandingLe)
  {
  }

  /** The standings snapshot broadcast after progress and finishes and sent on joining the
      race channel: a reordering of the racers' (name, clicks, finished) rows. */
  function Standings(ps: seq<Racer>): (r: seq<Standing>)
    ensures multiset(r) == multiset(Projections(ps))
    ensures |r| == |ps|
  {
    SortBy(Projections(ps), StandingLe)
  }

  /** The finished rows of `s`, in order. */
  function FinishedRows(s: seq<Standing>): (r: seq<Standing>)
    ensures forall i :: 0 <= i < |r| ==> r[i].finished
  {
    if s == [] then [] else (if s[0].finished then [s[0]] else []) + FinishedRows(s[1..])
  }

  /** The rows equivalent to a finished row are exactly the finished rows. */
  lemma {:induction false} FinishedClass(s: seq<Standing>, c: Standing)
    requires c.finished
    ensures Class(s, StandingLe, c) == FinishedRows(s)
    decreases |s|
  {
    if s != [] {
      FinishedClass(s[1..], c);
    }
  }

  /** Standings order: every finished racer precedes every unfinished one; finished racers
      appear in session order; unfinished racers ascend by clicks, and unfinished racers with
      equal clicks keep session order. */
  lemma StandingsOrdered(ps: seq<Racer>)
    ensures var r := Standings(ps);
      && (forall i, j :: 0 <= i < j < |r| && r[j].finished ==> r[i].finished)
      && (forall i, j :: 0 <= i < j < |r| && !r[i].finished && !r[j].finished ==> r[i].clicks <= r[j].clicks)
      && FinishedRows(r) == FinishedRows(Projections(ps))
      && (forall c: Standing :: !c.finished ==>
            Class(r, StandingLe, c) == Class(Projections(ps), StandingLe, c))
  {
    var r := Standings(ps);
    StandingLeConsistent();
    SortSorted(Projections(ps), StandingLe);
    forall i, j | 0 <= i < j < |r|
      ensures r[j].finished ==> r[i].finished
      ensures !r[i].finished && !r[j].finished ==> r[i].clicks <= r[j].clicks
    {
      assert StandingLe(r[i], r[j]);
    }
    var fin := Standing("", 0, true);
    SortStable(Projections(ps), StandingLe, fin);
    FinishedClass(r, fin);
    FinishedClass(Projections(ps), fin);
    forall c: Standing | !c.finished
      ensures Class(r, StandingLe, c) == Class(Projections(ps), StandingLe, c)
    {
      SortStable(Projections(ps), StandingLe, c);
    }
  }

  // ---------------------------------------------------------------- placement

  /** The placement comparator: clicks, then time. */
  function PlacementCmp(a: Racer, b: Racer): int {
    if a.clicks != b.clicks then a.clicks - b.clicks else a.time - b.time
  }

  /** `a` is ranked strictly ahead of `b`: fewer clicks, or as many clicks in less time. */
  predicate Ahead(a: Racer, b: Racer) {
    PlacementCmp(a, b) < 0
  }

  function At(ps: seq<Racer>, i: nat): Racer {
    if i < |ps| then ps[i] else Racer("", "", 0, 0, [], false, None, None, None)
  }

  /** The comparator on racer indices (indices stand for the racer objects the source sorts). */
  function PlacementLe(ps: seq<Racer>): (nat, nat) -> bool {
    (i: nat, j: nat) => PlacementCmp(At(ps, i), At(ps, j)) <= 0
  }

  lemma PlacementLeConsistent(ps: seq<Racer>)
    ensures TotalPreorder(PlacementLe(ps))
  {
  }

  /** The indices of finished racers from `k` on, ascending. */
  function FinishedFrom(ps: seq<Racer>, k: nat): (r: seq<nat>)
    requires k <= |ps|
    ensures forall a :: 0 <= a < |r| ==> k <= r[a] < |ps| && ps[r[a]].finished
    ensures forall a, b :: 0 <= a < b < |r| ==> r[a] < r[b]
    ensures forall i :: k <= i < |ps| && ps[i].finished ==> i in r
    ensures |r| == CountFinished(ps[k..])
    decreases |ps| - k
  {
    if k == |ps| then []
    else
      var rest := FinishedFrom(ps, k + 1);
      FinishedFromStep(ps, k, rest);
      (if ps[k].finished then [k] else []) + rest
  }

  lemma FinishedFromStep(ps: seq<Racer>, k: nat, rest: seq<nat>)
    requires k < |ps|
    requires forall a :: 0 <= a < |rest| ==> k + 1 <= rest[a] < |ps| && ps[rest[a]].finished
    requires forall a, b :: 0 <= a < b < |rest| ==> rest[a] < rest[b]
    requires forall i :: k + 1 <= i < |ps| && ps[i].finished ==> i in rest
    requires |rest| == CountFinished(ps[k + 1..])
    ensures var r := (if ps[k].finished then [k] else []) + rest;
      && (forall a :: 0 <= a < |r| ==> k <= r[a] < |ps| && ps[r[a]].finished)
      && (forall a, b :: 0 <= a < b < |r| ==> r[a] < r[b])
      && (forall i :: k <= i < |ps| && ps[i].finished ==> i in r)
      && |r| == CountFinished(ps[k..])
  {
    assert ps[k..][1..] == ps[k + 1..];
    assert ps[k..][0] == ps[k];
  }

  /** `session.players.filter(p => p.finished)`, as indices. */
  function FinishedIndices(ps: seq<Racer>): (r: seq<nat>)
    ensures forall a :: 0 <= a < |r| ==> r[a] < |ps| && ps[r[a]].finished
    ensures forall a, b :: 0 <= a < b < |r| ==> r[a] < r[b]
    ensures forall i :: 0 <= i < |ps| && ps[i].finished ==> i in r
    ensures |r| == CountFinished(ps)
  {
    assert ps[0..] == ps;
    FinishedFrom(ps, 0)
  }

  /** The finished racers in placement order: `.sort((a, b) => a.clicks !== b.clicks ?
      a.clicks - b.clicks : a.time - b.time)`. */
  function Ranking(ps: seq<Racer>): (r: seq<nat>)
    ensures multiset(r) == multiset(FinishedIndices(ps))
  {
    SortBy(FinishedIndices(ps), PlacementLe(ps))
  }

  /** Racer `i`, when finished, takes its 1-based place in `rk`; others are left alone. */
  function Place(ps: seq<Racer>, rk: seq<nat>): (qs: seq<Racer>)
    ensures |qs| == |ps|
    ensures forall i :: 0 <= i < |ps| && !ps[i].finished ==> qs[i] == ps[i]
    ensures forall i :: 0 <= i < |ps| && ps[i].finished ==> qs[i] == ps[i].(position := Some(IndexOf(rk, i) + 1))
  {
    seq(|ps|, i requires 0 <= i < |ps| =>
      if ps[i].finished then ps[i].(position := Some(IndexOf(rk, i) + 1)) else ps[i])
  }

  /** `finishedPlayers.forEach((p, idx) => { p.position = idx + 1; })`. */
  function AssignPositions(ps: seq<Racer>): (qs: seq<Racer>)
    ensures |qs| == |ps|
    ensures forall i :: 0 <= i < |ps| ==> qs[i] == ps[i].(position := qs[i].position)
    ensures forall i :: 0 <= i < |ps| && !ps[i].finished ==> qs[i] == ps[i]
  {
    Place(ps, Ranking(ps))
  }

  /** A finished racer's position is one more than its index in the ranking. */
  lemma PositionOf(ps: seq<Racer>, i: nat, k: nat)
    requires i < |ps| && ps[i].finished && IndexOf(Ranking(ps), i) == k
    ensures AssignPositions(ps)[i].position == Some(k + 1)
  {
    PlaceAt(ps, Ranking(ps), i);
  }

  lemma PlaceAt(ps: seq<Racer>, rk: seq<nat>, i: nat)
    requires i < |ps| && ps[i].finished
    ensures Place(ps, rk)[i].position == Some(IndexOf(rk, i) + 1)
  {
  }

  lemma StrictlyIncreasingDistinct(s: seq<nat>)
    requires forall a, b :: 0 <= a < b < |s| ==> s[a] < s[b]
    ensures Distinct(s)
  {
  }

  /** A racer index as its own rank: the session order. */
  function IndexRank(i: nat): int {
    i
  }

  /** The ranking holds every finished racer exactly once, in comparator order, with tied
      racers in session order. */
  lemma RankingFacts(ps: seq<Racer>)
    ensures var rk := Ranking(ps);
      && Distinct(rk) && |rk| == CountFinished(ps)
      && (forall a :: 0 <= a < |rk| ==> rk[a] < |ps| && ps[rk[a]].finished)
      && (forall i: nat :: i < |ps| && ps[i].finished ==> IndexOf(rk, i) < |rk|)
      && SortedBy(rk, PlacementLe(ps))
      && RankStable(rk, PlacementLe(ps), IndexRank)
  {
    var fi := FinishedIndices(ps);
    RankingMembers(ps);
    PlacementLeConsistent(ps);
    SortSorted(fi, PlacementLe(ps));
    SortRankStable(fi, PlacementLe(ps), IndexRank);
  }

  /** The ranking lists the finished racers, each once. */
  lemma RankingMembers(ps: seq<Racer>)
    ensures var rk := Ranking(ps);
      && Distinct(rk) && |rk| == CountFinished(ps)
      && (forall a :: 0 <= a < |rk| ==> rk[a] < |ps| && ps[rk[a]].finished)
      && (forall i: nat :: i < |ps| && ps[i].finished ==> IndexOf(rk, i) < |rk|)
  {
    var fi := FinishedIndices(ps);
    var rk := Ranking(ps);
    assert multiset(rk) == multiset(fi);
    StrictlyIncreasingDistinct(fi);
    DistinctPermutation(rk, fi);
    forall a | 0 <= a < |rk|
      ensures rk[a] < |ps| && ps[rk[a]].finished
    {
      assert rk[a] in multiset(fi);
    }
    forall i: nat | i < |ps| && ps[i].finished
      ensures IndexOf(rk, i) < |rk|
    {
      assert i in multiset(fi);
      assert i in rk;
      var j :| 0 <= j < |rk| && rk[j] == i;
      assert IndexOf(rk, i) <= j;
    }
  }

  /** Every finished racer gets a position between 1 and the number of finished racers. */
  lemma PositionsInRange(ps: seq<Racer>)
    ensures var qs := AssignPositions(ps);
      forall i :: 0 <= i < |ps| && ps[i].finished ==>
        qs[i].position.Some? && 1 <= qs[i].position.value <= CountFinished(ps)
  {
    RankingFacts(ps);
  }

  /** Some finished racer of `ps` holds position `p` in `qs`. */
  predicate PositionHeld(ps: seq<Racer>, qs: seq<Racer>, p: nat)
    requires |qs| == |ps|
  {
    exists i :: 0 <= i < |ps| && ps[i].finished && qs[i].position == Some(p)
  }

  /** Every position between 1 and the number of finished racers is held by a finished racer. */
  lemma PositionsCovered(ps: seq<Racer>)
    ensures forall p: nat :: 1 <= p <= CountFinished(ps) ==> PositionHeld(ps, AssignPositions(ps), p)
  {
    RankingFacts(ps);
    PlaceCovered(ps, Ranking(ps));
  }

  lemma PlaceCovered(ps: seq<Racer>, rk: seq<nat>)
    requires Distinct(rk)
    requires forall a :: 0 <= a < |rk| ==> rk[a] < |ps| && ps[rk[a]].finished
    ensures forall p: nat :: 1 <= p <= |rk| ==> PositionHeld(ps, Place(ps, rk), p)
  {
    var qs := Place(ps, rk);
    forall p: nat | 1 <= p <= |rk|
      ensures PositionHeld(ps, qs, p)
    {
      var i: nat := rk[p - 1];
      IndexOfDistinct(rk, p - 1);
      assert 0 <= i < |ps| && ps[i].finished && qs[i].position == Some(p);
    }
  }

  /** One finished racer is placed before another exactly when it is ahead on (clicks, time),
      or tied with it and earlier in the session; so positions are pairwise distinct. */
  lemma PositionsOrdered(ps: seq<Racer>)
    ensures forall i, j :: 0 <= i < |ps| && 0 <= j < |ps| && ps[i].finished && ps[j].finished && i != j ==>
              PlacedBefore(ps, AssignPositions(ps), i, j)
  {
    RankingFacts(ps);
    var rk := Ranking(ps);
    forall i, j | 0 <= i < |ps| && 0 <= j < |ps| && ps[i].finished && ps[j].finished && i != j
      ensures PlacedBefore(ps, Place(ps, rk), i, j)
    {
      PlacePair(ps, rk, i, j);
    }
  }

  /** Racers `i` and `j` both hold positions in `qs`, different ones, and `i`'s is the smaller
      exactly when `i` is ahead of `j`, or tied with it and earlier in the session. */
  predicate PlacedBefore(ps: seq<Racer>, qs: seq<Racer>, i: nat, j: nat)
    requires i < |ps| && j < |ps| && |qs| == |ps|
  {
    && qs[i].position.Some? && qs[j].position.Some?
    && qs[i].position != qs[j].position
    && ((qs[i].position.value < qs[j].position.value)
          <==> (Ahead(ps[i], ps[j]) || (!Ahead(ps[j], ps[i]) && i < j)))
  }

  lemma PlacePair(ps: seq<Racer>, rk: seq<nat>, i: nat, j: nat)
    requires i < |ps| && j < |ps| && ps[i].finished && ps[j].finished && i != j
    requires IndexOf(rk, i) < |rk| && IndexOf(rk, j) < |rk|
    requires SortedBy(rk, PlacementLe(ps))
    requires RankStable(rk, PlacementLe(ps), IndexRank)
    requires forall x :: 0 <= x < |rk| ==> rk[x] < |ps|
    ensures PlacedBefore(ps, Place(ps, rk), i, j)
  {
    var a := IndexOf(rk, i);
    var b := IndexOf(rk, j);
    assert a != b;
    if a < b {
      OrderedPair(ps, rk, a, b);
    } else {
      OrderedPair(ps, rk, b, a);
    }
  }

  /** Two entries of the ranking, in ranking order, are ordered by (clicks, time, index). */
  lemma OrderedPair(ps: seq<Racer>, rk: seq<nat>, a: nat, b: nat)
    requires SortedBy(rk, PlacementLe(ps))
    requires RankStable(rk, PlacementLe(ps), IndexRank)
    requires forall x :: 0 <= x < |rk| ==> rk[x] < |ps|
    requires a < b < |rk|
    ensures Ahead(ps[rk[a]], ps[rk[b]]) || (!Ahead(ps[rk[b]], ps[rk[a]]) && rk[a] < rk[b])
    ensures !Ahead(ps[rk[b]], ps[rk[a]])
  {
    assert PlacementLe(ps)(rk[a], rk[b]);
    if !Ahead(ps[rk[a]], ps[rk[b]]) {
      assert PlacementLe(ps)(rk[b], rk[a]);
    }
  }

  // ---------------------------------------------------------------- reports

  /** The racer after an accepted finish report, before positions are reassigned. Clicks and
      time outside their ranges become 0. */
  function Finished(r: Racer, clicks: Js, time: Js, path: Js, usedHint: Js): (f: Racer)
    ensures f.id == r.id && f.username == r.username && f.finished
    ensures f.clicks == InRange(clicks, MaxClicks).GetOr(0) && 0 <= f.clicks <= MaxClicks
    ensures f.time == InRange(time, MaxTimeMs).GetOr(0) && 0 <= f.time <= MaxTimeMs
    ensures f.path == SanitizePath(path) && f.usedHint == Some(Truthy(usedHint))
    ensures f.position == r.position && f.currentArticle == r.currentArticle
  {
    r.(finished := true,
       clicks := InRange(clicks, MaxClicks).GetOr(0),
       time := InRange(time, MaxTimeMs).GetOr(0),
       path := SanitizePath(path),
       usedHint := Some(Truthy(usedHint)))
  }

  datatype FinishOutcome = Ignored | Accepted(session: Session)

  /** `playerFinished` on an existing session: ignored for an unknown or already finished
      racer; otherwise the racer is marked finished with the clamped report, `finishedCount`
      goes up by one and every finished racer (quitters included) is placed again. */
  function Finish(s: Session, name: Name, clicks: Js, time: Js, path: Js, usedHint: Js): (r: FinishOutcome)
    ensures r.Ignored? <==> FindRacer(s.players, name).None? || s.players[FindRacer(s.players, name).value].finished
    ensures r.Accepted? ==>
              var i := FindRacer(s.players, name).value;
              && r.session == s.(players := r.session.players, finishedCount := s.finishedCount + 1)
              && r.session.players == AssignPositions(s.players[i := Finished(s.players[i], clicks, time, path, usedHint)])
  {
    match FindRacer(s.players, name)
    case None => Ignored
    case Some(i) =>
      if s.players[i].finished then Ignored
      else
        var ps := s.players[i := Finished(s.players[i], clicks, time, path, usedHint)];
        Accepted(s.(players := AssignPositions(ps), finishedCount := s.finishedCount + 1))
  }

  lemma {:induction false} CountFinishedUpdate(ps: seq<Racer>, i: nat, r: Racer)
    requires i < |ps|
    ensures CountFinished(ps[i := r]) ==
              CountFinished(ps) - (if ps[i].finished then 1 else 0) + (if r.finished then 1 else 0)
    decreases |ps|
  {
    if i > 0 {
      assert ps[i := r][1..] == ps[1..][i - 1 := r];
      CountFinishedUpdate(ps[1..], i - 1, r);
    } else {
      assert ps[i := r][1..] == ps[1..];
    }
  }

  lemma {:induction false} CountFinishedPositions(ps: seq<Racer>, qs: seq<Racer>)
    requires |ps| == |qs|
    requires forall i :: 0 <= i < |ps| ==> qs[i].finished == ps[i].finished
    ensures CountFinished(qs) == CountFinished(ps)
    decreases |ps|
  {
    if ps != [] {
      CountFinishedPositions(ps[1..], qs[1..]);
    }
  }

  /** An accepted finish: the racer, who was not finished, now is, with the clamped report;
      every other racer keeps its progress (only positions move); exactly one more racer is
      finished and `finishedCount` grows by one. */
  lemma FinishAccepted(s: Session, name: Name, clicks: Js, time: Js, path: Js, usedHint: Js)
    requires Finish(s, name, clicks, time, path, usedHint).Accepted?
    ensures var t := Finish(s, name, clicks, time, path, usedHint).session;
      var i := FindRacer(s.players, name).value;
      && !s.players[i].finished
      && t.finishedCount == s.finishedCount + 1
      && CountFinished(t.players) == CountFinished(s.players) + 1
      && |t.players| == |s.players|
      && t.players[i] == Finished(s.players[i], clicks, time, path, usedHint).(position := t.players[i].position)
      && (forall j :: 0 <= j < |s.players| && j != i ==>
            t.players[j] == s.players[j].(position := t.players[j].position))
  {
    var i := FindRacer(s.players, name).value;
    var f := Finished(s.players[i], clicks, time, path, usedHint);
    AfterFinish(s.players, i, f, Finish(s, name, clicks, time, path, usedHint).session.players);
  }

  /** Replacing an unfinished racer by a finished one and placing everyone again. */
  lemma AfterFinish(ps: seq<Racer>, i: nat, f: Racer, qs: seq<Racer>)
    requires i < |ps| && !ps[i].finished && f.finished
    requires qs == AssignPositions(ps[i := f])
    ensures CountFinished(qs) == CountFinished(ps) + 1 && |qs| == |ps|
    ensures qs[i] == f.(position := qs[i].position)
    ensures forall j :: 0 <= j < |ps| && j != i ==> qs[j] == ps[j].(position := qs[j].position)
  {
    CountFinishedUpdate(ps, i, f);
    CountFinishedPositions(ps[i := f], qs);
  }

  /** An accepted finish keeps the session invariant. */
  lemma FinishKeepsInv(s: Session, name: Name, clicks: Js, time: Js, path: Js, usedHint: Js)
    requires SessionInv(s)
    requires Finish(s, name, clicks, time, path, usedHint).Accepted?
    ensures SessionInv(Finish(s, name, clicks, time, path, usedHint).session)
  {
    var i := FindRacer(s.players, name).value;
    FinishAccepted(s, name, clicks, time, path, usedHint);
    InvAfterFinish(s, i, Finished(s.players[i], clicks, time, path, usedHint),
                   Finish(s, name, clicks, time, path, usedHint).session);
  }

  lemma InvAfterFinish(s: Session, i: nat, f: Racer, t: Session)
    requires SessionInv(s) && i < |s.players| && !s.players[i].finished
    requires f.finished && f.position == s.players[i].position
    requires t.finishedCount == s.finishedCount + 1
    requires t.players == AssignPositions(s.players[i := f])
    requires CountFinished(t.players) == CountFinished(s.players) + 1
    ensures SessionInv(t)
  {
    var ps := s.players[i := f];
    forall j | 0 <= j < |ps| && ps[j].position.Some?
      ensures ps[j].finished && ps[j].position.value >= 1
    {
      assert ps[j].position == s.players[j].position;
    }
    AssignKeepsSound(ps);
  }

  /** Only finished racers hold positions, and positions start at 1. */
  predicate PositionsSound(ps: seq<Racer>) {
    forall i :: 0 <= i < |ps| && ps[i].position.Some? ==> ps[i].finished && ps[i].position.value >= 1
  }

  lemma AssignKeepsSound(ps: seq<Racer>)
    requires PositionsSound(ps)
    ensures PositionsSound(AssignPositions(ps))
  {
    var qs := AssignPositions(ps);
    PositionsInRange(ps);
    forall j | 0 <= j < |qs| && qs[j].position.Some?
      ensures qs[j].finished && qs[j].position.value >= 1
    {
      if !ps[j].finished {
        assert false;
      }
    }
  }

  /** A repeated finish report is ignored. */
  lemma FinishIdempotent(s: Session, name: Name, clicks: Js, time: Js, path: Js, usedHint: Js,
                         clicks2: Js, time2: Js, path2: Js, usedHint2: Js)
    requires Finish(s, name, clicks, time, path, usedHint).Accepted?
    ensures Finish(Finish(s, name, clicks, time, path, usedHint).session, name, clicks2, time2, path2, usedHint2).Ignored?
  {
    var t := Finish(s, name, clicks, time, path, usedHint).session;
    FinishAccepted(s, name, clicks, time, path, usedHint);
    SameNamesSameRacer(s.players, t.players, name);
    IgnoredWhenFinished(t, name, clicks2, time2, path2, usedHint2);
  }

  lemma SameNamesSameRacer(ps: seq<Racer>, qs: seq<Racer>, name: Name)
    requires |ps| == |qs|
    requires forall j :: 0 <= j < |ps| ==> qs[j].username == ps[j].username
    ensures FindRacer(qs, name) == FindRacer(ps, name)
  {
    assert RacerNames(qs) == RacerNames(ps);
  }

  lemma IgnoredWhenFinished(t: Session, name: Name, clicks: Js, time: Js, path: Js, usedHint: Js)
    requires FindRacer(t.players, name).Some? && t.players[FindRacer(t.players, name).value].finished
    ensures Finish(t, name, clicks, time, path, usedHint).Ignored?
  {
  }

  /** `playerQuit` on an existing session: the racer is marked finished without a position and
      without counting towards `finishedCount`; nothing is evaluated. */
  function Quit(s: Session, name: Name): (t: Session)
    ensures t == s.(players := t.players)
    ensures |t.players| == |s.players|
    ensures forall j :: 0 <= j < |s.players| ==>
              t.players[j] == if s.players[j].username == name && FindRacer(s.players, name) == Some(j)
                              then s.players[j].(finished := true, position := None)
                              else s.players[j]
  {
    match FindRacer(s.players, name)
    case None => s
    case Some(i) => s.(players := s.players[i := s.players[i].(finished := true, position := None)])
  }

  lemma QuitKeepsInv(s: Session, name: Name)
    requires SessionInv(s)
    ensures SessionInv(Quit(s, name))
  {
    match FindRacer(s.players, name)
    case None =>
    case Some(i) =>
      CountFinishedUpdate(s.players, i, s.players[i].(finished := true, position := None));
  }

  /** `playerProgress` on an existing session: an unfinished racer takes the reported clicks
      when they are a number in [0, 10000] (otherwise keeps its own) and the reported article
      when it is a non-empty string; a finished or unknown racer is left alone. */
  function Progress(s: Session, name: Name, clicks: Js, article: Js): (t: Session)
    ensures t == s.(players := t.players)
    ensures |t.players| == |s.players|
    ensures forall j :: 0 <= j < |s.players| && t.players[j] != s.players[j] ==>
              && FindRacer(s.players, name) == Some(j) && !s.players[j].finished
              && t.players[j] == s.players[j].(clicks := t.players[j].clicks, currentArticle := t.players[j].currentArticle)
    ensures forall j :: 0 <= j < |s.players| && FindRacer(s.players, name) == Some(j) && !s.players[j].finished ==>
              && t.players[j].clicks == InRange(clicks, MaxClicks).GetOr(s.players[j].clicks)
              && t.players[j].currentArticle ==
                   if Truthy(article) && article.JStr? then Some(Escape(Prefix(article.s, 500)))
                   else s.players[j].currentArticle
  {
    match FindRacer(s.players, name)
    case None => s
    case Some(i) =>
      if s.players[i].finished then s
      else
        var r := s.players[i];
        var article' := if Truthy(article) && article.JStr? then Some(Escape(Prefix(article.s, 500))) else r.currentArticle;
        s.(players := s.players[i := r.(clicks := InRange(clicks, MaxClicks).GetOr(r.clicks), currentArticle := article')])
  }

  lemma ProgressKeepsInv(s: Session, name: Name, clicks: Js, article: Js)
    requires SessionInv(s)
    ensures SessionInv(Progress(s, name, clicks, article))
  {
    var t := Progress(s, name, clicks, article);
    CountFinishedPositions(s.players, t.players);
  }

  // ---------------------------------------------------------------- end of race

  /** The end-condition table: how many accepted finishes end a race of `total` racers. */
  function Threshold(total: nat): Option<nat> {
    if total == 2 then Some(1)
    else if total == 3 then Some(2)
    else if 4 <= total <= 6 then Some(3)
    else None
  }

  /** The end test run after every accepted finish. */
  function GameOver(total: nat, finishedCount: nat): (over: bool)
    ensures over <==> Threshold(total).Some? && finishedCount >= Threshold(total).value
  {
    if total == 2 && finishedCount >= 1 then true
    else if total == 3 && finishedCount >= 2 then true
    else if total >= 4 && total <= 6 && finishedCount >= 3 then true
    else false
  }

  /** A one-racer race never ends by finishing, and once the threshold is met every further
      accepted finish meets it again (and so commits again). */
  lemma GameOverShape(total: nat, count: nat)
    ensures !GameOver(1, count)
    ensures GameOver(total, count) ==> GameOver(total, count + 1)
    ensures 2 <= total <= 6 ==> (GameOver(total, count) <==> count >= (if total == 2 then 1 else if total == 3 then 2 else 3))
  {
  }

  // ---------------------------------------------------------------- quitters

  /** A three-racer race in which B has quit before anyone finished. */
  function QuitScenario(): Session {
    Session("1234", "Start", "Target", Easy,
      [Racer("a", "A", 0, 0, [], false, None, None, None),
       Racer("b", "B", 0, 0, [], true, None, None, None),
       Racer("c", "C", 0, 0, [], false, None, None, None)], 0, 0)
  }

  /** Quitting marks the racer finished without counting it. */
  lemma QuitScenarioReached()
    ensures var room := Room("1234", Some("A"), [Member("a", "A"), Member("b", "B"), Member("c", "C")], Easy, [], []);
      Quit(NewSession(room, "Start", "Target", 0), "B") == QuitScenario()
  {
    var room := Room("1234", Some("A"), [Member("a", "A"), Member("b", "B"), Member("c", "C")], Easy, [], []);
    var s := NewSession(room, "Start", "Target", 0);
    assert RacerNames(s.players) == ["A", "B", "C"];
    assert FindRacer(s.players, "B") == Some(1);
  }

  /** A quitter keeps clicks and time 0, so the next accepted finish ranks the quitter first:
      after B quits and A finishes with 5 clicks, B holds position 1, A position 2, and only
      one finish has been counted although two racers are marked finished. */
  lemma QuitterRankedFirst()
    ensures var r := Finish(QuitScenario(), "A", JNum(5), JNum(1000), JArr([]), JBool(false));
      && r.Accepted?
      && r.session.players[1].position == Some(1)
      && r.session.players[0].position == Some(2)
      && r.session.finishedCount == 1
      && CountFinished(r.session.players) == 2
  {
    QuitScenarioAccepted();
    QuitterFinishes(QuitScenario());
  }

  lemma QuitterFinishes(s0: Session)
    requires |s0.players| == 3 && !s0.players[0].finished && s0.players[1].finished && s0.players[1].clicks == 0
    requires !s0.players[2].finished
    requires FindRacer(s0.players, "A") == Some(0)
    requires CountFinished(s0.players) == 1 && s0.finishedCount == 0
    ensures var r := Finish(s0, "A", JNum(5), JNum(1000), JArr([]), JBool(false));
      && r.Accepted?
      && r.session.players[1].position == Some(1)
      && r.session.players[0].position == Some(2)
      && r.session.finishedCount == 1
      && CountFinished(r.session.players) == 2
  {
    var a := Finished(s0.players[0], JNum(5), JNum(1000), JArr([]), JBool(false));
    assert a.finished && a.clicks == 5;
    QuitterFinish(s0, a, Finish(s0, "A", JNum(5), JNum(1000), JArr([]), JBool(false)));
  }

  lemma QuitterFinish(s0: Session, a: Racer, r: FinishOutcome)
    requires |s0.players| == 3 && !s0.players[0].finished && s0.players[1].finished && s0.players[1].clicks == 0
    requires !s0.players[2].finished
    requires CountFinished(s0.players) == 1 && s0.finishedCount == 0
    requires a.finished && a.clicks == 5
    requires r.Accepted? && r.session == s0.(players := r.session.players, finishedCount := 1)
    requires r.session.players == AssignPositions(s0.players[0 := a])
    ensures r.session.players[1].position == Some(1) && r.session.players[0].position == Some(2)
    ensures r.session.finishedCount == 1 && CountFinished(r.session.players) == 2
  {
    var ps := s0.players[0 := a];
    assert ps[1] == s0.players[1] && ps[2] == s0.players[2];
    AfterFinish(s0.players, 0, a, r.session.players);
    QuitScenarioPositions(ps);
  }

  lemma QuitScenarioAccepted()
    ensures FindRacer(QuitScenario().players, "A") == Some(0)
    ensures Finish(QuitScenario(), "A", JNum(5), JNum(1000), JArr([]), JBool(false)).Accepted?
    ensures CountFinished(QuitScenario().players) == 1 && QuitScenario().finishedCount == 0
  {
    var s0 := QuitScenario();
    FindRacerFirst(s0.players, "A");
    CountThree(s0.players[0], s0.players[1], s0.players[2]);
  }

  lemma FindRacerFirst(ps: seq<Racer>, name: Name)
    requires |ps| > 0 && ps[0].username == name
    ensures FindRacer(ps, name) == Some(0)
  {
    assert RacerNames(ps)[0] == name;
  }

  lemma CountThree(a: Racer, b: Racer, c: Racer)
    ensures CountFinished([a, b, c]) == (if a.finished then 1 else 0) + (if b.finished then 1 else 0) + (if c.finished then 1 else 0)
  {
    assert [c][1..] == [];
    assert CountFinished([c]) == if c.finished then 1 else 0;
    assert [b, c][1..] == [c];
    assert CountFinished([b, c]) == (if b.finished then 1 else 0) + CountFinished([c]);
    assert [a, b, c][1..] == [b, c];
  }

  lemma QuitScenarioPositions(ps: seq<Racer>)
    requires |ps| == 3 && ps[0].finished && ps[1].finished && !ps[2].finished
    requires ps[0].clicks == 5 && ps[1].clicks == 0
    ensures AssignPositions(ps)[1].position == Some(1)
    ensures AssignPositions(ps)[0].position == Some(2)
  {
    QuitScenarioRanking(ps);
    var rk: seq<nat> := [1, 0];
    assert IndexOf(rk, 1) == 0 && IndexOf(rk, 0) == 1;
    PositionOf(ps, 1, 0);
    PositionOf(ps, 0, 1);
  }

  lemma QuitScenarioRanking(ps: seq<Racer>)
    requires |ps| == 3 && ps[0].finished && ps[1].finished && !ps[2].finished
    requires ps[0].clicks == 5 && ps[1].clicks == 0
    ensures Ranking(ps) == [1, 0]
    ensures CountFinished(ps) == 2
  {
    assert FinishedFrom(ps, 2) == [];
    assert FinishedFrom(ps, 1) == [1];
    assert FinishedIndices(ps) == [0, 1];
    SortTwo<nat>(0, 1, PlacementLe(ps));
    assert !PlacementLe(ps)(0, 1);
  }
}

=== FILE: scenario.dfy ===
/** A two-racer race played to the end. Ann and Bob race from "Dog" to "Cat"; Bob finishes
    first with 3 clicks in 5000 ms, then Ann with 5 clicks in 4000 ms. Bob's finish already
    meets the end condition (two racers, threshold one), and because the race stays in place
    Ann's later finish is accepted and commits it a second time: Bob is credited with two wins
    and Ann, second in a race that credits one place, gets nothing. */
module Scenario {
  import opened Common
  import opened Sorting
  import opened Validation
  import opened Types
  import opened Race
  import opened Leaderboard
  import opened Coordinator

  function Fresh(id: ConnId, name: Name): Racer {
    Racer(id, name, 0, 0, [], false, None, None, None)
  }

  /** The race as `startGame` creates it for a room holding Ann and Bob. */
  function Started(): Session {
    Session("4721", "Dog", "Cat", Easy, [Fresh("a", "Ann"), Fresh("b", "Bob")], 0, 0)
  }

  /** Bob's finish is accepted, places him first and meets the end condition. */
  lemma BobFinishes()
    ensures var r := Finish(Started(), "Bob", JNum(3), JNum(5000), JArr([]), JBool(false));
      && r.Accepted?
      && r.session.players[0] == Fresh("a", "Ann")
      && r.session.players[1].username == "Bob" && r.session.players[1].finished
      && r.session.players[1].clicks == 3 && r.session.players[1].position == Some(1)
      && r.session.finishedCount == 1
      && GameOver(|r.session.players|, r.session.finishedCount)
  {
    var s := Started();
    assert RacerNames(s.players)[1] == "Bob" && RacerNames(s.players)[0] == "Ann";
    assert FindRacer(s.players, "Bob") == Some(1);
    var b := Finished(s.players[1], JNum(3), JNum(5000), JArr([]), JBool(false));
    assert b.finished && b.clicks == 3 && b.username == "Bob";
    BobFinish(s, b, Finish(s, "Bob", JNum(3), JNum(5000), JArr([]), JBool(false)));
  }

  lemma BobFinish(s: Session, b: Racer, r: FinishOutcome)
    requires |s.players| == 2 && s.players[0] == Fresh("a", "Ann") && !s.players[1].finished
    requires s.finishedCount == 0
    requires b.finished && b.clicks == 3 && b.username == "Bob"
    requires r.Accepted? && r.session == s.(players := r.session.players, finishedCount := 1)
    requires r.session.players == AssignPositions(s.players[1 := b])
    ensures r.session.players[0] == Fresh("a", "Ann")
    ensures r.session.players[1].username == "Bob" && r.session.players[1].finished
    ensures r.session.players[1].clicks == 3 && r.session.players[1].position == Some(1)
  {
    var ps := s.players[1 := b];
    assert ps[0] == Fresh("a", "Ann");
    AfterFinish(s.players, 1, b, r.session.players);
    BobRanking(ps);
    var rk: seq<nat> := [1];
    assert IndexOf(rk, 1) == 0;
    PositionOf(ps, 1, 0);
  }

  lemma BobRanking(ps: seq<Racer>)
    requires |ps| == 2 && !ps[0].finished && ps[1].finished
    ensures Ranking(ps) == [1]
  {
    assert FinishedFrom(ps, 1) == [1];
    assert FinishedIndices(ps) == [1];
    SortOne<nat>(1, PlacementLe(ps));
  }

  /** From the race as Bob's finish leaves it, Ann's later finish is accepted too, places her second behind Bob, and meets the end
      condition again. */
  lemma AnnFinishes(s: Session)
    requires |s.players| == 2 && s.players[0] == Fresh("a", "Ann")
    requires s.players[1].username == "Bob" && s.players[1].finished
    requires s.players[1].clicks == 3 && s.players[1].position == Some(1)
    requires s.finishedCount == 1
    ensures var r := Finish(s, "Ann", JNum(5), JNum(4000), JArr([]), JBool(false));
      && r.Accepted?
      && r.session.players[0].username == "Ann" && r.session.players[0].position == Some(2)
      && r.session.players[1].username == "Bob" && r.session.players[1].position == Some(1)
      && r.session.players[0].finished && r.session.players[1].finished
      && r.session.finishedCount == 2
      && GameOver(|r.session.players|, r.session.finishedCount)
  {
    assert RacerNames(s.players) == ["Ann", "Bob"];
    assert FindRacer(s.players, "Ann") == Some(0);
    var ps := s.players[0 := Finished(s.players[0], JNum(5), JNum(4000), JArr([]), JBool(false))];
    var r := Finish(s, "Ann", JNum(5), JNum(4000), JArr([]), JBool(false));
    assert r.Accepted?;
    assert r.session.players == AssignPositions(ps);
    assert |ps| == 2 && ps[0].finished && ps[1].finished;
    assert ps[0].clicks == 5 && ps[1].clicks == 3;
    AnnPositions(ps);
  }

  lemma AnnPositions(ps: seq<Racer>)
    requires |ps| == 2 && ps[0].finished && ps[1].finished
    requires ps[0].clicks == 5 && ps[1].clicks == 3
    ensures AssignPositions(ps)[0].position == Some(2)
    ensures AssignPositions(ps)[1].position == Some(1)
  {
    AnnRanking(ps);
    var rk: seq<nat> := [1, 0];
    assert IndexOf(rk, 1) == 0 && IndexOf(rk, 0) == 1;
    PositionOf(ps, 0, 1);
    PositionOf(ps, 1, 0);
  }

  lemma AnnRanking(ps: seq<Racer>)
    requires |ps| == 2 && ps[0].finished && ps[1].finished
    requires ps[0].clicks == 5 && ps[1].clicks == 3
    ensures Ranking(ps) == [1, 0]
  {
    assert FinishedFrom(ps, 1) == [1];
    assert FinishedIndices(ps) == [0, 1];
    SortTwo<nat>(0, 1, PlacementLe(ps));
    assert !PlacementLe(ps)(0, 1);
  }

  /** Committing a two-racer race whose winner is racer `w` credits the winner with one win and
      one match and leaves the other racer's counters alone, whether or not that racer holds
      second place. */
  lemma TwoRacerCommit(room: Room, s: Session, now: int, w: nat)
    requires BoardInv(room.leaderboard)
    requires |s.players| == 2 && w < 2
    requires Placed(s.players[w]) && Pos(s.players[w]) == 1
    requires s.players[1 - w].username != s.players[w].username
    requires !Placed(s.players[1 - w]) || Pos(s.players[1 - w]) >= 2
    ensures var after := RecordMatch(room, s, now).leaderboard;
      && Lookup(after, s.players[w].username) == Add(Lookup(room.leaderboard, s.players[w].username), 1, 0, 0, 1)
      && Lookup(after, s.players[1 - w].username) == Lookup(room.leaderboard, s.players[1 - w].username)
      && BoardInv(after)
  {
    var ps := s.players;
    var placed := PlacedRacers(ps);
    var k := CountPositions(|ps|);
    assert k == CountPositions(2) == 1;
    TwoPlaced(ps, w);
    TwoRacerSecondUncredited(placed, ps[w].username);
    TwoRacerSecondUncredited(placed, ps[1 - w].username);
    var W, L := ps[w].username, ps[1 - w].username;
    assert Wins(placed, W, 1, k) == 1 && Wins(placed, W, 2, k) == 0 && Wins(placed, W, 3, k) == 0;
    assert Credited(placed, W, k) == 1;
    assert Wins(placed, L, 1, k) == 0 && Wins(placed, L, 2, k) == 0 && Wins(placed, L, 3, k) == 0;
    assert Credited(placed, L, k) == 0;
    RecordMatchCounts(room, s, now, W);
    RecordMatchCounts(room, s, now, L);
  }

  /** Of two racers, the winner is credited once with first place and the other not at all. */
  lemma TwoPlaced(ps: seq<Racer>, w: nat)
    requires |ps| == 2 && w < 2
    requires Placed(ps[w]) && Pos(ps[w]) == 1
    requires ps[1 - w].username != ps[w].username
    requires !Placed(ps[1 - w]) || Pos(ps[1 - w]) >= 2
    ensures var placed := PlacedRacers(ps);
      && Wins(placed, ps[w].username, 1, 1) == 1 && Credited(placed, ps[w].username, 1) == 1
      && Wins(placed, ps[1 - w].username, 1, 1) == 0 && Credited(placed, ps[1 - w].username, 1) == 0
  {
    var placed := PlacedRacers(ps);
    var a, b := (if Placed(ps[0]) then [ps[0]] else []), (if Placed(ps[1]) then [ps[1]] else []);
    assert PlacedRacers(ps[1..][1..]) == [];
    assert PlacedRacers(ps[1..]) == b;
    assert placed == a + b;
    TallySplit(a, b, ps[w].username, 1, 1);
    TallySplit(a, b, ps[1 - w].username, 1, 1);
    if Placed(ps[0]) { TallyOne(ps[0], ps[w].username, 1, 1); TallyOne(ps[0], ps[1 - w].username, 1, 1); }
    if Placed(ps[1]) { TallyOne(ps[1], ps[w].username, 1, 1); TallyOne(ps[1], ps[1 - w].username, 1, 1); }
  }

  /** The whole race: both finishes commit it, so Bob's entry gains two wins and two matches,
      while Ann's entry, if any, is untouched. */
  lemma BobCreditedTwice(room: Room)
    requires BoardInv(room.leaderboard)
    ensures var s1 := Finish(Started(), "Bob", JNum(3), JNum(5000), JArr([]), JBool(false)).session;
      var s2 := Finish(s1, "Ann", JNum(5), JNum(4000), JArr([]), JBool(false)).session;
      var after := RecordMatch(RecordMatch(room, s1, 10), s2, 20).leaderboard;
      && Lookup(after, "Bob") == Add(Lookup(room.leaderboard, "Bob"), 2, 0, 0, 2)
      && Lookup(after, "Ann") == Lookup(room.leaderboard, "Ann")
  {
    BobFinishes();
    var s1 := Finish(Started(), "Bob", JNum(3), JNum(5000), JArr([]), JBool(false)).session;
    AnnFinishes(s1);
    var s2 := Finish(s1, "Ann", JNum(5), JNum(4000), JArr([]), JBool(false)).session;
    CommitBoth(room, s1, s2);
  }

  lemma CommitBoth(room: Room, s1: Session, s2: Session)
    requires BoardInv(room.leaderboard)
    requires |s1.players| == 2 && s1.players[0] == Fresh("a", "Ann")
    requires s1.players[1].username == "Bob" && s1.players[1].finished && s1.players[1].position == Some(1)
    requires |s2.players| == 2 && s2.players[0].username == "Ann" && s2.players[0].position == Some(2)
    requires s2.players[1].username == "Bob" && s2.players[1].finished && s2.players[1].position == Some(1)
    ensures var after := RecordMatch(RecordMatch(room, s1, 10), s2, 20).leaderboard;
      && Lookup(after, "Bob") == Add(Lookup(room.leaderboard, "Bob"), 2, 0, 0, 2)
      && Lookup(after, "Ann") == Lookup(room.leaderboard, "Ann")
  {
    TwoRacerCommit(room, s1, 10, 1);
    TwoRacerCommit(RecordMatch(room, s1, 10), s2, 20, 1);
  }

  /** In general: once a race has met its end condition, every further accepted finish
      commits it into its room again, keeps it in place, and announces the end again. */
  lemma LateFinishCommitsAgain(st: State, roomCode: Js, username: Js, clicks: Js, time: Js, path: Js,
                               usedHint: Js, now: int)
    requires PlayerFinished(st, roomCode, username, clicks, time, path, usedHint, now) != Quiet(st)
    requires var code := SanitizeRoomCode(roomCode).value;
      code in st.rooms && GameOver(|st.sessions[code].players|, st.sessions[code].finishedCount)
    ensures var code := SanitizeRoomCode(roomCode).value;
      var r := PlayerFinished(st, roomCode, username, clicks, time, path, usedHint, now);
      && code in r.state.sessions
      && |r.state.rooms[code].matchHistory| == |st.rooms[code].matchHistory| + 1
      && r.emits[|r.emits| - 1] == Emit(ToRace(code), GameEnded)
  {
    var code := SanitizeRoomCode(roomCode).value;
    var s := st.sessions[code];
    var name := SanitizeUsername(username).value;
    FinishAccepted(s, name, clicks, time, path, usedHint);
    GameOverShape(|s.players|, s.finishedCount);
  }
}

=== FILE: solo.dfy ===
/** The single-player page: clicks and the path, jumping back along the path, and the win
    check that runs whenever an article finishes loading. Clock readings are parameters; the
    stored result is returned as a value. */
module Solo {
  import opened Common

  datatype Game = Game(clicks: nat, current: string, target: string, path: seq<string>, startTime: int,
                       gameActive: bool)

  /** What the page stores when the target is reached. */
  datatype Outcome = Outcome(clicks: nat, time: int, target: string, path: seq<string>)

  /** `initGame` with the two drawn titles: the path opens at the start article and the game
      becomes active with the timer started at `now`. */
  function InitGame(start: string, target: string, now: int): (g: Game)
    ensures Inv(g, start) && g.gameActive && g.clicks == 0 && g.path == [start]
    ensures g.current == start && g.target == target && g.startTime == now
  {
    Game(0, start, target, [start], now, true)
  }

  /** What the page keeps true: the path starts at the start article and ends at the current
      one, and it is never longer than one entry per click plus the start. */
  predicate Inv(g: Game, start: string) {
    && |g.path| >= 1 && g.path[0] == start
    && g.current == g.path[|g.path| - 1]
    && |g.path| <= g.clicks + 1
  }

  /** `navigateToArticle`: ignored while inactive; otherwise one more click and the title
      appended. */
  function NavigateToArticle(g: Game, title: string): (h: Game)
    ensures !g.gameActive ==> h == g
    ensures g.gameActive ==> h.clicks == g.clicks + 1 && h.current == title && h.path == g.path + [title]
    ensures h == g.(clicks := h.clicks, current := h.current, path := h.path)
    ensures h.target == g.target && h.gameActive == g.gameActive
  {
    if !g.gameActive then g
    else g.(clicks := g.clicks + 1, current := title, path := g.path + [title])
  }

  /** `goToPathArticle(index)` from the rendered path: ignored while inactive or on the last
      entry; otherwise the path is cut back to `index`, which becomes current, at the cost of
      one click. */
  function GoToPathArticle(g: Game, index: nat): (h: Game)
    requires index < |g.path|
    ensures !g.gameActive || index == |g.path| - 1 ==> h == g
    ensures g.gameActive && index < |g.path| - 1 ==>
      && h.clicks == g.clicks + 1 && h.path == g.path[..index + 1] && h.current == g.path[index]
      && |h.path| < |g.path|
    ensures h == g.(clicks := h.clicks, current := h.current, path := h.path)
    ensures h.target == g.target && h.gameActive == g.gameActive
  {
    if !g.gameActive || index == |g.path| - 1 then g
    else g.(clicks := g.clicks + 1, path := g.path[..index + 1], current := g.path[index])
  }

  /** `checkWinCondition` when a load completes at `now`: reaching the target by exact,
      case-sensitive title stops the game and stores the result. */
  function CheckWin(g: Game, now: int): (r: (Game, Option<Outcome>))
    ensures r.1.Some? <==> g.current == g.target
    ensures r.1.Some? ==> !r.0.gameActive && r.1.value == Outcome(g.clicks, now - g.startTime, g.target, g.path)
    ensures r.1.None? ==> r.0 == g
    ensures r.0 == g.(gameActive := r.0.gameActive)
  {
    if g.current == g.target then (g.(gameActive := false), Some(Outcome(g.clicks, now - g.startTime, g.target, g.path)))
    else (g, None)
  }

  datatype Event = Navigate(title: string) | GoTo(index: nat) | Loaded(now: int)

  /** One event; a jump to an index the rendered path does not have cannot be clicked and
      changes nothing. */
  function Step(g: Game, e: Event): (r: (Game, Option<Outcome>)) {
    match e
    case Navigate(title) => (NavigateToArticle(g, title), None)
    case GoTo(index) => if index < |g.path| then (GoToPathArticle(g, index), None) else (g, None)
    case Loaded(now) => CheckWin(g, now)
  }

  /** Every event keeps the path's shape, the target and the start time. */
  lemma StepKeepsInv(g: Game, start: string, e: Event)
    requires Inv(g, start)
    ensures Inv(Step(g, e).0, start) && Step(g, e).0.target == g.target
    ensures Step(g, e).0.startTime == g.startTime
  {
    match e
    case Navigate(title) =>
    case GoTo(index) =>
      if index < |g.path| && g.gameActive && index < |g.path| - 1 {
        assert g.path[..index + 1][0] == g.path[0];
      }
    case Loaded(now) =>
  }

  function Run(g: Game, es: seq<Event>): Game
    decreases |es|
  {
    if es == [] then g else Run(Step(g, es[0]).0, es[1..])
  }

  /** The bookkeeping, the target and the start time hold after any sequence of events. */
  lemma {:induction false} RunKeepsInv(g: Game, start: string, es: seq<Event>)
    requires Inv(g, start)
    ensures Inv(Run(g, es), start) && Run(g, es).target == g.target
    ensures Run(g, es).startTime == g.startTime
    decreases |es|
  {
    if es != [] {
      StepKeepsInv(g, start, es[0]);
      RunKeepsInv(Step(g, es[0]).0, start, es[1..]);
    }
  }

  /** Once stopped, the page's clicks, path and current article are frozen: navigation and
      jumps are ignored, and a later load at the target stores a result again with the same
      clicks, target and path. */
  lemma {:induction false} StoppedIsFrozen(g: Game, es: seq<Event>)
    requires !g.gameActive
    ensures Run(g, es) == g
    decreases |es|
  {
    if es != [] {
      assert Step(g, es[0]).0 == g;
      StoppedIsFrozen(g, es[1..]);
    }
  }

  /** After a win, whatever the player does next, the page stays where it won. */
  lemma WinFreezes(g: Game, now: int, es: seq<Event>)
    requires g.current == g.target
    ensures var w := CheckWin(g, now).0;
      Run(w, es) == w && w.path == g.path && w.clicks == g.clicks
  {
    StoppedIsFrozen(CheckWin(g, now).0, es);
  }
}

=== FILE: sorting.dfy ===
/** The stable sort behind every `Array.prototype.sort` call of the system. A JavaScript
    comparator `cmp` is represented by the relation `le(a, b) := cmp(a, b) <= 0` ("a may stay
    before b"); the sort is an insertion sort that places each element before the first element
    it may precede, which keeps equivalent elements in their input order. */
module Sorting {

  /** `le` is total and transitive: the comparator is consistent. */
  ghost predicate TotalPreorder<T(!new)>(le: (T, T) -> bool) {
    && (forall x, y :: le(x, y) || le(y, x))
    && (forall x, y, z :: le(x, y) && le(y, z) ==> le(x, z))
  }

  ghost predicate SortedBy<T>(s: seq<T>, le: (T, T) -> bool) {
    forall i, j :: 0 <= i < j < |s| ==> le(s[i], s[j])
  }

  /** Insert `x` before the first element it may precede. */
  function InsertBy<T>(x: T, s: seq<T>, le: (T, T) -> bool): (r: seq<T>)
    ensures multiset(r) == multiset{x} + multiset(s)
    ensures |r| == |s| + 1
  {
    if s == [] || le(x, s[0]) then [x] + s
    else
      assert s == [s[0]] + s[1..];
      [s[0]] + InsertBy(x, s[1..], le)
  }

  /** `[...s].sort(cmp)`. */
  function SortBy<T>(s: seq<T>, le: (T, T) -> bool): (r: seq<T>)
    ensures multiset(r) == multiset(s)
    ensures |r| == |s|
  {
    if s == [] then []
    else
      assert s == [s[0]] + s[1..];
      InsertBy(s[0], SortBy(s[1..], le), le)
  }

  /** Sorting one element, and two, by hand. */
  lemma SortOne<T>(a: T, le: (T, T) -> bool)
    ensures SortBy([a], le) == [a]
  {
    assert [a][1..] == [];
  }

  lemma SortTwo<T>(a: T, b: T, le: (T, T) -> bool)
    ensures SortBy([a, b], le) == if le(a, b) then [a, b] else [b, a]
  {
    assert [a, b][1..] == [b];
    SortOne(b, le);
    assert [b][1..] == [];
  }

  lemma {:induction false} InsertSorted<T(!new)>(x: T, s: seq<T>, le: (T, T) -> bool)
    requires TotalPreorder(le) && SortedBy(s, le)
    ensures SortedBy(InsertBy(x, s, le), le)
    decreases |s|
  {
    if s != [] && !le(x, s[0]) {
      InsertSorted(x, s[1..], le);
      var r := InsertBy(x, s, le);
      var t := InsertBy(x, s[1..], le);
      assert r == [s[0]] + t;
      forall j | 0 < j < |r|
        ensures le(r[0], r[j])
      {
        assert r[j] in multiset(t);
        assert r[j] == x || r[j] in multiset(s[1..]);
        if r[j] != x {
          var k :| 0 <= k < |s[1..]| && s[1..][k] == r[j];
          assert s[1 + k] == r[j];
        }
      }
    }
  }

  /** The output is ordered by the comparator. */
  lemma {:induction false} SortSorted<T(!new)>(s: seq<T>, le: (T, T) -> bool)
    requires TotalPreorder(le)
    ensures SortedBy(SortBy(s, le), le)
    decreases |s|
  {
    if s != [] {
      SortSorted(s[1..], le);
      InsertSorted(s[0], SortBy(s[1..], le), le);
    }
  }

  /** The members of `s` equivalent to `c`, in their order in `s`. */
  function Class<T>(s: seq<T>, le: (T, T) -> bool, c: T): (r: seq<T>)
    ensures |r| <= |s|
    ensures forall i :: 0 <= i < |r| ==> le(r[i], c) && le(c, r[i])
  {
    if s == [] then []
    else (if le(s[0], c) && le(c, s[0]) then [s[0]] else []) + Class(s[1..], le, c)
  }

  lemma {:induction false} InsertClass<T(!new)>(x: T, s: seq<T>, le: (T, T) -> bool, c: T)
    requires TotalPreorder(le)
    ensures Class(InsertBy(x, s, le), le, c)
         == (if le(x, c) && le(c, x) then [x] else []) + Class(s, le, c)
    decreases |s|
  {
    var r := InsertBy(x, s, le);
    if s == [] || le(x, s[0]) {
      assert r[1..] == s;
    } else {
      InsertClass(x, s[1..], le, c);
      assert r[1..] == InsertBy(x, s[1..], le);
      if le(x, c) && le(c, x) {
        // s[0] is strictly before x, so it cannot be equivalent to c.
        assert !(le(s[0], c) && le(c, s[0]));
      }
    }
  }

  /** Stability: every class of equivalent elements keeps its input order. */
  lemma {:induction false} SortStable<T(!new)>(s: seq<T>, le: (T, T) -> bool, c: T)
    requires TotalPreorder(le)
    ensures Class(SortBy(s, le), le, c) == Class(s, le, c)
    decreases |s|
  {
    if s != [] {
      SortStable(s[1..], le, c);
      InsertClass(s[0], SortBy(s[1..], le), le, c);
    }
  }

  /** Equivalent elements stand in strictly increasing rank. */
  ghost predicate RankStable<T>(s: seq<T>, le: (T, T) -> bool, rank: T -> int) {
    forall a, b :: 0 <= a < b < |s| && le(s[b], s[a]) ==> rank(s[a]) < rank(s[b])
  }

  /** Stability in terms of a rank that strictly increases along the input (for instance the
      input index): equivalent elements come out in increasing rank. */
  lemma {:induction false} SortRankStable<T(!new)>(s: seq<T>, le: (T, T) -> bool, rank: T -> int)
    requires TotalPreorder(le)
    requires forall i, j :: 0 <= i < j < |s| ==> rank(s[i]) < rank(s[j])
    ensures RankStable(SortBy(s, le), le, rank)
    decreases |s|
  {
    if s != [] {
      var t := SortBy(s[1..], le);
      SortRankStable(s[1..], le, rank);
      SortSorted(s[1..], le);
      forall k | 0 <= k < |t|
        ensures rank(s[0]) < rank(t[k])
      {
        assert t[k] in multiset(s[1..]);
        var m :| 0 <= m < |s[1..]| && s[1..][m] == t[k];
        assert s[1 + m] == t[k];
      }
      InsertRankStable(s[0], t, le, rank);
    }
  }

  /** Inserting an element of smaller rank than everything already sorted keeps the
      (comparator, rank) order. */
  lemma {:induction false} InsertRankStable<T(!new)>(x: T, t: seq<T>, le: (T, T) -> bool, rank: T -> int)
    requires TotalPreorder(le) && SortedBy(t, le) && RankStable(t, le, rank)
    requires forall k :: 0 <= k < |t| ==> rank(x) < rank(t[k])
    ensures RankStable(InsertBy(x, t, le), le, rank)
    decreases |t|
  {
    var r := InsertBy(x, t, le);
    if t == [] || le(x, t[0]) {
      assert r == [x] + t;
      forall a, b | 0 <= a < b < |r| && le(r[b], r[a])
        ensures rank(r[a]) < rank(r[b])
      {
        if a > 0 {
          assert r[a] == t[a - 1] && r[b] == t[b - 1];
        }
      }
    } else {
      var u := InsertBy(x, t[1..], le);
      InsertRankStable(x, t[1..], le, rank);
      assert r == [t[0]] + u;
      forall b | 0 < b < |r| && le(r[b], r[0])
        ensures rank(r[0]) < rank(r[b])
      {
        FrontOfInsert(x, t, le, b);
      }
      assert RankStable(u, le, rank);
    }
  }

  /** When `x` goes after `t[0]`, every later element that may precede `t[0]` is a later
      element of `t` itself. */
  lemma FrontOfInsert<T(!new)>(x: T, t: seq<T>, le: (T, T) -> bool, b: nat)
    requires t != [] && !le(x, t[0])
    requires 0 < b < |InsertBy(x, t, le)|
    requires le(InsertBy(x, t, le)[b], t[0])
    ensures exists k :: 1 <= k < |t| && t[k] == InsertBy(x, t, le)[b]
  {
    var u := InsertBy(x, t[1..], le);
    var y := InsertBy(x, t, le)[b];
    assert y == u[b - 1];
    assert y in multiset(u);
    assert y != x;
    assert y in multiset(t[1..]);
    var m :| 0 <= m < |t[1..]| && t[1..][m] == y;
    assert t[1 + m] == y;
  }

  /** Sorting an already ordered sequence returns it unchanged. */
  lemma {:induction false} SortSortedIdentity<T>(s: seq<T>, le: (T, T) -> bool)
    requires SortedBy(s, le)
    ensures SortBy(s, le) == s
    decreases |s|
  {
    if s != [] {
      SortSortedIdentity(s[1..], le);
      assert SortBy(s, le) == InsertBy(s[0], s[1..], le);
    }
  }
}

=== FILE: text.dfy ===
/** Strings as the pages and the server render them: decimal numerals (`String(n)`),
    `padStart`, splitting on a separator, and ASCII lower-casing. */
module Text {
  import opened Common

  predicate IsDigit(c: char) {
    '0' <= c <= '9'
  }

  predicate AllDigits(s: string) {
    forall i :: 0 <= i < |s| ==> IsDigit(s[i])
  }

  function DigitChar(d: nat): (c: char)
    requires d < 10
    ensures IsDigit(c)
  {
    (48 + d) as char
  }

  /** The value of a decimal digit; any other character counts as 0. */
  function DigitValue(c: char): nat {
    if IsDigit(c) then c as int - 48 else 0
  }

  /** `String(n)` for a non-negative integer: its decimal numeral without leading zeros. */
  function NatToString(n: nat): (r: string)
    ensures 1 <= |r| && AllDigits(r)
    ensures n < 10 ==> |r| == 1
    ensures r[0] == '0' ==> n == 0
    decreases n
  {
    if n < 10 then [DigitChar(n)] else NatToString(n / 10) + [DigitChar(n % 10)]
  }

  /** The number a string of decimal digits denotes (leading zeros allowed); the reader of
      every numeral the pages print. */
  function DigitsValue(s: string): nat {
    if s == [] then 0 else 10 * DigitsValue(s[..|s| - 1]) + DigitValue(s[|s| - 1])
  }

  /** Reading back a printed numeral gives the number. */
  lemma {:induction false} NatToStringValue(n: nat)
    ensures DigitsValue(NatToString(n)) == n
    decreases n
  {
    if n >= 10 {
      NatToStringValue(n / 10);
      var s := NatToString(n);
      assert s[..|s| - 1] == NatToString(n / 10);
    }
  }

  /** Numerals below 100 have at most two digits, below 1000 at most three, and four-digit
      numbers have four. */
  lemma NatToStringLength(n: nat)
    ensures n < 100 ==> |NatToString(n)| <= 2
    ensures n < 1000 ==> |NatToString(n)| <= 3
    ensures 1000 <= n < 10000 ==> |NatToString(n)| == 4
  {
    if n >= 10 {
      NatToStringLength(n / 10);
    }
  }

  function Repeat(c: char, k: nat): (r: string)
    ensures |r| == k
    ensures forall i :: 0 <= i < k ==> r[i] == c
  {
    if k == 0 then [] else [c] + Repeat(c, k - 1)
  }

  /** `s.padStart(width, c)` with a one-character pad. */
  function PadStart(s: string, width: nat, c: char): (r: string)
    ensures |r| == if |s| >= width then |s| else width
    ensures |s| <= |r| && r[|r| - |s|..] == s
    ensures forall i :: 0 <= i < |r| - |s| ==> r[i] == c
  {
    if |s| >= width then s else Repeat(c, width - |s|) + s
  }

  /** `String(n).padStart(width, '0')`. */
  function ZeroPad(n: nat, width: nat): (r: string)
    ensures AllDigits(r) && |r| >= width
  {
    PadStart(NatToString(n), width, '0')
  }

  /** Leading zeros do not change the value. */
  lemma {:induction false} LeadingZeros(z: string, s: string)
    requires AllDigits(z) && AllDigits(s)
    requires forall i :: 0 <= i < |z| ==> z[i] == '0'
    ensures AllDigits(z + s)
    ensures DigitsValue(z + s) == DigitsValue(s)
    decreases |s|
  {
    if s == [] {
      assert z + s == z;
      AllZeros(z);
    } else {
      var t := z + s;
      assert t[..|t| - 1] == z + s[..|s| - 1];
      LeadingZeros(z, s[..|s| - 1]);
    }
  }

  lemma {:induction false} AllZeros(z: string)
    requires forall i :: 0 <= i < |z| ==> z[i] == '0'
    ensures AllDigits(z) && DigitsValue(z) == 0
    decreases |z|
  {
    if z != [] {
      AllZeros(z[..|z| - 1]);
    }
  }

  /** A zero-padded numeral reads back as the number it pads, and has exactly the width when
      the number fits. */
  lemma ZeroPadValue(n: nat, width: nat)
    ensures DigitsValue(ZeroPad(n, width)) == n
    ensures width == 2 && n < 100 ==> |ZeroPad(n, width)| == 2
    ensures width == 3 && n < 1000 ==> |ZeroPad(n, width)| == 3
  {
    var s := NatToString(n);
    NatToStringValue(n);
    NatToStringLength(n);
    if |s| < width {
      var z := Repeat('0', width - |s|);
      LeadingZeros(z, s);
    }
  }

  /** `s.split(sep)` for a one-character separator. */
  function Split(s: string, sep: char): (parts: seq<string>)
    ensures |parts| >= 1
    decreases |s|
  {
    var k := IndexOf(s, sep);
    if k == |s| then [s] else [s[..k]] + Split(s[k + 1..], sep)
  }

  predicate Free(s: string, sep: char) {
    forall i :: 0 <= i < |s| ==> s[i] != sep
  }

  /** Splitting a piece free of the separator, followed by the separator, peels that piece. */
  lemma SplitCons(a: string, sep: char, b: string)
    requires Free(a, sep)
    ensures Split(a + [sep] + b, sep) == [a] + Split(b, sep)
  {
    var s := a + [sep] + b;
    assert IndexOf(s, sep) == |a| by {
      FindPrefix(a, sep, b);
    }
    assert s[..|a|] == a;
    assert s[|a| + 1..] == b;
  }

  lemma {:induction false} FindPrefix(a: string, sep: char, b: string)
    requires Free(a, sep)
    ensures IndexOf(a + [sep] + b, sep) == |a|
    decreases |a|
  {
    if a != [] {
      assert (a + [sep] + b)[1..] == a[1..] + [sep] + b;
      FindPrefix(a[1..], sep, b);
    }
  }

  /** A piece free of the separator splits into itself. */
  lemma SplitFree(a: string, sep: char)
    requires Free(a, sep)
    ensures Split(a, sep) == [a]
  {
  }

  lemma DigitsFree(s: string, sep: char)
    requires AllDigits(s) && !IsDigit(sep)
    ensures Free(s, sep)
  {
  }

  /** ASCII `toLowerCase`. */
  function LowerChar(c: char): (d: char)
    ensures 'A' <= c <= 'Z' ==> d != c && 'a' <= d <= 'z'
    ensures !('A' <= c <= 'Z') ==> d == c
  {
    if 'A' <= c <= 'Z' then (c as int + 32) as char else c
  }

  function Lower(s: string): (r: string)
    ensures |r| == |s|
    ensures forall i :: 0 <= i < |s| ==> r[i] == LowerChar(s[i])
  {
    seq(|s|, i requires 0 <= i < |s| => LowerChar(s[i]))
  }

  /** Strict lexicographic order by character code: JavaScript's `<` on strings whose
      characters lie in the Basic Multilingual Plane. */
  predicate StrLt(a: string, b: string)
    decreases |a|
  {
    if a == [] then b != []
    else if b == [] then false
    else if a[0] != b[0] then a[0] < b[0]
    else StrLt(a[1..], b[1..])
  }

  /** `<` on strings is a strict total order: irreflexive, transitive and connected. */
  lemma {:induction false} StrLtIrreflexive(a: string)
    ensures !StrLt(a, a)
    decreases |a|
  {
    if a != [] {
      StrLtIrreflexive(a[1..]);
    }
  }

  lemma {:induction false} StrLtConnected(a: string, b: string)
    ensures a == b || StrLt(a, b) || StrLt(b, a)
    decreases |a|
  {
    if a != [] && b != [] && a[0] == b[0] {
      StrLtConnected(a[1..], b[1..]);
      if a[1..] == b[1..] {
        assert a == [a[0]] + a[1..] && b == [b[0]] + b[1..];
      }
    }
  }

  lemma {:induction false} StrLtTransitive(a: string, b: string, c: string)
    requires StrLt(a, b) && StrLt(b, c)
    ensures StrLt(a, c)
    decreases |a|
  {
    if a != [] && b != [] && c != [] && a[0] == b[0] && b[0] == c[0] {
      StrLtTransitive(a[1..], b[1..], c[1..]);
    }
  }

  lemma {:induction false} StrLtAsymmetric(a: string, b: string)
    requires StrLt(a, b)
    ensures !StrLt(b, a)
    decreases |a|
  {
    if a != [] && b != [] && a[0] == b[0] {
      StrLtAsymmetric(a[1..], b[1..]);
    }
  }
}

=== FILE: timefmt.dfy ===
/** The pages' `formatTime` helpers. Four pages (multiplayer-results.js, multiplayer-leaderboard.js,
    multiplayer-game.js, results.js) share one definition printing `HH:MM:SS.mmm`, `MM:SS.mmm`
    or `SS.mmm`; the dashboard prints `1h 2m 3s`, `2m 3s` or `3.045s`. Durations are
    non-negative whole milliseconds. */
module TimeFormat {
  import opened Common
  import opened Text

  /** A duration broken into the fields the pages print. */
  datatype Clock = Clock(hours: nat, minutes: nat, seconds: nat, millis: nat)

  function Total(c: Clock): nat {
    c.hours * 3600000 + c.minutes * 60000 + c.seconds * 1000 + c.millis
  }

  /** `totalSeconds = floor(ms / 1000)`, then hours, minutes and seconds from it. The fields
      recombine to the duration, with minutes and seconds below 60 and milliseconds below
      1000. */
  function ClockOf(ms: nat): (c: Clock)
    ensures c.minutes < 60 && c.seconds < 60 && c.millis < 1000
    ensures Total(c) == ms
  {
    var total := ms / 1000;
    var c := Clock(total / 3600, (total / 60) % 60, total % 60, ms % 1000);
    Recombine(ms);
    c
  }

  lemma Recombine(ms: nat)
    ensures var t := ms / 1000;
      (t / 3600) * 3600000 + ((t / 60) % 60) * 60000 + (t % 60) * 1000 + ms % 1000 == ms
  {
    var t := ms / 1000;
    var q := t / 60;
    var h := q / 60;
    assert ms == t * 1000 + ms % 1000;
    assert t == q * 60 + t % 60;
    assert q == h * 60 + q % 60;
    assert t == h * 3600 + (q % 60) * 60 + t % 60;
    assert 0 <= (q % 60) * 60 + t % 60 < 3600;
    DivUnique(t, 3600, h, (q % 60) * 60 + t % 60);
  }

  // ---------------------------------------------------------------- HH:MM:SS.mmm

  /** The shared `formatTime`: every field zero-padded (hours and minutes and seconds to two
      digits, milliseconds to three), and the leading fields dropped while they are zero. */
  function FormatTime(ms: nat): (r: string)
  {
    Render(ClockOf(ms))
  }

  function Render(c: Clock): string {
    var tail := ZeroPad(c.seconds, 2) + "." + ZeroPad(c.millis, 3);
    if c.hours > 0 then ZeroPad(c.hours, 2) + ":" + ZeroPad(c.minutes, 2) + ":" + tail
    else if c.minutes > 0 then ZeroPad(c.minutes, 2) + ":" + tail
    else tail
  }

  /** The numerals a rendering is made of; a field the rendering leaves out is empty. */
  datatype Numerals = Numerals(hours: string, minutes: string, seconds: string, millis: string)

  /** The duration a set of numerals stands for (an empty numeral counts as zero). */
  function Value(n: Numerals): nat {
    DigitsValue(n.hours) * 3600000 + DigitsValue(n.minutes) * 60000
      + DigitsValue(n.seconds) * 1000 + DigitsValue(n.millis)
  }

  /** Reads a `[[H:]M:]S.mmm` rendering back into milliseconds. */
  function ReadClock(r: string): Option<nat> {
    match ClockNumerals(r)
    case None => None
    case Some(n) => Some(Value(n))
  }

  /** Cuts a rendering at its ':'s into up to two whole numerals, then `S.mmm` at its '.'. */
  function ClockNumerals(r: string): Option<Numerals> {
    var parts := Split(r, ':');
    if |parts| > 3 then None
    else
      var halves := Split(parts[|parts| - 1], '.');
      if |halves| != 2 || !AllDigits(halves[0]) || !AllDigits(halves[1]) then None
      else if |parts| >= 2 && !AllDigits(parts[|parts| - 2]) then None
      else if |parts| == 3 && !AllDigits(parts[0]) then None
      else Some(Numerals(if |parts| == 3 then parts[0] else "", if |parts| >= 2 then parts[|parts| - 2] else "",
                         halves[0], halves[1]))
  }

  /** Nothing is lost: the rendering reads back as the duration it renders. */
  lemma ReadFormatTime(ms: nat)
    ensures ReadClock(FormatTime(ms)) == Some(ms)
  {
    ReadRender(ClockOf(ms));
  }

  lemma ReadRender(c: Clock)
    ensures ClockNumerals(Render(c)) == Some(Padded(c))
    ensures ReadClock(Render(c)) == Some(Total(c))
  {
    var r := Render(c);
    var hh, mm, ss, mmm := ZeroPad(c.hours, 2), ZeroPad(c.minutes, 2), ZeroPad(c.seconds, 2), ZeroPad(c.millis, 3);
    var n: Numerals;
    if c.hours > 0 {
      ReadThree(r, hh, mm, ss, mmm);
      n := Numerals(hh, mm, ss, mmm);
    } else if c.minutes > 0 {
      ReadTwo(r, mm, ss, mmm);
      n := Numerals("", mm, ss, mmm);
    } else {
      ReadOne(r, ss, mmm);
      n := Numerals("", "", ss, mmm);
    }
    PaddedValue(c, n);
  }

  /** Numerals that are the clock's padded fields, or empty where the field is zero, stand
      for the clock's duration. */
  lemma PaddedValue(c: Clock, n: Numerals)
    requires n.hours == ZeroPad(c.hours, 2) || (n.hours == "" && c.hours == 0)
    requires n.minutes == ZeroPad(c.minutes, 2) || (n.minutes == "" && c.minutes == 0)
    requires n.seconds == ZeroPad(c.seconds, 2) && n.millis == ZeroPad(c.millis, 3)
    ensures Value(n) == Total(c)
  {
    ZeroPadValue(c.hours, 2);
    ZeroPadValue(c.minutes, 2);
    ZeroPadValue(c.seconds, 2);
    ZeroPadValue(c.millis, 3);
  }

  lemma ReadThree(r: string, hh: string, mm: string, ss: string, mmm: string)
    requires AllDigits(hh) && AllDigits(mm) && AllDigits(ss) && AllDigits(mmm)
    requires r == hh + ":" + mm + ":" + (ss + "." + mmm)
    ensures ClockNumerals(r) == Some(Numerals(hh, mm, ss, mmm))
  {
    var tail := ss + "." + mmm;
    TailSplit(tail, ss, mmm);
    ThreeFields(r, hh, mm, tail);
  }

  lemma ReadTwo(r: string, mm: string, ss: string, mmm: string)
    requires AllDigits(mm) && AllDigits(ss) && AllDigits(mmm)
    requires r == mm + ":" + (ss + "." + mmm)
    ensures ClockNumerals(r) == Some(Numerals("", mm, ss, mmm))
  {
    var tail := ss + "." + mmm;
    TailSplit(tail, ss, mmm);
    TwoFields(r, mm, tail);
  }

  lemma ReadOne(r: string, ss: string, mmm: string)
    requires AllDigits(ss) && AllDigits(mmm) && r == ss + "." + mmm
    ensures ClockNumerals(r) == Some(Numerals("", "", ss, mmm))
  {
    TailSplit(r, ss, mmm);
  }

  lemma TwoFields(r: string, a: string, tail: string)
    requires AllDigits(a) && Split(tail, ':') == [tail] && r == a + ":" + tail
    ensures Split(r, ':') == [a, tail]
  {
    DigitsFree(a, ':');
    Fields2(r, a, tail, ':');
  }

  lemma ThreeFields(r: string, hh: string, mm: string, tail: string)
    requires AllDigits(hh) && AllDigits(mm) && Split(tail, ':') == [tail]
    requires r == hh + ":" + mm + ":" + tail
    ensures Split(r, ':') == [hh, mm, tail]
  {
    DigitsFree(hh, ':');
    DigitsFree(mm, ':');
    Regroup(hh, mm, tail, ':');
    Fields3(r, hh, mm, tail, ':');
  }

  /** Two pieces joined by the separator, the first free of it, split back apart. */
  lemma Fields2(r: string, a: string, tail: string, sep: char)
    requires Free(a, sep) && Split(tail, sep) == [tail] && r == a + [sep] + tail
    ensures Split(r, sep) == [a, tail]
  {
    SplitCons(a, sep, tail);
  }

  lemma Fields3(r: string, a: string, b: string, tail: string, sep: char)
    requires Free(a, sep) && Free(b, sep) && Split(tail, sep) == [tail]
    requires r == a + [sep] + (b + [sep] + tail)
    ensures Split(r, sep) == [a, b, tail]
  {
    var rest := b + [sep] + tail;
    Fields2(rest, b, tail, sep);
    SplitCons(a, sep, rest);
  }

  lemma Regroup(a: string, b: string, c: string, sep: char)
    ensures a + [sep] + b + [sep] + c == a + [sep] + (b + [sep] + c)
  {
  }

  /** `S.mmm` holds no ':' and splits on '.' into its two numerals. */
  lemma TailSplit(t: string, ss: string, mmm: string)
    requires AllDigits(ss) && AllDigits(mmm) && t == ss + "." + mmm
    ensures Split(t, ':') == [t]
    ensures Split(t, '.') == [ss, mmm]
  {
    assert Free(t, ':') by {
      forall i | 0 <= i < |t| ensures t[i] != ':' {
        if i < |ss| { assert t[i] == ss[i]; } else if i > |ss| { assert t[i] == mmm[i - |ss| - 1]; }
      }
    }
    SplitFree(t, ':');
    DigitsFree(ss, '.');
    DigitsFree(mmm, '.');
    SplitCons(ss, '.', mmm);
    SplitFree(mmm, '.');
  }

  /** The fields `formatTime` prints: the hours and minutes appear only from the largest
      non-zero unit down. */
  function Padded(c: Clock): Numerals {
    Numerals(if c.hours > 0 then ZeroPad(c.hours, 2) else "",
             if c.hours > 0 || c.minutes > 0 then ZeroPad(c.minutes, 2) else "",
             ZeroPad(c.seconds, 2), ZeroPad(c.millis, 3))
  }

  /** The largest non-zero unit picks the shape: an hour field only when there are hours, a
      minute field when there are hours or minutes; minutes and seconds always take two digits
      and milliseconds three, so only the hour field can grow past two. */
  lemma FormatTimeShape(ms: nat)
    ensures var c := ClockOf(ms);
      var n := ClockNumerals(FormatTime(ms));
      && n == Some(Padded(c))
      && (n.value.hours == "" <==> c.hours == 0)
      && (n.value.minutes == "" <==> c.hours == 0 && c.minutes == 0)
      && (n.value.minutes != "" ==> |n.value.minutes| == 2)
      && |n.value.seconds| == 2 && |n.value.millis| == 3
      && (0 < c.hours < 100 ==> |n.value.hours| == 2)
  {
    var c := ClockOf(ms);
    ReadRender(c);
    ZeroPadValue(c.hours, 2);
    ZeroPadValue(c.minutes, 2);
    ZeroPadValue(c.seconds, 2);
    ZeroPadValue(c.millis, 3);
  }

  lemma FormatTimeExamples()
    ensures FormatTime(60000) == "01:00.000"
    ensures FormatTime(3600000) == "01:00:00.000"
    ensures FormatTime(3723045) == "01:02:03.045"
  {
    FormatMinute();
    FormatHour();
    FormatFull();
  }

  /** The zero duration prints as seconds and milliseconds only. */
  lemma FormatZero()
    ensures FormatTime(0) == "00.000"
  {
    ClockAt(0, Clock(0, 0, 0, 0));
    RenderZero();
  }

  lemma RenderZero()
    ensures Render(Clock(0, 0, 0, 0)) == "00.000"
  {
    PadOne(0, 2);
    PadOne(0, 3);
    RenderFrom(Clock(0, 0, 0, 0), "00", "00", "00", "000");
  }

  lemma FormatMinute()
    ensures FormatTime(60000) == "01:00.000"
  {
    var c := Clock(0, 1, 0, 0);
    ClockAt(60000, c);
    PadOne(0, 2);
    PadOne(1, 2);
    PadOne(0, 3);
    RenderFrom(c, "00", "01", "00", "000");
  }

  lemma FormatHour()
    ensures FormatTime(3600000) == "01:00:00.000"
  {
    var c := Clock(1, 0, 0, 0);
    ClockAt(3600000, c);
    PadOne(0, 2);
    PadOne(1, 2);
    PadOne(0, 3);
    RenderFrom(c, "01", "00", "00", "000");
  }

  lemma FormatFull()
    ensures FormatTime(3723045) == "01:02:03.045"
  {
    var c := Clock(1, 2, 3, 45);
    ClockAt(3723045, c);
    PadOne(1, 2);
    PadOne(2, 2);
    PadOne(3, 2);
    PadTwo(45);
    RenderFrom(c, "01", "02", "03", "045");
  }

  /** A clock whose fields are in range is the one its total breaks into. */
  lemma ClockAt(ms: nat, c: Clock)
    requires c.minutes < 60 && c.seconds < 60 && c.millis < 1000 && Total(c) == ms
    ensures ClockOf(ms) == c
  {
    var t := c.hours * 3600 + c.minutes * 60 + c.seconds;
    DivUnique(ms, 1000, t, c.millis);
    DivUnique(t, 60, c.hours * 60 + c.minutes, c.seconds);
    DivUnique(c.hours * 60 + c.minutes, 60, c.hours, c.minutes);
    DivUnique(t, 3600, c.hours, c.minutes * 60 + c.seconds);
  }

  /** A rendering put together from known padded fields. */
  lemma RenderFrom(c: Clock, hh: string, mm: string, ss: string, mmm: string)
    requires ZeroPad(c.hours, 2) == hh && ZeroPad(c.minutes, 2) == mm
    requires ZeroPad(c.seconds, 2) == ss && ZeroPad(c.millis, 3) == mmm
    ensures var tail := ss + "." + mmm;
      Render(c) == if c.hours > 0 then hh + ":" + mm + ":" + tail else if c.minutes > 0 then mm + ":" + tail else tail
  {
  }

  /** A one-digit number padded to two or three places. */
  lemma PadOne(n: nat, width: nat)
    requires n < 10 && 2 <= width <= 3
    ensures ZeroPad(n, width) == (if width == 2 then "0" else "00") + [DigitChar(n)]
  {
    assert Repeat('0', 1) == "0";
    assert Repeat('0', 2) == "00";
  }

  /** A two-digit number padded to three places. */
  lemma PadTwo(n: nat)
    requires 10 <= n < 100
    ensures ZeroPad(n, 3) == "0" + [DigitChar(n / 10), DigitChar(n % 10)]
  {
    assert NatToString(n / 10) == [DigitChar(n / 10)];
    assert Repeat('0', 1) == "0";
  }

  // ---------------------------------------------------------------- dashboard

  /** The dashboard's `formatTime`: unpadded `Hh Mm Ss` or `Mm Ss`, which drop the
      milliseconds, and `S.mmms` below a minute. */
  function DashTime(ms: nat): string {
    DashRender(ClockOf(ms))
  }

  function DashRender(c: Clock): string {
    if c.hours > 0 then NatToString(c.hours) + "h " + NatToString(c.minutes) + "m " + NatToString(c.seconds) + "s"
    else if c.minutes > 0 then NatToString(c.minutes) + "m " + NatToString(c.seconds) + "s"
    else NatToString(c.seconds) + "." + ZeroPad(c.millis, 3) + "s"
  }

  /** The numeral before the unit letter `u`. */
  function UnitNumeral(p: string, u: char): Option<string> {
    if |p| >= 2 && p[|p| - 1] == u && AllDigits(p[..|p| - 1]) then Some(p[..|p| - 1]) else None
  }

  /** Reads a dashboard rendering back into milliseconds. */
  function ReadDash(r: string): Option<nat> {
    match DashNumerals(r)
    case None => None
    case Some(n) => Some(Value(n))
  }

  /** Cuts a dashboard rendering at its spaces into numerals with unit letters; a single piece
      is `S.mmms`. */
  function DashNumerals(r: string): Option<Numerals> {
    var parts := Split(r, ' ');
    if |parts| == 3 then
      match (UnitNumeral(parts[0], 'h'), UnitNumeral(parts[1], 'm'), UnitNumeral(parts[2], 's'))
      case (Some(h), Some(m), Some(s)) => Some(Numerals(h, m, s, ""))
      case _ => None
    else if |parts| == 2 then
      match (UnitNumeral(parts[0], 'm'), UnitNumeral(parts[1], 's'))
      case (Some(m), Some(s)) => Some(Numerals("", m, s, ""))
      case _ => None
    else if |parts| == 1 && |r| >= 1 && r[|r| - 1] == 's' then
      var halves := Split(r[..|r| - 1], '.');
      if |halves| == 2 && AllDigits(halves[0]) && AllDigits(halves[1]) then Some(Numerals("", "", halves[0], halves[1]))
      else None
    else None
  }

  /** The dashboard shows durations under a minute exactly, and longer ones cut down to whole
      seconds. */
  lemma ReadDashTime(ms: nat)
    ensures ReadDash(DashTime(ms)) == Some(if ms >= 60000 then ms - ms % 1000 else ms)
  {
    var c := ClockOf(ms);
    ReadDashRender(c);
  }

  lemma ReadDashRender(c: Clock)
    ensures DashNumerals(DashRender(c)) == Some(DashFields(c))
    ensures ReadDash(DashRender(c)) == Some(if c.hours > 0 || c.minutes > 0 then Total(c) - c.millis else Total(c))
  {
    DashRenderNumerals(c);
    DashFieldsValue(c);
  }

  lemma DashFieldsValue(c: Clock)
    ensures Value(DashFields(c)) == if c.hours > 0 || c.minutes > 0 then Total(c) - c.millis else Total(c)
  {
    var n := DashFields(c);
    if c.hours > 0 {
      assert n == Numerals(NatToString(c.hours), NatToString(c.minutes), NatToString(c.seconds), "");
      DashValue(c, n);
    } else if c.minutes > 0 {
      assert n == Numerals("", NatToString(c.minutes), NatToString(c.seconds), "");
      DashValue(c, n);
    } else {
      assert n == Numerals("", "", NatToString(c.seconds), ZeroPad(c.millis, 3));
      DashValue(c, n);
    }
  }

  /** The numerals the dashboard prints for a clock: unpadded fields, and milliseconds only
      below a minute. */
  function DashFields(c: Clock): Numerals {
    if c.hours > 0 then Numerals(NatToString(c.hours), NatToString(c.minutes), NatToString(c.seconds), "")
    else if c.minutes > 0 then Numerals("", NatToString(c.minutes), NatToString(c.seconds), "")
    else Numerals("", "", NatToString(c.seconds), ZeroPad(c.millis, 3))
  }

  lemma DashRenderNumerals(c: Clock)
    ensures DashNumerals(DashRender(c)) == Some(DashFields(c))
  {
    var r := DashRender(c);
    if c.hours > 0 {
      DashThree(r, NatToString(c.hours), NatToString(c.minutes), NatToString(c.seconds));
    } else if c.minutes > 0 {
      DashTwo(r, NatToString(c.minutes), NatToString(c.seconds));
    } else {
      DashOne(r, NatToString(c.seconds), ZeroPad(c.millis, 3));
    }
  }

  /** Numerals that are the clock's unpadded fields, or empty where the dashboard leaves a field
      out, stand for the duration less whatever was left out. */
  lemma DashValue(c: Clock, n: Numerals)
    requires n.hours == NatToString(c.hours) || (n.hours == "" && c.hours == 0)
    requires n.minutes == NatToString(c.minutes) || (n.minutes == "" && c.minutes == 0)
    requires n.seconds == NatToString(c.seconds)
    requires n.millis == ZeroPad(c.millis, 3) || n.millis == ""
    ensures Value(n) == Total(c) - (if n.millis == "" then c.millis else 0)
  {
    NatToStringValue(c.hours);
    NatToStringValue(c.minutes);
    NatToStringValue(c.seconds);
    ZeroPadValue(c.millis, 3);
  }

  lemma DashThree(r: string, h: string, m: string, s: string)
    requires AllDigits(h) && AllDigits(m) && AllDigits(s) && |h| >= 1 && |m| >= 1 && |s| >= 1
    requires r == h + "h " + m + "m " + s + "s"
    ensures DashNumerals(r) == Some(Numerals(h, m, s, ""))
  {
    var ph, pm, ps := h + "h", m + "m", s + "s";
    UnitRead(ph, h, 'h');
    UnitRead(pm, m, 'm');
    UnitRead(ps, s, 's');
    SplitFree(ps, ' ');
    assert r == ph + [' '] + pm + [' '] + ps;
    Regroup(ph, pm, ps, ' ');
    Fields3(r, ph, pm, ps, ' ');
  }

  lemma DashTwo(r: string, m: string, s: string)
    requires AllDigits(m) && AllDigits(s) && |m| >= 1 && |s| >= 1
    requires r == m + "m " + s + "s"
    ensures DashNumerals(r) == Some(Numerals("", m, s, ""))
  {
    var pm, ps := m + "m", s + "s";
    UnitRead(pm, m, 'm');
    UnitRead(ps, s, 's');
    SplitFree(ps, ' ');
    assert r == pm + [' '] + ps;
    Fields2(r, pm, ps, ' ');
  }

  lemma DashOne(r: string, s: string, mmm: string)
    requires AllDigits(s) && AllDigits(mmm)
    requires r == s + "." + mmm + "s"
    ensures DashNumerals(r) == Some(Numerals("", "", s, mmm))
  {
    var body := r[..|r| - 1];
    assert body == s + "." + mmm;
    TailSplit(body, s, mmm);
    assert Free(r, ' ') by {
      forall i | 0 <= i < |r| ensures r[i] != ' ' {
        if i < |s| { assert r[i] == s[i]; }
        else if |s| < i < |r| - 1 { assert r[i] == mmm[i - |s| - 1]; }
      }
    }
    SplitFree(r, ' ');
  }

  /** A numeral with a unit letter holds no space and gives its numeral back. */
  lemma UnitRead(p: string, n: string, u: char)
    requires AllDigits(n) && |n| >= 1 && !IsDigit(u) && u != ' ' && p == n + [u]
    ensures Free(p, ' ')
    ensures UnitNumeral(p, u) == Some(n)
  {
    assert p[..|p| - 1] == n;
  }

  lemma DashTimeExamples()
    ensures DashTime(3045) == "3.045s"
    ensures DashTime(123456) == "2m 3s"
    ensures DashTime(3723045) == "1h 2m 3s"
  {
    DashSeconds();
    DashMinutes();
    DashHours();
  }

  lemma DashSeconds()
    ensures DashTime(3045) == "3.045s"
  {
    var c := Clock(0, 0, 3, 45);
    ClockAt(3045, c);
    PadTwo(45);
    DashShort(c, "3", "045");
  }

  lemma DashMinutes()
    ensures DashTime(123456) == "2m 3s"
  {
    var c := Clock(0, 2, 3, 456);
    ClockAt(123456, c);
    DashLong(c, "0", "2", "3");
  }

  lemma DashHours()
    ensures DashTime(3723045) == "1h 2m 3s"
  {
    var c := Clock(1, 2, 3, 45);
    ClockAt(3723045, c);
    DashLong(c, "1", "2", "3");
  }

  /** A dashboard rendering of a minute or more, put together from known numerals. */
  lemma DashLong(c: Clock, h: string, m: string, sec: string)
    requires c.hours > 0 || c.minutes > 0
    requires NatToString(c.hours) == h && NatToString(c.minutes) == m && NatToString(c.seconds) == sec
    ensures DashRender(c) == if c.hours > 0 then h + "h " + m + "m " + sec + "s" else m + "m " + sec + "s"
  {
  }

  /** A dashboard rendering under a minute, put together from known numerals. */
  lemma DashShort(c: Clock, sec: string, mmm: string)
    requires c.hours == 0 && c.minutes == 0
    requires NatToString(c.seconds) == sec && ZeroPad(c.millis, 3) == mmm
    ensures DashRender(c) == sec + "." + mmm + "s"
  {
  }
}

=== FILE: types.dfy ===
/** The records the coordinator keeps (backend/server.js:112-139, 243-258, 596-626). */
module Types {
  import opened Common
  import opened Validation

  /** A four-digit room code. */
  type Code = string
  /** A sanitized display name. */
  type Name = string
  /** A socket id. */
  type ConnId = string

  /** A room member: the socket currently bound to a display name. */
  datatype Member = Member(id: ConnId, username: Name)

  /** Per-room cumulative placement counters of one player. */
  datatype Stats = Stats(username: Name, first: nat, second: nat, third: nat, totalMatches: nat)

  /** One placed racer in a match summary. */
  datatype MatchResult = MatchResult(username: Name, position: nat, clicks: int, time: int)

  /** A committed race; `abandoned` when nobody held a placement. */
  datatype MatchSummary = MatchSummary(
    timestamp: int,
    playerCount: nat,
    target: string,
    difficulty: Difficulty,
    abandoned: bool,
    results: seq<MatchResult>)

  /** A lobby. `host` is `hostUsername` (null at creation); `leaderboard` is the JavaScript
      `Map` of counters in insertion order. */
  datatype Room = Room(
    code: Code,
    host: Option<Name>,
    players: seq<Member>,
    difficulty: Difficulty,
    leaderboard: seq<Stats>,
    matchHistory: seq<MatchSummary>)

  /** A member's progress in one race. `usedHint` and `currentArticle` are absent until the
      racer first reports them. */
  datatype Racer = Racer(
    id: ConnId,
    username: Name,
    clicks: int,
    time: int,
    path: seq<Js>,
    finished: bool,
    position: Option<nat>,
    usedHint: Option<bool>,
    currentArticle: Option<string>)

  /** One race of a room. */
  datatype Session = Session(
    code: Code,
    start: string,
    target: string,
    difficulty: Difficulty,
    players: seq<Racer>,
    finishedCount: nat,
    startTime: int)

  /** Room capacity (backend/server.js:173). */
  const MaxPlayers: nat := 6
}

=== FILE: validation.dfy ===
/** The server's input validators (backend/server.js). Socket payload fields arrive as
    arbitrary JSON, so they are modelled as JavaScript values and the validators' `typeof` and
    truthiness tests are written out. */
module Validation {
  import opened Common
  import opened Text

  /** A JSON value as a handler receives it. Numbers are integers in this model. */
  datatype Js =
    | JUndefined
    | JNull
    | JBool(b: bool)
    | JNum(n: int)
    | JStr(s: string)
    | JArr(items: seq<Js>)
    | JObject

  /** JavaScript truthiness (`!v` is `!Truthy(v)`). */
  predicate Truthy(v: Js) {
    match v
    case JUndefined => false
    case JNull => false
    case JBool(b) => b
    case JNum(n) => n != 0
    case JStr(s) => s != []
    case JArr(_) => true
    case JObject => true
  }

  datatype Difficulty = Easy | Medium | Hard

  function DifficultyName(d: Difficulty): string {
    match d
    case Easy => "easy"
    case Medium => "medium"
    case Hard => "hard"
  }

  /** `validateDifficulty`: only the three tier names are accepted. */
  function ValidateDifficulty(v: Js): (r: Option<Difficulty>)
    ensures r.Some? ==> v == JStr(DifficultyName(r.value))
    ensures r.None? ==> forall d :: v != JStr(DifficultyName(d))
  {
    if v == JStr("easy") then Some(Easy)
    else if v == JStr("medium") then Some(Medium)
    else if v == JStr("hard") then Some(Hard)
    else None
  }

  /** Every tier name is accepted as that tier. */
  lemma DifficultyRoundTrip(d: Difficulty)
    ensures ValidateDifficulty(JStr(DifficultyName(d))) == Some(d)
  {
  }

  /** `/^\d{4}$/`: exactly four ASCII digits. */
  predicate IsRoomCode(s: string) {
    |s| == 4 && AllDigits(s)
  }

  /** `sanitizeRoomCode`: the input itself when it is a string of four digits. */
  function SanitizeRoomCode(v: Js): (r: Option<string>)
    ensures r.Some? <==> v.JStr? && IsRoomCode(v.s)
    ensures r.Some? ==> r.value == v.s
  {
    if !Truthy(v) || !v.JStr? then None
    else if !IsRoomCode(v.s) then None
    else Some(v.s)
  }

  /** `generateRoomCode`: `Math.floor(1000 + Math.random() * 9000).toString()`; the random
      draw is the parameter. */
  function GenerateRoomCode(draw: nat): (code: string)
    requires 1000 <= draw <= 9999
    ensures IsRoomCode(code) && code[0] != '0'
  {
    NatToStringLength(draw);
    NatToString(draw)
  }

  /** Every generated code passes the room-code validator and denotes its draw, so distinct
      draws give distinct codes. */
  lemma GeneratedCodeValid(draw: nat)
    requires 1000 <= draw <= 9999
    ensures SanitizeRoomCode(JStr(GenerateRoomCode(draw))) == Some(GenerateRoomCode(draw))
    ensures DigitsValue(GenerateRoomCode(draw)) == draw
  {
    NatToStringValue(draw);
  }

  /** The characters `String.prototype.trim` removes: WhiteSpace and LineTerminator. */
  predicate IsJsSpace(c: char) {
    || c == '\t' || c == '\n' || c == '\U{000B}' || c == '\U{000C}' || c == '\r' || c == ' '
    || c == '\U{00A0}' || c == '\U{1680}' || ('\U{2000}' <= c <= '\U{200A}')
    || c == '\U{2028}' || c == '\U{2029}' || c == '\U{202F}' || c == '\U{205F}'
    || c == '\U{3000}' || c == '\U{FEFF}'
  }

  predicate AllSpace(s: string) {
    forall i :: 0 <= i < |s| ==> IsJsSpace(s[i])
  }

  function TrimStart(s: string): (r: string)
    ensures |r| <= |s| && r == s[|s| - |r|..]
    ensures AllSpace(s[..|s| - |r|])
    ensures r == [] || !IsJsSpace(r[0])
  {
    if s != [] && IsJsSpace(s[0]) then TrimStart(s[1..]) else s
  }

  function TrimEnd(s: string): (r: string)
    ensures |r| <= |s| && r == s[..|r|]
    ensures AllSpace(s[|r|..])
    ensures r == [] || !IsJsSpace(r[|r| - 1])
  {
    if s != [] && IsJsSpace(s[|s| - 1]) then TrimEnd(s[..|s| - 1]) else s
  }

  /** `r` is `s` with the white space `s[..i]` and `s[i + |r|..]` removed from its ends. */
  ghost predicate TrimmedAt(s: string, r: string, i: nat) {
    i + |r| <= |s| && r == s[i..i + |r|] && AllSpace(s[..i]) && AllSpace(s[i + |r|..])
  }

  /** `s.trim()`: the middle of `s` left after removing white space at both ends. */
  function Trim(s: string): (r: string)
    ensures exists i :: TrimmedAt(s, r, i)
    ensures r == [] || (!IsJsSpace(r[0]) && !IsJsSpace(r[|r| - 1]))
  {
    var a := TrimStart(s);
    var r := TrimEnd(a);
    TrimSlice(s, a, r);
    r
  }

  lemma TrimSlice(s: string, a: string, r: string)
    requires |a| <= |s| && a == s[|s| - |a|..] && AllSpace(s[..|s| - |a|])
    requires |r| <= |a| && r == a[..|r|] && AllSpace(a[|r|..])
    ensures TrimmedAt(s, r, |s| - |a|)
  {
    var i := |s| - |a|;
    assert a == s[i..];
    assert r == s[i..i + |r|];
    assert AllSpace(s[..i]);
    assert s[i + |r|..] == a[|r|..];
    assert AllSpace(s[i + |r|..]);
  }

  /** `validator.escape` (an external library): each HTML-special character becomes its entity. */
  function EscapeChar(c: char): (r: string)
    ensures r != [c] ==> '&' in r
  {
    match c
    case '&' => "&amp;"
    case '"' => "&quot;"
    case '\'' => "&#x27;"
    case '<' => "&lt;"
    case '>' => "&gt;"
    case '/' => "&#x2F;"
    case '\\' => "&#x5C;"
    case '`' => "&#96;"
    case _ => [c]
  }

  function Escape(s: string): (r: string)
    ensures |r| >= |s|
  {
    if s == [] then [] else EscapeChar(s[0]) + Escape(s[1..])
  }

  /** `[a-zA-Z0-9 _-]`. */
  predicate IsNameChar(c: char) {
    ('a' <= c <= 'z') || ('A' <= c <= 'Z') || IsDigit(c) || c == ' ' || c == '_' || c == '-'
  }

  predicate AllNameChars(s: string) {
    forall i :: 0 <= i < |s| ==> IsNameChar(s[i])
  }

  /** Escaping leaves the username alphabet alone and turns anything it rewrites into text
      containing '&', which lies outside that alphabet. */
  lemma {:induction false} EscapeNameChars(s: string)
    ensures AllNameChars(s) ==> Escape(s) == s
    ensures AllNameChars(Escape(s)) ==> AllNameChars(s)
    decreases |s|
  {
    if s != [] {
      EscapeNameChars(s[1..]);
      var e := EscapeChar(s[0]);
      assert Escape(s) == e + Escape(s[1..]);
      if AllNameChars(Escape(s)) {
        assert AllNameChars(e) by {
          forall i | 0 <= i < |e| ensures IsNameChar(e[i]) { assert Escape(s)[i] == e[i]; }
        }
        assert e == [s[0]];
        assert AllNameChars(Escape(s[1..])) by {
          forall i | 0 <= i < |Escape(s[1..])| ensures IsNameChar(Escape(s[1..])[i]) {
            assert Escape(s)[|e| + i] == Escape(s[1..])[i];
          }
        }
      }
    }
  }

  /** A display name the server accepts: 1 to 20 characters from `[A-Za-z0-9 _-]`. */
  predicate IsUsername(t: string) {
    1 <= |t| <= 20 && AllNameChars(t)
  }

  /** `sanitizeUsername`: trim, escape, then check length and alphabet. Because the alphabet
      contains nothing the escape rewrites, the name is accepted exactly when its trimmed form
      is a valid display name, and then it is returned trimmed but otherwise unchanged. */
  function SanitizeUsername(v: Js): (r: Option<string>)
    ensures r.Some? <==> v.JStr? && IsUsername(Trim(v.s))
    ensures r.Some? ==> r.value == Trim(v.s)
  {
    if !Truthy(v) || !v.JStr? then None
    else
      var t := Trim(v.s);
      var cleaned := Escape(t);
      EscapeNameChars(t);
      if |cleaned| < 1 || |cleaned| > 20 then None
      else if !AllNameChars(cleaned) then None
      else Some(cleaned)
  }

  /** `s.substring(0, k)`. */
  function Prefix(s: string, k: nat): (r: string)
    ensures |r| <= k && |r| <= |s| && r == s[..|r|]
    ensures |s| <= k ==> r == s
  {
    if |s| <= k then s else s[..k]
  }

  /** One entry of `sanitizePath` for arrays of at most 1000 entries. */
  function SanitizeTitle(v: Js): (r: Js)
    ensures r.JStr?
    ensures !v.JStr? ==> r == JStr("")
    ensures v.JStr? ==> r == JStr(Escape(Prefix(v.s, 500)))
  {
    if v.JStr? then JStr(Escape(Prefix(v.s, 500))) else JStr("")
  }

  /** `sanitizePath`: `[]` for a non-array; an array longer than 1000 is cut to its first 1000
      entries, which are NOT sanitized; a shorter array is sanitized entry by entry. */
  function SanitizePath(v: Js): (r: seq<Js>)
    ensures !v.JArr? ==> r == []
    ensures v.JArr? ==> |r| == if |v.items| > 1000 then 1000 else |v.items|
    ensures v.JArr? && |v.items| > 1000 ==> r == v.items[..1000]
    ensures v.JArr? && |v.items| <= 1000 ==>
              forall i :: 0 <= i < |r| ==>
                && r[i].JStr?
                && (!v.items[i].JStr? ==> r[i] == JStr(""))
                && (v.items[i].JStr? ==> r[i] == JStr(Escape(Prefix(v.items[i].s, 500))))
  {
    if !v.JArr? then []
    else if |v.items| > 1000 then v.items[..1000]
    else seq(|v.items|, i requires 0 <= i < |v.items| => SanitizeTitle(v.items[i]))
  }

  /** A short title made of display-name characters passes through `sanitizePath` unchanged. */
  lemma SanitizeTitlePlain(s: string)
    requires |s| <= 500 && AllNameChars(s)
    ensures SanitizeTitle(JStr(s)) == JStr(s)
  {
    EscapeNameChars(s);
  }

  /** `typeof v === 'number' && v >= 0 && v <= hi`, yielding the number when it holds. */
  function InRange(v: Js, hi: int): (r: Option<int>)
    ensures r.Some? <==> v.JNum? && 0 <= v.n <= hi
    ensures r.Some? ==> r.value == v.n
  {
    if v.JNum? && 0 <= v.n && v.n <= hi then Some(v.n) else None
  }

  const MaxClicks: int := 10000
  const MaxTimeMs: int := 86400000
}
